=== FILE: README.md ===
# drugs-satisfaction scraper core, modelled in Dafny

The drugs-satisfaction repository scrapes experience reports from Erowid and
turns them into per-tag statistics. This project models its core as pure
Dafny functions over immutable datatypes and proves properties about them.
Once the network, the HTML parser and the file system are made into values,
that core covers:

- **Record extraction.** This is `extract_data` in its three versions: the current
  `src/experiences_scraper.py`, the older `experiences_scraper.py` with
  class-level shared lists, and `erowid_scraping.py`. The thesis script's
  `get_experience` is modelled too. Extraction covers the story between the
  "Start Body" and "End Body" comments, the dose chart, and the footer with its
  metadata, substances and tags. Footer lists are parsed either with the
  `split_tags` regular expression or with `_dict_from_str`.
- **Ids, paths and the download queue.** The experience id comes from
  `?ID=n`, a record is saved to `<folder>/<id>.json`, and a url is queued only
  when that file is absent. Queue updates are idempotent.
- **Listing pages.** The search pages are the Start offsets 0, 1000, ..., 39000.
  Each page's list id is `Start_Start+Max`, and experience urls are assembled
  from the first anchor of each table row.
- **The proxy rotator** (`ProxyServer`): a shuffled, non-empty server list
  with an index that wraps round.
- **The fetch policy** (`ElementScraper.get`): one retry through the next
  server after a connection failure, no retry after an HTTP error, and a
  discarded extra call after a block notice.
- **The download loops.** `ListScraper.download` and its earliest form count
  successes and failures, log failed urls per exception class, and pause only
  after uncached pages. The thesis script's `download_from_list` also counts
  pages already saved and resets the Tor identity every `reset_id_every` urls.
- **Tag statistics** (`src/processor.py`): loading a saved record, folding
  alias `2-9` into `17`, counting appearances and `1/n` usage shares and
  co-appearances, the doubled experience total, `calculate_stats`, and the
  dict-level part of the co-appearance matrix.

Inputs that the source reads from the outside world are parameters of the
model:

- A parsed page is a `Page.Node` tree (comments, text, elements with classes,
  attributes and children).
- The network is an oracle `nat -> Reply` indexed by call number.
- The files already on disk are a `set<string>` of paths.
- A shuffled list of ids is passed in as any sequence of ids. Where a
  property depends on it being `random.shuffle` of `range(1, 130000)`, the
  lemma requires `Queue.IsShuffledRange`, a multiset equality with that range.
- A pause, a log append, a Tor reset and a file write are `Crawl.Event`
  values.

Exceptions are the failure side of `Wrappers.Result`, named after the Python
class the source raises.

The modules follow the program's structure:
- `Wrappers`, `Seqs`, `Strings`, `Dicts`: Python values and `str` methods.
- `TextFiles`: the one-url-per-line list files.
- `Locations`: urls, ids and paths.
- `Page`: the parsed tree and `find_all`.
- `TagParse`: `split_tags` and `_dict_from_str`.
- `Story`, `DoseChart`, `FootData`, `Experience`: record extraction.
- `Queue`: experience queue updates.
- `Listing`: the url-list scraper.
- `Proxy`, `Fetch`, `Crawl`: connection, `get` and the download loops.
- `Processor`: tag statistics.

## Model

| member | source | states |
|---|---|---|
| Dicts.PutAllLookup | src/experiences_scraper.py:144-147 | after a run of dict assignments each key holds the last value assigned to it, or its earlier value when none was |
| Dicts.PutAllKeys | src/experiences_scraper.py:144-147 | a key is present after the assignments exactly when it was before or some assignment is to it |
| TextFiles.FromTxtToList | src/scraper/scrapers.py:30-41 | the file is read with universal newlines (`\r\n` and a lone `\r` end a line like `\n`); every entry is non-empty, has no `\n` or `\r`, and neither starts nor ends with a `str.isspace` character (Unicode spaces such as no-break space included) |
| TextFiles.FromTxtToListLines | src/scraper/scrapers.py:36-41 | a file written one entry per line reads back as exactly those entries, in order, for entries that are non-empty, free of `\n` and `\r` and `str.strip`-clean; a line of Unicode whitespace alone is dropped as in the source |
| TextFiles.FromTxtToListConcat | src/scraper/scrapers.py:36-41 | lines are read independently: two files joined at a newline read as the two lists concatenated |
| TextFiles.UniversalCrlf | src/scraper/scrapers.py:36 | universal-newline reading turns a file written with `\r\n` line ends, for entries without `\r`, into the same text written with `\n` |
| TextFiles.FromTxtToListCrlf | src/scraper/scrapers.py:36-41 | a file written one entry per line with Windows `\r\n` line ends reads back as exactly those entries |
| Locations.ExpId | src/experiences_scraper.py:31 | following `urlsplit` (leading C0 controls and spaces stripped, tabs, CRs and LFs deleted), ValueError exactly when the netloc holds a lone `[` or `]`; otherwise the id is found exactly when the query holds an `=` (IndexError otherwise); an id contains neither `=` nor `#` nor a deleted character, and only characters of the url |
| Locations.ExpIdOf | src/experiences_scraper.py:31 | a url `prefix?key=id` yields the id `id` with its tabs and line breaks deleted |
| Locations.LoneBracketRefused | src/experiences_scraper.py:31 | an `https` url whose host holds `[` without `]` raises ValueError instead of yielding an id |
| Locations.ExpIdOfNumber | src/experiences_scraper.py:31 | the generated url `base_url + str(n)` yields the id `str(n)` |
| Locations.ThesisSavePath | erowid_download_thesis.py:106-111 | the returned path is never an existing file; the url's own error (IndexError without an id, ValueError on a lone bracket); otherwise it fails exactly when `experiences_db/<id>.json` exists, with the "Experience already saved" exception |
| Locations.ThesisPathIsJoined | erowid_download_thesis.py:108 | the thesis path equals `os.path.join("experiences_db", id + ".json")` of the older class version |
| Locations.PathId | src/processor.py:108 | an id read from a path by `/(\d+)\.json` is a non-empty run of digits |
| Locations.PathIdOfTail | src/processor.py:108 | a path ending in `/<digits>.json` after a head without `.json` yields those digits |
| Locations.PathIdOfJsonPath | src/processor.py:108 | round trip with the save path: the file saved for `str(n)` in a non-empty folder without `.json` (such as `../data/experiences_db`) yields `str(n)` |
| Page.Find | src/experiences_scraper.py:136-138 | `find` is the first result of `find_all`, and is absent exactly when `find_all` finds nothing |
| TagParse.SplitTags | src/experiences_scraper.py:113-130 | every result has a stripped name and a non-empty all-digit id; there are no more results than `)` in the text |
| TagParse.FindIterStep | src/experiences_scraper.py:123-129 | a match at the current position is reported with both groups stripped and the search resumes after it |
| TagParse.SplitTagsRender | src/experiences_scraper.py:120-130 | round trip: a footer list printed as "name (id), ..." from well-formed tags parses back into exactly those tags, in order |
| TagParse.SplitTagsExample | src/experiences_scraper.py:120-130 | "Alcohol (24), Cannabis (8)" gives Alcohol/24 then Cannabis/8 |
| TagParse.SplitTagsAbsorbs | src/experiences_scraper.py:122 | a fragment without an id is not skipped but absorbed, with its comma, into the next tag's name |
| TagParse.SplitTagsAbsorbExample | src/experiences_scraper.py:122 | "General, Small Group (5)" is one tag named "General, Small Group" |
| TagParse.DictFromStr | experiences_scraper.py:112-119 | `_dict_from_str` succeeds exactly when the fragment has a `(`, raises IndexError otherwise, and gives a stripped name free of `(` (the same function is erowid_scraping.py:135-142) |
| TagParse.DictFromStrEntry | experiences_scraper.py:112-119 | a printed entry, after any leading whitespace, parses back into its tag |
| TagParse.ThesisDictFromStr | erowid_download_thesis.py:66-70 | the thesis helper succeeds exactly when the fragment has a `(` and raises IndexError otherwise |
| TagParse.DictsFromCompletes | experiences_scraper.py:139-144 | the appending loop over the comma fragments runs to the end exactly when every fragment has a `(` |
| TagParse.DictsFromParses | experiences_scraper.py:139-144 | every dict appended before a failure is its own fragment's parse |
| TagParse.DictsFromList | experiences_scraper.py:138-144 | a segment that parses gives one entry per comma fragment: commas + 1 |
| TagParse.DictsFromListRender | experiences_scraper.py:138-144 | round trip for the older parser: a printed list of comma-free tags parses back into those tags |
| DoseChart.DoseRow | src/experiences_scraper.py:89-110 | a row fails exactly without a substance cell, with an `href`-less first link (KeyError) or with fewer than two children; a present amount, method or form cell gives its stripped text and a missing one ''; the name is the substance cell's stripped text and the id its first link's stripped `href` ('' without a link); the use time is the second child's text with `DOSE:` removed, stripped |
| DoseChart.DoseRowTrimmed | src/experiences_scraper.py:90-104 | every field of a lenient dose is stripped of all `str.isspace` characters at both ends, no-break spaces included |
| DoseChart.UseTimeOfLabel | src/experiences_scraper.py:104 | the use time of "DOSE:" + t (t without the label) is t stripped |
| DoseChart.Doses | src/experiences_scraper.py:87-89 | no `dosechart` gives no doses and no failure; any failure is IndexError or KeyError |
| DoseChart.DosesPerRow | src/experiences_scraper.py:87-110 | doses and `tr` rows correspond one to one: no failure iff every row parses, then one dose per row, each that row's own record |
| DoseChart.ThesisDoseRow | erowid_download_thesis.py:53-63 | a strict row succeeds exactly when every cell, a substance link with an `href` and the second child exist, and then holds those texts unstripped; KeyError exactly when the cells before the link are there and the link lacks `href`; every other failure is IndexError |
| DoseChart.ThesisDoses | erowid_download_thesis.py:50-63 | a page without `dosechart` raises IndexError; the page succeeds exactly when the chart exists and every `tr` row of the first chart is complete, and then gives one dose per row, each the strict reading of its row; every failure is IndexError or KeyError |
| DoseChart.StrictRowAgrees | erowid_download_thesis.py:55-61 | where the strict row succeeds, the lenient row succeeds with the strict record stripped and "DOSE:" removed |
| DoseChart.StrictChartAgrees | erowid_download_thesis.py:51-63 | where the strict chart succeeds, the lenient chart has as many records, each the strict one tidied |
| Story.StoryRowsWindow | src/experiences_scraper.py:67-79 | the marker loop collects exactly the kept children strictly between the first "Start Body" and the first "End Body" |
| Story.StoryRowsSaving | src/experiences_scraper.py:74-79 | once collecting, the loop keeps every kept child up to the first "End Body" and nothing after it |
| Story.ParagraphsClean | src/experiences_scraper.py:76-79 | every paragraph is non-empty and stripped of all `str.isspace` characters, so a child that is only a no-break space is dropped |
| Story.StoryWithoutStart | src/experiences_scraper.py:80-81 | without a "Start Body" before the first "End Body" the story is empty rather than an error |
| Story.ExtractStory | src/experiences_scraper.py:62-68 | MissingExperienceFromPage exactly when the page has no story container; otherwise the first container's window |
| Story.ThesisStorySnoc | erowid_download_thesis.py:38-48 | one more child adds at most its own paragraph, decided by the collecting state the markers up to it leave |
| Story.ThesisResumes | erowid_download_thesis.py:39-43 | after "End Body" a second "Start Body" resumes the thesis loop, while the current loop has stopped |
| Story.ThesisBlankParagraph | erowid_download_thesis.py:45-48 | a text child of two newlines gives an empty paragraph in the thesis loop |
| Story.ThesisExtractStory | erowid_download_thesis.py:32-35 | a bare Exception carrying "Missing Experience report for this ID" exactly when there is no story container |
| FootData.MetaPair | src/experiences_scraper.py:145-147 | a child's text gives a key/value pair exactly when it holds one `:`; neither half holds one |
| FootData.MetaPairOf | src/experiences_scraper.py:145-147 | `key:value` with colon-free halves reads back as that pair |
| FootData.MetaSources | erowid_download_thesis.py:77-83 | the thesis reads exactly `contents[0]` and `contents[1]`, in that order, of a multi-child row; the other versions read every child |
| FootData.ListOf | src/experiences_scraper.py:149-151 | `split_tags` never fails and gives parsed tags; the older parser fails only with IndexError and otherwise gives commas + 1 entries |
| FootData.RowEffect | src/experiences_scraper.py:141-151 | one footer row either assigns metadata pairs or extends the lists, never both; its only failure is IndexError |
| FootData.FooterRows | src/experiences_scraper.py:141-151 | the footer loop only adds metadata keys and only appends to the lists; it stops only on IndexError |
| FootData.BodyWeight | src/experiences_scraper.py:138-139 | the body weight is '' without its element; only the thesis fails there, with AttributeError |
| FootData.ExtractFooter | src/experiences_scraper.py:136-151 | the lists only grow, `body_weight` is always a key outside the thesis, and failures are IndexError, TypeError or AttributeError |
| FootData.MetaRowLookup | src/experiences_scraper.py:143-147 | a multi-child row leaves each key with the last value its children assign, or the value it had |
| FootData.ListRowCurrent | src/experiences_scraper.py:148-151 | the list row "a:b" appends `split_tags(a)` to the substances and `split_tags(b)` to the tags, without failing |
| FootData.ListRowOlder | experiences_scraper.py:137-144 | the older list row appends one entry per comma fragment on each side when it succeeds |
| FootData.ListRowWithoutColon | src/experiences_scraper.py:149-151 | a list row without `:` raises IndexError in every version |
| FootData.FooterRowsShift | experiences_scraper.py:139-144 | the loop appends the same entries and fails alike whatever the lists already hold |
| FootData.ExtractFooterShift | experiences_scraper.py:121-144 | the footer extraction only appends to the lists it is given |
| Experience.Title | src/experiences_scraper.py:136 | AttributeError exactly when the page has no title element; the title is stripped |
| Experience.ExtractCurrent | src/experiences_scraper.py:50-56 | a record holds its page's story window and full dose chart, a `body_weight` key and parsed tags; no story container is MissingExperienceFromPage |
| Experience.CurrentTagsParsed | src/experiences_scraper.py:150-151 | every footer tag and substance of the current version comes from `split_tags` |
| Experience.ExtractOlder | experiences_scraper.py:26-56 | the shared lists only grow, and a record's story, doses, substances and tags are the shared lists after it |
| Experience.OlderShift | experiences_scraper.py:29-33 | what an extraction appends, and whether it fails, does not depend on what the shared lists already hold |
| Experience.OlderLists | experiences_scraper.py:58-110 | an extraction appends its own page's story window and doses to the shared lists |
| Experience.OlderFirstAgrees | experiences_scraper.py:58-110 | the first instance sees its own page's story and doses, as the current version does |
| Experience.OlderAccumulates | experiences_scraper.py:29-33 | a later record's story, doses, substances and tags start with the earlier record's |
| Experience.OlderRepeats | experiences_scraper.py:29-33 | extracting the same page twice yields its story twice over |
| Experience.ExtractEarliest | erowid_scraping.py:73-79 | the earliest version also appends to shared lists, and raises MissingExperience without a story container |
| Experience.EarliestAgrees | erowid_scraping.py:81-104 | the earliest and older versions agree on the lists and on success, and differ only in the missing-story exception class |
| Experience.OlderNeverMissing | experiences_scraper.py:62-65 | with a story container the older version never reports the story missing |
| Experience.ExtractThesis | erowid_download_thesis.py:26-103 | no story container gives the bare Exception; a record carries the given title and needs a dose chart and a body weight |
| Experience.ThesisDosesAgree | erowid_download_thesis.py:50-63 | where both versions accept a page, the current doses are the thesis doses tidied, one for one |
| Experience.ToDict | src/experiences_scraper.py:160-167 | `to_dict` is a valid dict with the six keys in the source's order |
| Experience.FromDictToDict | src/processor.py:112-118 | a record written by `to_dict` loads back unchanged |
| Queue.Generated | src/experiences_scraper.py:202-207 | one url per id of the shuffled range, each yielding its own id |
| Queue.EntriesStop | src/experiences_scraper.py:208-210 | the loop stops exactly at the first url without an id, with that url's exception |
| Queue.EntriesFresh | src/experiences_scraper.py:208-215 | every queued job is saved to its id's file, which does not exist yet, and fetches a url carrying that id |
| Queue.Update | src/experiences_scraper.py:208-215 | the queue keeps its keys and stays a valid dict; a failure is IndexError (no id) or ValueError (a lone bracket) |
| Queue.EntriesAssign | src/experiences_scraper.py:208-215 | an id is assigned exactly when a url handled before any exception carries it and its file is absent |
| Queue.QueuedIds | src/experiences_scraper.py:208-215 | after an update the queue holds an id exactly when it did before or a handled url carries it and its file is absent (the same loop as experiences_scraper.py:185-192 and erowid_scraping.py:253-260) |
| Queue.UpdateSnoc | src/experiences_scraper.py:215 | a later url with an already queued id replaces the earlier job |
| Queue.UpdateIdempotent | src/experiences_scraper.py:208-215 | running the same update again changes nothing |
| Queue.RerunAfterSaving | src/experiences_scraper.py:210-215 | once every queued record is saved, a rerun queues nothing new |
| Queue.GeneratedQueued | src/experiences_scraper.py:199-215 | without a list file the update never fails and queues exactly the generated ids whose file is absent, for any order of ids |
| Queue.ShuffledRangeMembers | src/experiences_scraper.py:202-204 | a shuffle of `range(1, 130000)` holds exactly the ids from 1 to 129999 |
| Queue.ShuffledRangeIds | src/experiences_scraper.py:202-207 | the urls generated from a shuffled range carry exactly the ids of the range |
| Queue.ShuffledRangeQueued | src/experiences_scraper.py:199-215 | from a shuffled range the queue gains exactly the ids 1 to 129999 whose file is absent, whatever the shuffle's order, and the update never fails |
| Queue.UpdateFromFolder | src/experiences_scraper.py:174-185 | a missing folder changes nothing |
| Queue.UpdateFilesFlat | src/experiences_scraper.py:181-185 | updating file by file is one update over all the `.txt` files' urls in listing order |
| Queue.UpdateFromFolderIdempotent | src/experiences_scraper.py:174-185 | updating from the same folder twice gives the queue of doing it once |
| Queue.UpdateAppend | src/experiences_scraper.py:208-215 | an update over two lists, the first running through, is the update over the second after the first |
| Listing.ListIdParts | src/urls_scraper.py:23 | the list id's two `_`-halves read back as the first and last offsets |
| Listing.ListIdInjective | src/urls_scraper.py:23 | two pages with the same list id cover the same range |
| Listing.RangeAt | src/urls_scraper.py:77 | the k-th offset is `start + k * step`, below the end |
| Listing.RangeEnd | src/urls_scraper.py:77 | the offsets stop at the first step reaching the end |
| Listing.StartsCount | src/urls_scraper.py:65-77 | there are forty search pages |
| Listing.StartsAt | src/urls_scraper.py:65-77 | the k-th page starts at 1000·k |
| Listing.ListJobs | src/urls_scraper.py:77-86 | each queued page has the base query with only `Start` changed, its list id as key, and a missing list file as save path |
| Listing.ListJobsAssign | src/urls_scraper.py:77-86 | a page gets a job exactly when its offset is enumerated and its file is missing |
| Listing.UpdateListing | src/urls_scraper.py:70-86 | the queue keeps its keys and stays a valid dict |
| Listing.ListingQueued | src/urls_scraper.py:77-86 | the k-th page is queued after the update exactly when it was before or its list file is missing |
| Listing.ListingIdempotent | src/urls_scraper.py:70-86 | running the update twice queues nothing more |
| Listing.RowUrl | src/urls_scraper.py:47-48 | KeyError exactly when the anchor has no `href`; otherwise the url is the experiences base followed by the anchor's stripped `href`, and is itself stripped |
| Listing.RowUrls | src/urls_scraper.py:44-49 | at most one url per row, each extending the base; the only failure is KeyError |
| Listing.ExtractUrls | src/urls_scraper.py:43-49 | a page without `exp-list-table` raises IndexError; failures are IndexError or KeyError |
| Listing.RowUrlsOk | src/urls_scraper.py:44-47 | extraction fails exactly when some row's first anchor has no `href` |
| Listing.RowUrlsCount | src/urls_scraper.py:44-49 | one url per row that has an anchor |
| Listing.RowUrlsAt | src/urls_scraper.py:44-49 | the k-th url is built from the k-th anchored row's first anchor |
| Listing.SavedListReadsBack | src/urls_scraper.py:55-58 | a saved url list reads back with `from_txt_to_list` as the extracted urls |
| Proxy.NewProxyServer | src/scraper/connection.py:25-31 | AssertionError exactly without servers; otherwise the servers in shuffled order, index 0, credentials kept |
| Proxy.ShuffleKeepsServers | src/scraper/connection.py:29 | every configured server is somewhere in the shuffled list |
| Proxy.UpdateServerUsed | src/scraper/connection.py:33-41 | the index moves to `(index + 1) mod len`, staying in range; servers and credentials unchanged |
| Proxy.AdvanceAdd | src/scraper/connection.py:33-41 | successive updates compose |
| Proxy.AdvanceWithin | src/scraper/connection.py:37-38 | before the end of the list each update moves one place on |
| Proxy.FullRound | src/scraper/connection.py:37-41 | `len(servers)` updates return the rotator to where it was |
| Proxy.RotationVisitsAll | src/scraper/connection.py:37-41 | every server comes into use within one round of updates |
| Proxy.GetProxy | src/scraper/connection.py:44-53 | both schemes get the same proxy string |
| Proxy.ProxyStringServer | src/scraper/connection.py:49 | different servers give different proxy strings |
| Proxy.CredentialsProxy | erowid_scraping.py:33-42 | the earliest credentials give the same string for both schemes |
| Proxy.ProxiesAgree | erowid_scraping.py:38-42 | the two classes build the same settings for the same server |
| Fetch.Refetch | src/scraper/scrapers.py:56-63 | next server, one cache deletion, one call through the new server, whose reply is returned unchecked; AttributeError without a server |
| Fetch.FirstAttempt | src/scraper/scrapers.py:70-76 | one or two calls, the rotation matching the retries, and a result the last call produced or an HTTPError/AttributeError |
| Fetch.Get | src/scraper/scrapers.py:65-81 | at most three calls, the first through the server in use, each later one after exactly one rotation and one cache deletion |
| Fetch.AfterBlock | src/scraper/scrapers.py:77-79 | after a block notice one more call through the next server, whose response is dropped |
| Fetch.GetExperience | erowid_scraping.py:64-71 | one call with the given settings, no status check and no retry |
| Fetch.CallsRotate | src/scraper/scrapers.py:70-79 | the k-th call goes through the server k updates on |
| Fetch.ServedFromNet | src/scraper/scrapers.py:71-80 | a response `get` keeps is one its calls received |
| Fetch.RaisedFromNet | src/scraper/scrapers.py:71-79 | an exception `get` raises is one a call raised, or its own HTTPError/AttributeError |
| Fetch.CleanFirstResponse | src/scraper/scrapers.py:71-81 | a good first response that is no block notice is kept after one call, without rotating |
| Fetch.StatusErrorNotRetried | src/scraper/scrapers.py:72-74 | an error status raises HTTPError at once, without a retry |
| Fetch.FailureRetried | src/scraper/scrapers.py:74-76 | a connection failure is retried through the next server, is AttributeError without one, and other exceptions propagate |
| Fetch.RetryNotChecked | src/scraper/scrapers.py:74-76 | the retry's response is kept even with an error status |
| Fetch.BlockedPageKept | src/scraper/scrapers.py:77-81 | a block notice through a proxy whose socket can be read costs one more call and one rotation, yet the blocked page is kept with its `was_cached`; a cached notice, or one whose connection is gone, raises AttributeError while the log message is built, with no further call, no rotation and `was_cached` left False |
| Fetch.EarliestAgrees | erowid_scraping.py:64-71 | without a proxy the two fetchers differ only on error statuses and connection failures |
| Crawl.Download | src/scraper/scrapers.py:107-136 | without an exception leaving the loop every item is counted once; only `raise_exceptions` lets one leave |
| Crawl.DownloadCounts | src/scraper/scrapers.py:118-134 | without `raise_exceptions` successes count as downloaded and the rest as failed (the same loop as erowid_scraping.py:211-227) |
| Crawl.FailureLogLines | src/scraper/scrapers.py:126-133 | each exception class's log receives exactly the urls that failed with it, one per line, in order |
| Crawl.LogOfItem | src/scraper/scrapers.py:129-132 | an item appends its url only to its own class's log |
| Crawl.FailedLogInjective | src/scraper/scrapers.py:130 | different exception classes log to different files |
| Crawl.DownloadSleeps | src/scraper/scrapers.py:135-136 | when waiting the loop pauses once per uncached item, otherwise never |
| Crawl.DownloadRaises | src/scraper/scrapers.py:126-128 | with `raise_exceptions` the first failure leaves the loop with its exception, after the items before it, logging nothing |
| Crawl.Attempt | erowid_download_thesis.py:124-129 | a record is written only to a new path, exactly when the save path and the page both succeed |
| Crawl.AttemptTally | erowid_download_thesis.py:124-144 | one url counts once as downloaded, failed or already there, or the handler raises IndexError; a written file is new; failed urls are logged alone |
| Crawl.Preamble | erowid_download_thesis.py:120-123 | before the `try` block nothing is counted, and the identity is reset exactly at a multiple of the interval |
| Crawl.ThesisStep | erowid_download_thesis.py:119-144 | one url counts once unless something raised; ZeroDivisionError exactly for a zero interval |
| Crawl.StepSaved | erowid_download_thesis.py:126-140 | a step writes at most one new file, counted as its download, and logs nothing or its own url |
| Crawl.StepResets | erowid_download_thesis.py:122-123 | a step resets the identity exactly at a multiple of the interval |
| Crawl.ThesisFrom | erowid_download_thesis.py:119-145 | from position i every remaining url is counted once unless the loop raised ZeroDivisionError or IndexError |
| Crawl.DownloadFromList | erowid_download_thesis.py:114-146 | every url counted once unless raised; written files are new and pairwise different |
| Crawl.SavedFresh | erowid_download_thesis.py:126-130 | files written are new, pairwise different, one per download |
| Crawl.ZeroResetRaises | erowid_download_thesis.py:120-123 | a zero interval raises at the first url, after its pause, before anything is fetched |
| Crawl.ResetsAtMultiples | erowid_download_thesis.py:122-123 | the identity is reset exactly at the positions that are multiples of the interval |
| Crawl.FailedTextOneLine | erowid_download_thesis.py:139 | failed urls are written without separators, so the failure file reads back as at most one line |
| Crawl.NoZeroDivision | erowid_download_thesis.py:122 | with a positive interval the loop never divides by zero |
| Crawl.FileUrlsLines | erowid_download_thesis.py:160-163 | a file written one url per line is read by `download_from_file` as exactly those urls, for urls free of `\n` and `\r` |
| Crawl.FileUrlsCrlf | erowid_download_thesis.py:160-163 | the same holds for a file written with Windows `\r\n` line ends |
| Crawl.BlankLineKept | erowid_download_thesis.py:160-163 | unlike `from_txt_to_list`, a blank line stays as an empty url |
| Crawl.DownloadFromFile | erowid_download_thesis.py:160-163 | every line of the file is counted once unless the handler raised IndexError |
| Crawl.DownloadTutto | erowid_download_thesis.py:149-157 | every id passed in is counted once unless the handler raised IndexError |
| Crawl.TuttoCountsRange | erowid_download_thesis.py:151-157 | from a shuffle of `range(1, 130000)` exactly 129999 urls are counted, unless IndexError leaves the loop |
| Crawl.TuttoSavePaths | erowid_download_thesis.py:149-157 | the k-th generated url saves to `experiences_db/<id>.json` or is reported as already saved |
| Processor.GetExp | src/processor.py:95-118 | a duplicate's path is a bare Exception, unreadable JSON JSONDecodeError, a path without `/<digits>.json` IndexError; a loaded record has the path's digit id |
| Processor.GetExpOfSaved | src/processor.py:102-118 | a record saved as `<folder>/<n>.json`, for a non-empty folder without `.json` or `(1)`, loads back with id `str(n)` |
| Processor.MainFolderLoads | src/processor.py:184 | the folder the program processes, `../data/experiences_db`, meets that condition: every record saved there loads back with its id |
| Processor.Fold | src/processor.py:136-137 | the folded id is "17" exactly for "17" and "2-9", is never "2-9", and is the id otherwise |
| Processor.FoundNoAlias | src/processor.py:136-137 | no folded id is "2-9" |
| Processor.AddExperience | src/processor.py:134-154 | the table gains exactly the folded ids of the experience; an experience without tags changes nothing |
| Processor.AppearancesCount | src/processor.py:138-147 | a tag's appearances grow by its occurrences in the experience, duplicates included |
| Processor.AddTagsSound | src/processor.py:138-146 | each tag keeps one share in (0, 1] per appearance, under its own id |
| Processor.CoAppearancesCount | src/processor.py:149-154 | the co-appearance count of (a, b) grows by the product of their occurrences |
| Processor.SelfCoAppearance | src/processor.py:149-154 | a tag seen at most once per experience co-appears with itself as often as it appears |
| Processor.AddExperienceConsistent | src/processor.py:134-154 | adding an experience keeps the table sound, alias-free, closed and symmetric with positive counts |
| Processor.ExperienceSound | src/processor.py:138-146 | after an experience every tag has one share in (0, 1] per appearance |
| Processor.ExperienceCoKnown | src/processor.py:149-154 | every co-appearing id is itself a tag |
| Processor.ExperienceCoPositive | src/processor.py:149-154 | every recorded co-appearance count is at least 1 |
| Processor.OldCoSymmetric | src/processor.py:149-154 | in a consistent table co-appearances are symmetric |
| Processor.Step | src/processor.py:125-155 | each globbed file adds one or two to the total |
| Processor.TotalCount | src/processor.py:125-155 | the total is the number of files plus the number that loaded |
| Processor.ProcessConsistent | src/processor.py:126-154 | the whole loop keeps the table consistent |
| Processor.TagsFromParsed | src/processor.py:129-133 | starting empty, tags come only from files that loaded |
| Processor.MeanBounds | src/processor.py:75 | the mean of shares in (0, 1] is in (0, 1] |
| Processor.CalculateStats | src/processor.py:67-75 | ZeroDivisionError for a zero total, StatisticsError without shares; otherwise `perc_exp_appearances` times the total is the appearance count and `average_impact` times the number of shares is their sum (the mean), nothing else changed |
| Processor.CalculateAll | src/processor.py:157-158 | the same tags, each with its own statistics; a non-empty table and a zero total divide by zero |
| Processor.FreshGetTags | src/processor.py:120-158 | on a fresh processor `get_tags` cannot fail, and every tag's average impact lies in (0, 1] |
| Processor.CellSymmetric | src/processor.py:160-166 | in a consistent table the matrix is symmetric, including missing cells, and every column is a row |
| Processor.StatsKeepCounts | src/processor.py:157-158 | the statistics leave each row of co-appearance counts as it was |
| Processor.MatrixSymmetric | src/processor.py:160-175 | after `get_tags` on a fresh processor the matrix is symmetric and the reindex adds no row |
| Processor.RerunOnEmptyFolder | src/processor.py:125-158 | a processor that already holds tags and finds no file divides by zero |

## Behaviour of the code where its description says otherwise

The model follows the code in each case:

- **`split_tags` absorbs fragments.** It does not skip fragments without
  an id. The lazy name crosses commas, so such a fragment becomes part of
  the next tag's name (`TagParse.SplitTagsAbsorbs`).
- **"End Body" ends the current story loop for good** (`break`). Only the
  thesis loop treats it as a pause (`Story.ThesisResumes`).
- **`get_tags` counts every loaded file twice** in the total
  (`Processor.TotalCount`), so `perc_exp_appearances` is halved for loaded
  files.
- **The block retry is discarded.** After a block notice, `get` makes one
  more call through the next server but keeps the blocked page and its
  `was_cached` (`Fetch.BlockedPageKept`). It does not go on with a clean
  page. Before that call it builds a log message from the socket of the
  blocked response; a response from the cache, or one whose connection was
  already released, has no such socket, and `get` then raises
  AttributeError without making the extra call.
- **The thesis failure file has no line breaks.** It is written without
  separators, so several failed urls run together on one line
  (`Crawl.FailedTextOneLine`).

## Left out

- The network, `requests_cache`, SOCKS and Tor are not modelled. The network is an oracle indexed by call number, a cache deletion is a counter, and a Tor reset is an event.
- HTML parsing is not modelled. A page is the already-parsed `Page.Node` tree, and `.text` is the concatenation of the text below a node, comments excluded.
- File and JSON I/O are not modelled:
  - JSON dump/load, `open`, `os.path.isfile`, `os.listdir` and `glob`. Existing files are a set of paths. File contents and listings are parameters. A loaded JSON document is a `Dict` of `Experience.Value`.
  - Writing the record or list file itself is not modelled, and neither are write failures. A written file is a `Write` event.
- `sleep` and `random` are not modelled. A pause is an event carrying the bounds of `randint`. The shuffled id list is any sequence of ids passed in; only the lemmas that require `Queue.IsShuffledRange` use that it is a permutation of `range(1, 130000)`, and which permutation the seed 666 gives is not modelled.
- Logging, `print` and `tqdm` are not modelled, since they have no effect on the results. The one exception is the blocked-address message of src/scraper/scrapers.py:78. Its argument can raise, and that is modelled in `Fetch.Get`. Whether a live response still holds its socket is decided by the network, as the `socketOpen` field of `Fetch.Response`.
- The `newspaper` title of the thesis script is a parameter of `Experience.ExtractThesis`.
- Loading the credentials file is not modelled. The credentials are a value.
- The pandas DataFrame construction and reindex of `get_tags_co_appearances_matrix` are not modelled: only the dict-level matrix is.
- Processor.MatrixSymmetric: rows and columns are labelled by tag id. The source labels them by tag name, so two ids that share a name fall into one label there, and that merge is not modelled.
- TagParse.SplitTags: the number of results is bounded by the number of `)` in the text, which is weaker than a bound by the number of `(digits)` groups.
- Processor.FreshGetTags: "`get_tags` cannot fail" rests on `Experience.FromDict`, which rejects a `tags` value that is not a list of id/name records when the file is loaded, inside the `try` of src/processor.py:127-133. In the source such a file loads, and the loop at src/processor.py:135-147, outside the `try`, raises TypeError or KeyError, so `get_tags` can fail there.
- Strings.IsDigit: `\d` is taken as the ASCII digits. Python's `\d` on `str` also matches other Unicode decimal digits. This affects `Locations.PathId`, whose file names the scrapers write with `str(int)` and so in ASCII, and `TagParse.SplitTags`, where the source would also match a tag id written in other decimal digits.
- Experience.FromDict: a value of the wrong kind under a record key is reported as TypeError at load time. The source stores whatever value is there and would only fail later, when it is used.
- The class-level queue dict that all `ListScraper` subclasses share is not modelled. Each queue update takes and returns the queue it works on.
- `KeyboardInterrupt` and `SystemExit` in the thesis loop are not modelled: they only close the failure file and re-raise.
- The `http_call` request options (headers, `allow_redirects`, query params) are not modelled. They are outside the scraper logic and only reach the network.
- urls_scraper.py at the repository root is not part of this model: it is not valid Python.
- Neither cache_operations.py file is part of this model: they are loops over the cache deletion call.
- The `Experience` holder in utils.py is not part of this model beyond `Processor.Loaded`.
- Processor.CalculateStats: the shares `1/len`, `appearances/total` and the mean impact are exact rationals here. The program computes them as floats, which equal these values only up to rounding, so equalities between shares hold exactly here and only approximately there.
- Locations.ExpId: the model follows current CPython `urlsplit`: leading C0 controls and spaces stripped, tabs, CRs and LFs deleted, and ValueError on a lone `[` or `]` in the netloc. The IPv6/IPvFuture check on a bracketed host of newer releases and the NFKC check on a non-ASCII netloc (both ValueError) are not modelled. Older releases neither strip nor delete these characters.

=== FILE: crawl.dfy ===
/** The download loops: `ListScraper.download` (and its earliest form in
    erowid_scraping.py) over the queued scrapers, and `download_from_list`
    of the thesis script over a list of urls. */
module Crawl {
  import opened Wrappers
  import opened Strings
  import opened TextFiles
  import opened Locations
  import Queue
  import Seqs

  /** What the loop does besides counting: a random pause between two
      bounds, text appended to a log file, a new Tor identity, a record
      written to a file. */
  datatype Event = Sleep(low: nat, high: nat) | Append(path: string, text: string) | ResetIdentity | Write(path: string)

  // ---------------------------------------------------------------- ListScraper.download

  /** The settings that differ between the versions: where failure logs go
      and the bounds of the pause. */
  datatype Crawler = Crawler(logFolder: string, minWait: nat, maxWait: nat)

  const ListCrawler := Crawler("data/exp_links/", 20, 23)
  const EarliestCrawler := Crawler("exp_links/", 10, 30)

  /** One queued scraper: its url, the exception its `get`, `extract_data`
      or `save` raised (if any), and its `was_cached` afterwards. */
  datatype Item = Item(url: string, failure: Option<Error>, cached: bool)

  /** The counters, the events in order, and the exception that left the
      loop. */
  datatype Tally = Tally(downloaded: nat, failed: nat, events: seq<Event>, raised: Option<Error>)

  /** `f'{folder}failed_urls_{type(e).__name__}.txt'`. */
  function FailedLog(c: Crawler, e: Error): string {
    c.logFolder + "failed_urls_" + Name(e) + ".txt"
  }

  /** The events of one item that does not end the loop. */
  function ItemEvents(c: Crawler, it: Item, wait: bool): seq<Event> {
    (if it.failure.Some? then [Append(FailedLog(c, it.failure.value), it.url + "\n")] else [])
    + (if wait && !it.cached then [Sleep(c.minWait, c.maxWait)] else [])
  }

  /** `download`: each item either counts as downloaded or is logged to
      the file of its exception class and counted as failed; with
      `raise_exceptions` the first exception leaves the loop instead. A
      pause follows every item when waiting and its page was not cached. */
  function Download(c: Crawler, items: seq<Item>, wait: bool, raiseExceptions: bool): (r: Tally)
    ensures r.raised.Some? ==> raiseExceptions
    ensures r.raised.None? ==> r.downloaded + r.failed == |items|
    decreases |items|
  {
    if items == [] then Tally(0, 0, [], None)
    else
      var it := items[0];
      if it.failure.Some? && raiseExceptions then Tally(0, 0, [], it.failure)
      else
        var rest := Download(c, items[1..], wait, raiseExceptions);
        Tally(rest.downloaded + (if it.failure.None? then 1 else 0),
              rest.failed + (if it.failure.Some? then 1 else 0),
              ItemEvents(c, it, wait) + rest.events, rest.raised)
  }

  /** The number of items that went through. */
  function Succeeded(items: seq<Item>): (n: nat)
    ensures n <= |items|
    decreases |items|
  {
    if items == [] then 0 else (if items[0].failure.None? then 1 else 0) + Succeeded(items[1..])
  }

  /** The urls of the items that failed with an exception of class `name`,
      in order. */
  function FailedUrls(items: seq<Item>, name: string): seq<string>
    decreases |items|
  {
    if items == [] then []
    else
      (if items[0].failure.Some? && Name(items[0].failure.value) == name then [items[0].url] else [])
      + FailedUrls(items[1..], name)
  }

  /** The text a run appends to the file at `path`. */
  function Appended(events: seq<Event>, path: string): string
    decreases |events|
  {
    if events == [] then []
    else (if events[0].Append? && events[0].path == path then events[0].text else []) + Appended(events[1..], path)
  }

  /** The pauses of a run. */
  function Sleeps(events: seq<Event>): nat
    decreases |events|
  {
    if events == [] then 0 else (if events[0].Sleep? then 1 else 0) + Sleeps(events[1..])
  }

  /** The items the loop pauses after. */
  function Uncached(items: seq<Item>): nat
    decreases |items|
  {
    if items == [] then 0 else (if !items[0].cached then 1 else 0) + Uncached(items[1..])
  }

  lemma {:induction false} AppendedConcat(a: seq<Event>, b: seq<Event>, path: string)
    ensures Appended(a + b, path) == Appended(a, path) + Appended(b, path)
    decreases |a|
  {
    if a == [] {
      assert a + b == b;
    } else {
      assert (a + b)[1..] == a[1..] + b;
      AppendedConcat(a[1..], b, path);
      var head := if a[0].Append? && a[0].path == path then a[0].text else [];
      Seqs.Assoc(head, Appended(a[1..], path), Appended(b, path));
    }
  }

  lemma {:induction false} SleepsConcat(a: seq<Event>, b: seq<Event>)
    ensures Sleeps(a + b) == Sleeps(a) + Sleeps(b)
    decreases |a|
  {
    if a == [] {
      assert a + b == b;
    } else {
      assert (a + b)[1..] == a[1..] + b;
      SleepsConcat(a[1..], b);
    }
  }

  /** Without `raise_exceptions` every item is counted once: as
      downloaded when nothing raised, as failed otherwise. */
  lemma {:induction false} DownloadCounts(c: Crawler, items: seq<Item>, wait: bool)
    ensures Download(c, items, wait, false).raised.None?
    ensures Download(c, items, wait, false).downloaded == Succeeded(items)
    ensures Download(c, items, wait, false).failed == |items| - Succeeded(items)
    decreases |items|
  {
    if items != [] {
      DownloadCounts(c, items[1..], wait);
    }
  }

  /** The failure log of each exception class receives exactly the urls
      that failed with it, one per line, so that reading it back gives
      them in order. */
  lemma {:induction false} FailureLogLines(c: Crawler, items: seq<Item>, wait: bool, e: Error)
    ensures Appended(Download(c, items, wait, false).events, FailedLog(c, e)) == Lines(FailedUrls(items, Name(e)))
    decreases |items|
  {
    if items != [] {
      var it, rest := items[0], items[1..];
      FailureLogLines(c, rest, wait, e);
      var r := Download(c, rest, wait, false);
      AppendedConcat(ItemEvents(c, it, wait), r.events, FailedLog(c, e));
      LogOfItem(c, it, wait, e);
      LinesConcat(if it.failure.Some? && Name(it.failure.value) == Name(e) then [it.url] else [],
                  FailedUrls(rest, Name(e)));
    }
  }

  /** One item's events append its url to its own class's log only. */
  lemma {:induction false} LogOfItem(c: Crawler, it: Item, wait: bool, e: Error)
    ensures Appended(ItemEvents(c, it, wait), FailedLog(c, e))
         == Lines(if it.failure.Some? && Name(it.failure.value) == Name(e) then [it.url] else [])
  {
    var logged := if it.failure.Some? then [Append(FailedLog(c, it.failure.value), it.url + "\n")] else [];
    var slept := if wait && !it.cached then [Sleep(c.minWait, c.maxWait)] else [];
    AppendedConcat(logged, slept, FailedLog(c, e));
    if it.failure.Some? {
      FailedLogInjective(c, it.failure.value, e);
      assert Lines([it.url]) == it.url + "\n" + [];
    }
  }

  /** Different exception classes log to different files. */
  lemma {:induction false} FailedLogInjective(c: Crawler, a: Error, b: Error)
    ensures FailedLog(c, a) == FailedLog(c, b) <==> Name(a) == Name(b)
  {
    var head := c.logFolder + "failed_urls_";
    assert FailedLog(c, a) == head + Name(a) + ".txt";
    assert FailedLog(c, b) == head + Name(b) + ".txt";
    InfixInjective(head, Name(a), Name(b), ".txt");
  }

  /** A file name is determined by the part between a fixed head and tail. */
  lemma {:induction false} InfixInjective(head: string, x: string, y: string, tail: string)
    ensures head + x + tail == head + y + tail <==> x == y
  {
    if head + x + tail == head + y + tail {
      assert |x| == |y|;
      forall k | 0 <= k < |x| ensures x[k] == y[k] {
        assert x[k] == (head + x + tail)[|head| + k];
        assert y[k] == (head + y + tail)[|head| + k];
      }
    }
  }

  /** When waiting, the loop pauses once per item whose page was not
      cached; otherwise never. */
  lemma {:induction false} DownloadSleeps(c: Crawler, items: seq<Item>, wait: bool)
    ensures Sleeps(Download(c, items, wait, false).events) == if wait then Uncached(items) else 0
    decreases |items|
  {
    if items != [] {
      var it := items[0];
      DownloadSleeps(c, items[1..], wait);
      SleepsConcat(ItemEvents(c, it, wait), Download(c, items[1..], wait, false).events);
      var logged := if it.failure.Some? then [Append(FailedLog(c, it.failure.value), it.url + "\n")] else [];
      var slept := if wait && !it.cached then [Sleep(c.minWait, c.maxWait)] else [];
      SleepsConcat(logged, slept);
    }
  }

  /** With `raise_exceptions` the first failure leaves the loop with its
      exception, and nothing is logged. */
  lemma {:induction false} DownloadRaises(c: Crawler, items: seq<Item>, wait: bool, k: nat)
    requires k < |items| && items[k].failure.Some?
    requires forall j :: 0 <= j < k ==> items[j].failure.None?
    ensures Download(c, items, wait, true).raised == items[k].failure
    ensures Download(c, items, wait, true).downloaded == k
    ensures forall e :: Appended(Download(c, items, wait, true).events, FailedLog(c, e)) == []
    decreases k
  {
    if k > 0 {
      var rest := items[1..];
      assert forall j :: 0 <= j < k - 1 ==> rest[j] == items[j + 1];
      DownloadRaises(c, rest, wait, k - 1);
      var r := Download(c, rest, wait, true);
      forall e ensures Appended(Download(c, items, wait, true).events, FailedLog(c, e)) == [] {
        AppendedConcat(ItemEvents(c, items[0], wait), r.events, FailedLog(c, e));
        LogOfItem(c, items[0], wait, e);
        assert Lines([]) == [];
      }
    }
  }

  // ---------------------------------------------------------------- thesis download_from_list

  /** One url of the list and the exception `get_experience` (or the
      write) raises for it, if any. */
  datatype Page = Page(url: string, failure: Option<Error>)

  /** The counters, the failure file's text, the files written in order,
      the events, the positions at which the identity was reset, and the
      exception that left the loop. */
  datatype ThesisTally = ThesisTally(downloaded: nat, failed: nat, alreadyThere: nat, failedText: string,
                                     saved: seq<string>, events: seq<Event>, resets: seq<nat>, raised: Option<Error>)

  const ThesisMinWait := 3
  const ThesisMaxWait := 20

  const NoTally := ThesisTally(0, 0, 0, [], [], [], [], None)

  /** The `try` block: the save path first, then the page. */
  function Attempt(page: Page, existing: set<string>): (r: Result<string>)
    ensures r.Ok? ==> r.value !in existing
    ensures r.Ok? <==> ThesisSavePath(page.url, existing).Ok? && page.failure.None?
    ensures r.Fail? && ThesisSavePath(page.url, existing).Ok? ==> r.error == page.failure.value
  {
    var path :- ThesisSavePath(page.url, existing);
    if page.failure.Some? then Fail(page.failure.value) else Ok(path)
  }

  /** The files a tally wrote. */
  function Stored(saved: seq<string>): set<string> {
    set p | p in saved
  }

  /** The `try` block and its handler, counted from zero: the file written,
      or an exception whose first argument is the "already saved" message
      counted as an existing file, any other counted as a failure whose
      url goes to the failure file; one without arguments raises
      IndexError from the handler itself. */
  function AttemptTally(page: Page, existing: set<string>): (r: ThesisTally)
    ensures r.raised.None? ==> r.downloaded + r.failed + r.alreadyThere == 1
    ensures r.raised.Some? ==> r.raised.value == IndexError
    ensures |r.saved| <= 1 && forall k :: 0 <= k < |r.saved| ==> r.saved[k] !in existing
    ensures r.downloaded == |r.saved| && r.resets == []
    ensures r.failedText == [] || r.failedText == page.url
  {
    match Attempt(page, existing)
    case Ok(path) => NoTally.(downloaded := 1, saved := [path], events := [Write(path)])
    case Fail(e) =>
      match FirstArg(e)
      case None => NoTally.(raised := Some(IndexError))
      case Some(arg) =>
        if arg == AlreadySaved then NoTally.(alreadyThere := 1)
        else NoTally.(failed := 1, failedText := page.url)
  }

  /** One tally followed by another. */
  function Then(a: ThesisTally, b: ThesisTally): ThesisTally {
    ThesisTally(a.downloaded + b.downloaded, a.failed + b.failed, a.alreadyThere + b.alreadyThere,
                a.failedText + b.failedText, a.saved + b.saved, a.events + b.events, a.resets + b.resets, b.raised)
  }

  /** One url at position `i`: a pause when waiting, a reset at every
      `reset_id_every`-th position (ZeroDivisionError when that is 0), then
      the attempt. */
  function ThesisStep(page: Page, i: nat, wait: bool, resetEvery: nat, existing: set<string>): (r: ThesisTally)
    ensures r.raised.None? ==> r.downloaded + r.failed + r.alreadyThere == 1
    ensures r.raised.Some? ==> r.raised.value in {ZeroDivisionError, IndexError}
    ensures r.raised == Some(ZeroDivisionError) <==> resetEvery == 0
  {
    if resetEvery == 0 then NoTally.(events := Paused(wait), raised := Some(ZeroDivisionError))
    else Then(Preamble(i, wait, resetEvery), AttemptTally(page, existing))
  }

  /** A step writes at most one file, a new one, and counts it as the
      download; it logs nothing or its own url. */
  lemma {:induction false} StepSaved(page: Page, i: nat, wait: bool, resetEvery: nat, existing: set<string>)
    ensures var r := ThesisStep(page, i, wait, resetEvery, existing);
      && |r.saved| <= 1 && (forall k :: 0 <= k < |r.saved| ==> r.saved[k] !in existing)
      && r.downloaded == |r.saved|
      && (r.failedText == [] || r.failedText == page.url)
  {
    if resetEvery > 0 {
      var attempt := AttemptTally(page, existing);
      Seqs.Unit(attempt.saved);
      Seqs.Unit(attempt.failedText);
    }
  }

  /** A step resets the identity exactly at a multiple of the interval. */
  lemma {:induction false} StepResets(page: Page, i: nat, wait: bool, resetEvery: nat, existing: set<string>)
    requires resetEvery > 0
    ensures ThesisStep(page, i, wait, resetEvery, existing).resets == if i % resetEvery == 0 then [i] else []
  {
    Seqs.Unit(Preamble(i, wait, resetEvery).resets);
  }

  /** The pause before each url when waiting. */
  function Paused(wait: bool): seq<Event> {
    if wait then [Sleep(ThesisMinWait, ThesisMaxWait)] else []
  }

  /** What happens before the `try` block: the pause and, at every
      `reset_id_every`-th position, a new identity. */
  function Preamble(i: nat, wait: bool, resetEvery: nat): (r: ThesisTally)
    requires resetEvery > 0
    ensures r.downloaded == r.failed == r.alreadyThere == 0 && r.saved == [] && r.failedText == []
    ensures r.raised.None? && r.resets == if i % resetEvery == 0 then [i] else []
  {
    var reset := i % resetEvery == 0;
    NoTally.(events := Paused(wait) + (if reset then [ResetIdentity] else []), resets := if reset then [i] else [])
  }

  /** The loop from position `i` on, with the files existing so far. */
  function ThesisFrom(pages: seq<Page>, i: nat, wait: bool, resetEvery: nat, existing: set<string>): (r: ThesisTally)
    requires i <= |pages|
    ensures r.raised.None? ==> r.downloaded + r.failed + r.alreadyThere == |pages| - i
    ensures r.raised.Some? ==> r.raised.value in {ZeroDivisionError, IndexError}
    decreases |pages| - i
  {
    if i == |pages| then NoTally
    else
      var step := ThesisStep(pages[i], i, wait, resetEvery, existing);
      if step.raised.Some? then step
      else Then(step, ThesisFrom(pages, i + 1, wait, resetEvery, existing + Stored(step.saved)))
  }

  /** `download_from_list(urls, wait, reset_id_every)`, with the files
      already on disk; `failed_urls.txt` starts empty. Every url is
      counted exactly once unless the loop raised, and no file is written
      twice or over an existing one. */
  function DownloadFromList(pages: seq<Page>, wait: bool, resetEvery: nat, existing: set<string>): (r: ThesisTally)
    ensures r.raised.None? ==> r.downloaded + r.failed + r.alreadyThere == |pages|
    ensures r.raised.Some? ==> r.raised.value in {ZeroDivisionError, IndexError}
    ensures forall k :: 0 <= k < |r.saved| ==> r.saved[k] !in existing
    ensures forall a, b :: 0 <= a < b < |r.saved| ==> r.saved[a] != r.saved[b]
  {
    SavedFresh(pages, 0, wait, resetEvery, existing);
    ThesisFrom(pages, 0, wait, resetEvery, existing)
  }

  /** The files written are new and pairwise different, and there is one
      per url downloaded. */
  lemma {:induction false} SavedFresh(pages: seq<Page>, i: nat, wait: bool, resetEvery: nat, existing: set<string>)
    requires i <= |pages|
    ensures var r := ThesisFrom(pages, i, wait, resetEvery, existing);
      && |r.saved| == r.downloaded
      && (forall k :: 0 <= k < |r.saved| ==> r.saved[k] !in existing)
      && (forall a, b :: 0 <= a < b < |r.saved| ==> r.saved[a] != r.saved[b])
    decreases |pages| - i
  {
    if i < |pages| {
      var step := ThesisStep(pages[i], i, wait, resetEvery, existing);
      StepSaved(pages[i], i, wait, resetEvery, existing);
      if step.raised.None? {
        var more := existing + Stored(step.saved);
        SavedFresh(pages, i + 1, wait, resetEvery, more);
        var rest := ThesisFrom(pages, i + 1, wait, resetEvery, more);
        var saved := step.saved + rest.saved;
        assert ThesisFrom(pages, i, wait, resetEvery, existing).saved == saved;
        forall k | 0 <= k < |saved| ensures saved[k] !in existing {
          if k >= |step.saved| {
            assert saved[k] == rest.saved[k - |step.saved|];
          }
        }
        forall a, b | 0 <= a < b < |saved| ensures saved[a] != saved[b] {
          assert saved[b] == rest.saved[b - |step.saved|];
          if a < |step.saved| {
            assert saved[a] in Stored(step.saved);
          } else {
            assert saved[a] == rest.saved[a - |step.saved|];
          }
        }
      }
    }
  }

  /** A zero reset interval stops the loop at its first url, after the
      pause, before anything is fetched. */
  lemma {:induction false} ZeroResetRaises(pages: seq<Page>, wait: bool, existing: set<string>)
    requires pages != []
    ensures DownloadFromList(pages, wait, 0, existing).raised == Some(ZeroDivisionError)
    ensures DownloadFromList(pages, wait, 0, existing).saved == []
    ensures DownloadFromList(pages, wait, 0, existing).events == if wait then [Sleep(ThesisMinWait, ThesisMaxWait)] else []
  {
  }

  /** When the loop runs through, the identity is reset exactly at the
      positions that are multiples of the interval. */
  lemma {:induction false} ResetsAtMultiples(pages: seq<Page>, i: nat, wait: bool, resetEvery: nat, existing: set<string>, j: nat)
    requires i <= |pages| && resetEvery > 0
    requires ThesisFrom(pages, i, wait, resetEvery, existing).raised.None?
    ensures j in ThesisFrom(pages, i, wait, resetEvery, existing).resets <==> i <= j < |pages| && j % resetEvery == 0
    decreases |pages| - i
  {
    if i < |pages| {
      var step := ThesisStep(pages[i], i, wait, resetEvery, existing);
      var more := existing + Stored(step.saved);
      ThesisFromStep(pages, i, wait, resetEvery, existing);
      StepResets(pages[i], i, wait, resetEvery, existing);
      ResetsAtMultiples(pages, i + 1, wait, resetEvery, more, j);
      var rest := ThesisFrom(pages, i + 1, wait, resetEvery, more);
      assert ThesisFrom(pages, i, wait, resetEvery, existing).resets == step.resets + rest.resets;
      assert j in step.resets <==> j == i && i % resetEvery == 0;
    }
  }

  /** A loop that runs through is its first step followed by the rest. */
  lemma {:induction false} ThesisFromStep(pages: seq<Page>, i: nat, wait: bool, resetEvery: nat, existing: set<string>)
    requires i < |pages|
    requires ThesisFrom(pages, i, wait, resetEvery, existing).raised.None?
    ensures var step := ThesisStep(pages[i], i, wait, resetEvery, existing);
      && step.raised.None?
      && ThesisFrom(pages, i, wait, resetEvery, existing)
         == Then(step, ThesisFrom(pages, i + 1, wait, resetEvery, existing + Stored(step.saved)))
  {
  }

  /** The failed urls are written without separators: with urls free of
      line breaks, the file reads back as at most one line. */
  lemma {:induction false} FailedTextOneLine(pages: seq<Page>, i: nat, wait: bool, resetEvery: nat, existing: set<string>)
    requires i <= |pages|
    requires forall k :: 0 <= k < |pages| ==> '\n' !in pages[k].url && '\r' !in pages[k].url
    ensures '\n' !in ThesisFrom(pages, i, wait, resetEvery, existing).failedText
    ensures '\r' !in ThesisFrom(pages, i, wait, resetEvery, existing).failedText
    ensures |FromTxtToList(ThesisFrom(pages, i, wait, resetEvery, existing).failedText)| <= 1
    decreases |pages| - i
  {
    var t := ThesisFrom(pages, i, wait, resetEvery, existing).failedText;
    if i < |pages| {
      var step := ThesisStep(pages[i], i, wait, resetEvery, existing);
      StepSaved(pages[i], i, wait, resetEvery, existing);
      var more := existing + Stored(step.saved);
      FailedTextOneLine(pages, i + 1, wait, resetEvery, more);
      if step.raised.None? {
        var rest := ThesisFrom(pages, i + 1, wait, resetEvery, more);
        assert t == step.failedText + rest.failedText;
      }
    }
    UniversalPlain(t);
    SplitAbsent(t, '\n');
    assert [t][1..] == [];
  }

  /** With a positive interval the loop never divides by zero, so only an
      exception without arguments can leave it. */
  lemma {:induction false} NoZeroDivision(pages: seq<Page>, i: nat, wait: bool, resetEvery: nat, existing: set<string>)
    requires i <= |pages| && resetEvery > 0
    ensures ThesisFrom(pages, i, wait, resetEvery, existing).raised != Some(ZeroDivisionError)
    decreases |pages| - i
  {
    if i < |pages| {
      var step := ThesisStep(pages[i], i, wait, resetEvery, existing);
      NoZeroDivision(pages, i + 1, wait, resetEvery, existing + Stored(step.saved));
    }
  }

  // ---------------------------------------------------------------- thesis entry points

  /** The default `reset_id_every` of `download_from_list`. */
  const DefaultResetEvery := 10

  /** The urls with the outcome of fetching the `k`-th one. */
  function PagesOf(urls: seq<string>, fetch: nat -> Option<Error>): (r: seq<Page>)
    ensures |r| == |urls| && forall k :: 0 <= k < |r| ==> r[k].url == urls[k]
  {
    seq(|urls|, k requires 0 <= k < |urls| => Page(urls[k], fetch(k)))
  }

  /** `readlines()`: every piece between newlines with its newline, and the
      last piece as it is unless it is empty. */
  function ReadLines(pieces: seq<string>): (r: seq<string>)
    decreases |pieces|
  {
    if pieces == [] then []
    else if |pieces| == 1 then (if pieces[0] == [] then [] else pieces)
    else [pieces[0] + "\n"] + ReadLines(pieces[1..])
  }

  /** `[u.strip('\n') for u in myfile.readlines()]` of `download_from_file`:
      the lines once line breaks are translated, and unlike
      `from_txt_to_list` only newlines are stripped and blank lines stay. */
  function FileUrls(text: string): seq<string> {
    var lines := ReadLines(Split(Universal(text), '\n'));
    seq(|lines|, k requires 0 <= k < |lines| => StripChars(lines[k], {'\n'}))
  }

  /** Stripping newlines from a newline-free piece, with or without its
      newline, gives the piece. */
  lemma {:induction false} StripNewline(p: string)
    requires '\n' !in p
    ensures StripChars(p + "\n", {'\n'}) == p && StripChars(p, {'\n'}) == p
  {
    if p == [] {
      assert p + "\n" == "\n";
    } else {
      StripTrailing(p, "\n", {'\n'});
      StripClean(p, {'\n'});
    }
  }

  /** A file written one entry per line splits into the entries and an
      empty last piece. */
  lemma {:induction false} SplitLines(urls: seq<string>)
    requires forall k :: 0 <= k < |urls| ==> '\n' !in urls[k]
    ensures Split(Lines(urls), '\n') == urls + [[]]
    decreases |urls|
  {
    if urls != [] {
      var u, rest := urls[0], urls[1..];
      assert forall k :: 0 <= k < |rest| ==> rest[k] == urls[k + 1];
      SplitLines(rest);
      assert Lines(urls) == u + ['\n'] + Lines(rest);
      SplitConcat(u, Lines(rest), '\n');
      SplitAbsent(u, '\n');
      Seqs.HeadTail(urls, []);
    }
  }

  /** Reading the lines of `pieces + [[]]`: each piece with its newline. */
  lemma {:induction false} ReadLinesOfLines(urls: seq<string>)
    ensures |ReadLines(urls + [[]])| == |urls|
    ensures forall k :: 0 <= k < |urls| ==> ReadLines(urls + [[]])[k] == urls[k] + "\n"
    decreases |urls|
  {
    if urls != [] {
      assert (urls + [[]])[1..] == urls[1..] + [[]];
      ReadLinesOfLines(urls[1..]);
    }
  }

  /** Round trip: a list written one entry per line reads back as the same
      entries, blank ones included, as long as none holds a line break. */
  lemma {:induction false} FileUrlsLines(urls: seq<string>)
    requires forall k :: 0 <= k < |urls| ==> '\n' !in urls[k] && '\r' !in urls[k]
    ensures FileUrls(Lines(urls)) == urls
  {
    LinesPlain(urls);
    SplitLines(urls);
    ReadLinesOfLines(urls);
    var r := FileUrls(Lines(urls));
    forall k | 0 <= k < |urls| ensures r[k] == urls[k] {
      StripNewline(urls[k]);
    }
  }

  /** A url file with Windows line ends gives the same urls: the `\r` is
      gone before `strip('\n')`. */
  lemma {:induction false} FileUrlsCrlf(urls: seq<string>)
    requires forall k :: 0 <= k < |urls| ==> '\n' !in urls[k] && '\r' !in urls[k]
    ensures FileUrls(CrlfLines(urls)) == urls
  {
    UniversalCrlf(urls);
    LinesPlain(urls);
    FileUrlsLines(urls);
  }

  /** A blank line is an entry of the thesis reader but not of
      `from_txt_to_list`. */
  lemma {:induction false} BlankLineKept(text: string)
    requires text == "\n"
    ensures FileUrls(text) == [""]
    ensures FromTxtToList(text) == []
  {
    assert Lines([""]) == text;
    FileUrlsLines([""]);
    assert text == [] + ['\n'] + [];
    SplitConcat([], [], '\n');
    var pieces := Split(text, '\n');
    assert pieces == [[], []];
    assert Strip([]) == [];
    assert Kept(pieces[1..]) == [];
  }

  /** `download_from_file(file)`: the lines of the file, downloaded with
      the default arguments; `fetch` gives the outcome of each url. */
  function DownloadFromFile(text: string, fetch: nat -> Option<Error>, existing: set<string>): (r: ThesisTally)
    ensures r.raised.Some? ==> r.raised.value == IndexError
    ensures r.raised.None? ==> r.downloaded + r.failed + r.alreadyThere == |FileUrls(text)|
  {
    var pages := PagesOf(FileUrls(text), fetch);
    NoZeroDivision(pages, 0, false, DefaultResetEvery, existing);
    DownloadFromList(pages, false, DefaultResetEvery, existing)
  }

  /** `download_tutto()`: one generated url per id of the shuffled range
      (the shuffle is the parameter `ids`), downloaded with the default
      arguments. */
  function DownloadTutto(ids: seq<nat>, fetch: nat -> Option<Error>, existing: set<string>): (r: ThesisTally)
    ensures r.raised.Some? ==> r.raised.value == IndexError
    ensures r.raised.None? ==> r.downloaded + r.failed + r.alreadyThere == |ids|
  {
    var pages := PagesOf(Queue.Generated(ids), fetch);
    NoZeroDivision(pages, 0, false, DefaultResetEvery, existing);
    DownloadFromList(pages, false, DefaultResetEvery, existing)
  }

  /** From the shuffled range every id from 1 to 129999 is counted once,
      unless an IndexError leaves the loop. */
  lemma {:induction false} TuttoCountsRange(ids: seq<nat>, fetch: nat -> Option<Error>, existing: set<string>)
    requires Queue.IsShuffledRange(ids)
    ensures var r := DownloadTutto(ids, fetch, existing);
      r.raised.None? ==> r.downloaded + r.failed + r.alreadyThere == Queue.EndId - Queue.FirstId
  {
    assert |multiset(ids)| == |multiset(Queue.IdRange())|;
  }

  /** Every generated url has a save path named after its id: its file is
      either written there or counted as already saved, never an
      IndexError. */
  lemma {:induction false} TuttoSavePaths(ids: seq<nat>, existing: set<string>, k: nat)
    requires k < |ids|
    ensures var path := OutFolder + NatToString(ids[k]) + ".json";
      ThesisSavePath(Queue.Generated(ids)[k], existing)
        == if path in existing then Fail(GenericException(Some(AlreadySaved))) else Ok(path)
  {
  }
}

=== FILE: dicts.dfy ===
/** Python's `dict` as the scraper uses it: a map that remembers the order
    in which keys were first inserted. Assigning to an existing key keeps
    its position; a new key goes to the end. */
module Dicts {
  import opened Wrappers

  datatype Dict<K(==), V> = Dict(keys: seq<K>, values: map<K, V>)

  /** Keys are listed once each, and exactly the mapped keys are listed. */
  predicate Valid<K(==), V>(d: Dict<K, V>) {
    && (forall i, j :: 0 <= i < j < |d.keys| ==> d.keys[i] != d.keys[j])
    && (forall k | k in d.values :: k in d.keys)
    && (forall k | k in d.keys :: k in d.values)
  }

  function Empty<K(==), V>(): (r: Dict<K, V>)
    ensures Valid(r) && r.values == map[]
  {
    Dict([], map[])
  }

  /** `d[k] = v`. */
  function Put<K(==), V>(d: Dict<K, V>, k: K, v: V): (r: Dict<K, V>)
    requires Valid(d)
    ensures Valid(r)
    ensures r.values == d.values[k := v]
    ensures |d.keys| <= |r.keys| <= |d.keys| + 1
    ensures r.keys[..|d.keys|] == d.keys
  {
    if k in d.values then Dict(d.keys, d.values[k := v])
    else Dict(d.keys + [k], d.values[k := v])
  }

  /** A dict with one entry. */
  function Singleton<K(==), V>(k: K, v: V): (r: Dict<K, V>)
    ensures Valid(r) && r.keys == [k] && r.values == map[k := v]
  {
    Put(Empty(), k, v)
  }

  /** Assigning an already present key changes neither the order nor the
      number of keys. */
  lemma {:induction false} PutExisting<K, V>(d: Dict<K, V>, k: K, v: V)
    requires Valid(d) && k in d.values
    ensures Put(d, k, v).keys == d.keys
  {
  }

  /** Assignments in sequence: the value of a key is the last one assigned
      to it, or its earlier value when none was. */
  function PutAll<K(==), V>(d: Dict<K, V>, pairs: seq<(K, V)>): (r: Dict<K, V>)
    requires Valid(d)
    ensures Valid(r)
    ensures d.values.Keys <= r.values.Keys
    decreases |pairs|
  {
    if pairs == [] then d else PutAll(Put(d, pairs[0].0, pairs[0].1), pairs[1..])
  }

  /** The value a sequence of assignments leaves for `k`. */
  function LastValue<K(==), V>(pairs: seq<(K, V)>, k: K, otherwise: Option<V>): Option<V>
    decreases |pairs|
  {
    if pairs == [] then otherwise
    else LastValue(pairs[1..], k, if pairs[0].0 == k then Some(pairs[0].1) else otherwise)
  }

  function Lookup<K(==), V>(d: Dict<K, V>, k: K): Option<V> {
    if k in d.values then Some(d.values[k]) else None
  }

  /** Later assignments overwrite earlier ones. */
  lemma {:induction false} PutAllLookup<K, V>(d: Dict<K, V>, pairs: seq<(K, V)>, k: K)
    requires Valid(d)
    ensures Lookup(PutAll(d, pairs), k) == LastValue(pairs, k, Lookup(d, k))
    decreases |pairs|
  {
    if pairs != [] {
      PutAllLookup(Put(d, pairs[0].0, pairs[0].1), pairs[1..], k);
    }
  }

  /** Whether some assignment in the sequence is to `k`. */
  predicate Assigns<K(==), V>(pairs: seq<(K, V)>, k: K) {
    exists i :: 0 <= i < |pairs| && pairs[i].0 == k
  }

  lemma {:induction false} AssignsCons<K, V>(p: (K, V), pairs: seq<(K, V)>, k: K)
    ensures Assigns([p] + pairs, k) <==> p.0 == k || Assigns(pairs, k)
  {
    if p.0 == k {
      assert ([p] + pairs)[0].0 == k;
    }
    if Assigns([p] + pairs, k) && p.0 != k {
      var i :| 0 <= i < |[p] + pairs| && ([p] + pairs)[i].0 == k;
      assert i != 0;
      assert pairs[i - 1] == ([p] + pairs)[i];
      assert 0 <= i - 1 < |pairs| && pairs[i - 1].0 == k;
    }
    if Assigns(pairs, k) {
      var i :| 0 <= i < |pairs| && pairs[i].0 == k;
      assert ([p] + pairs)[i + 1] == pairs[i];
      assert 0 <= i + 1 < |[p] + pairs| && ([p] + pairs)[i + 1].0 == k;
    }
  }

  /** Without an assignment to `k` its value stays as it was; with one, the
      earlier value no longer matters. */
  lemma {:induction false} LastValueAssigns<K, V>(pairs: seq<(K, V)>, k: K, a: Option<V>, b: Option<V>)
    ensures !Assigns(pairs, k) ==> LastValue(pairs, k, a) == a
    ensures Assigns(pairs, k) ==> LastValue(pairs, k, a) == LastValue(pairs, k, b) && LastValue(pairs, k, a).Some?
    decreases |pairs|
  {
    if pairs != [] {
      var tail := pairs[1..];
      var a1 := if pairs[0].0 == k then Some(pairs[0].1) else a;
      var b1 := if pairs[0].0 == k then Some(pairs[0].1) else b;
      LastValueAssigns(tail, k, a1, b1);
      if Assigns(tail, k) {
        var i :| 0 <= i < |tail| && tail[i].0 == k;
        assert pairs[i + 1].0 == k;
      }
      if !Assigns(tail, k) && pairs[0].0 != k {
        forall i | 0 <= i < |pairs| ensures pairs[i].0 != k {
          if i > 0 {
            assert pairs[i] == tail[i - 1];
          }
        }
      }
    }
  }

  /** After the assignments, a key is present exactly when it was before
      or is assigned. */
  lemma {:induction false} PutAllKeys<K, V>(d: Dict<K, V>, pairs: seq<(K, V)>, k: K)
    requires Valid(d)
    ensures k in PutAll(d, pairs).values <==> k in d.values || Assigns(pairs, k)
  {
    PutAllLookup(d, pairs, k);
    LastValueAssigns(pairs, k, Lookup(d, k), Lookup(d, k));
  }

  /** Assignments to keys that are all present keep the key order. */
  lemma {:induction false} PutAllPresent<K, V>(d: Dict<K, V>, pairs: seq<(K, V)>)
    requires Valid(d)
    requires forall i :: 0 <= i < |pairs| ==> pairs[i].0 in d.values
    ensures PutAll(d, pairs).keys == d.keys
    decreases |pairs|
  {
    if pairs != [] {
      var d1 := Put(d, pairs[0].0, pairs[0].1);
      PutExisting(d, pairs[0].0, pairs[0].1);
      assert forall i :: 0 <= i < |pairs[1..]| ==> pairs[1..][i] == pairs[i + 1];
      PutAllPresent(d1, pairs[1..]);
    }
  }

  /** Repeating the same assignments changes nothing. */
  lemma {:induction false} PutAllTwice<K, V>(d: Dict<K, V>, pairs: seq<(K, V)>)
    requires Valid(d)
    ensures PutAll(PutAll(d, pairs), pairs) == PutAll(d, pairs)
  {
    var once := PutAll(d, pairs);
    var twice := PutAll(once, pairs);
    forall i | 0 <= i < |pairs| ensures pairs[i].0 in once.values {
      PutAllKeys(d, pairs, pairs[i].0);
    }
    PutAllPresent(once, pairs);
    forall k | k in once.values || k in twice.values
      ensures k in once.values && k in twice.values && once.values[k] == twice.values[k]
    {
      PutAllKeys(once, pairs, k);
      PutAllLookup(once, pairs, k);
      PutAllLookup(d, pairs, k);
      LastValueAssigns(pairs, k, Lookup(once, k), Lookup(d, k));
    }
    assert once.values == twice.values;
  }

  /** Two runs of assignments are one run of both. */
  lemma {:induction false} PutAllAppend<K, V>(d: Dict<K, V>, a: seq<(K, V)>, b: seq<(K, V)>)
    requires Valid(d)
    ensures PutAll(d, a + b) == PutAll(PutAll(d, a), b)
    decreases |a|
  {
    if a == [] {
      assert a + b == b;
    } else {
      assert (a + b)[1..] == a[1..] + b;
      assert (a + b)[0] == a[0];
      PutAllAppend(Put(d, a[0].0, a[0].1), a[1..], b);
    }
  }
}

=== FILE: doses.dfy ===
/** The dose chart of an experience report: one record per `tr` of the
    first `dosechart` element. The lenient version of
    src/experiences_scraper.py and experiences_scraper.py defaults missing
    cells to the empty string and strips every field; the strict version
    of erowid_download_thesis.py raises on any missing cell and keeps the
    texts as they are. */
module DoseChart {
  import opened Wrappers
  import opened Strings
  import opened Page

  /** One row of the chart; `route` holds the `method` cell. */
  datatype Dose = Dose(useTime: string, amount: string, route: string,
                       substanceId: string, substanceName: string, form: string)

  const ChartClass := "dosechart"
  const AmountClass := "dosechart-amount"
  const MethodClass := "dosechart-method"
  const SubstanceClass := "dosechart-substance"
  const FormClass := "dosechart-form"
  const DoseLabel := "DOSE:"

  /** The cells of a row with class `cls`. */
  function Cells(row: Node, cls: string): seq<Node> {
    FindAll(row, ByClass(cls))
  }

  /** The links of a cell. */
  function Links(cell: Node): seq<Node> {
    FindAll(cell, ByTag("a"))
  }

  /** Whether the first link of a cell lacks an `href`, so that reading
      `attrs['href']` raises KeyError. */
  predicate HrefMissing(cell: Node) {
    var links := Links(cell);
    links != [] && "href" !in links[0].attrs
  }

  // ---------------------------------------------------------------- lenient

  /** `tag[0].text.strip() if tag else ''`. */
  function CellOr(row: Node, cls: string): string {
    var found := Cells(row, cls);
    if found == [] then "" else Strip(TextOf(found[0]))
  }

  /** The stripped `href` of the first link, '' without a link. */
  function LinkOr(cell: Node): Result<string> {
    var links := Links(cell);
    if links == [] then Ok("")
    else if "href" in links[0].attrs then Ok(Strip(links[0].attrs["href"]))
    else Fail(KeyError)
  }

  /** `use_time`: the text of the row's second child, every "DOSE:" removed,
      stripped. */
  function UseTime(child: Node): string {
    Strip(RemoveAll(TextOf(child), DoseLabel))
  }

  /** One iteration of `extract_experience_substances`. It raises
      IndexError without a substance cell, then KeyError when that cell's
      first link has no `href`, then IndexError when the row has fewer than
      two children; a missing amount, method, form or link only gives ''. */
  function DoseRow(row: Node): (r: Result<Dose>)
    ensures r.Ok? <==> Cells(row, SubstanceClass) != [] && !HrefMissing(Cells(row, SubstanceClass)[0]) && |Children(row)| >= 2
    ensures r == Fail(KeyError) <==> Cells(row, SubstanceClass) != [] && HrefMissing(Cells(row, SubstanceClass)[0])
    ensures r.Fail? ==> r.error in {IndexError, KeyError}
    ensures r.Ok? ==> Cells(row, AmountClass) == [] ==> r.value.amount == ""
    ensures r.Ok? ==> Cells(row, MethodClass) == [] ==> r.value.route == ""
    ensures r.Ok? ==> Cells(row, FormClass) == [] ==> r.value.form == ""
    ensures r.Ok? ==> Links(Cells(row, SubstanceClass)[0]) == [] ==> r.value.substanceId == ""
    ensures r.Ok? ==> Cells(row, AmountClass) != [] ==> r.value.amount == Strip(TextOf(Cells(row, AmountClass)[0]))
    ensures r.Ok? ==> Cells(row, MethodClass) != [] ==> r.value.route == Strip(TextOf(Cells(row, MethodClass)[0]))
    ensures r.Ok? ==> Cells(row, FormClass) != [] ==> r.value.form == Strip(TextOf(Cells(row, FormClass)[0]))
    ensures r.Ok? ==> r.value.substanceName == Strip(TextOf(Cells(row, SubstanceClass)[0]))
    ensures r.Ok? ==> var links := Links(Cells(row, SubstanceClass)[0]);
      links != [] ==> r.value.substanceId == Strip(links[0].attrs["href"])
    ensures r.Ok? ==> r.value.useTime == Strip(RemoveAll(TextOf(Children(row)[1]), DoseLabel))
  {
    var cells := Cells(row, SubstanceClass);
    if cells == [] then Fail(IndexError)
    else
      var id :- LinkOr(cells[0]);
      var children := Children(row);
      if |children| < 2 then Fail(IndexError)
      else Ok(Dose(UseTime(children[1]), CellOr(row, AmountClass), CellOr(row, MethodClass),
                   id, Strip(TextOf(cells[0])), CellOr(row, FormClass)))
  }

  /** Every field of a lenient dose is stripped. */
  lemma {:induction false} DoseRowTrimmed(row: Node)
    requires DoseRow(row).Ok?
    ensures var d := DoseRow(row).value;
      Trimmed(d.useTime) && Trimmed(d.amount) && Trimmed(d.route) &&
      Trimmed(d.substanceId) && Trimmed(d.substanceName) && Trimmed(d.form)
  {
  }

  /** A dose label is dropped from the use time: "DOSE:" followed by a
      text that does not contain it gives that text, stripped. */
  lemma {:induction false} UseTimeOfLabel(child: Node, time: string)
    requires TextOf(child) == DoseLabel + time && !Contains(time, DoseLabel)
    ensures UseTime(child) == Strip(time)
  {
    RemoveAllPrefix(DoseLabel, time);
    RemoveAllAbsent(time, DoseLabel);
  }

  /** The `tr` rows of the first `dosechart`, none without a chart. */
  function ChartRows(page: Node): seq<Node> {
    var charts := Cells(page, ChartClass);
    if charts == [] then [] else FindAll(charts[0], ByTag("tr"))
  }

  /** The lenient chart: no `dosechart` gives no doses; otherwise the rows
      of the first chart, in order, up to the first row that raises. */
  function Doses(page: Node): (r: Partial<Dose>)
    ensures Cells(page, ChartClass) == [] ==> r == Partial([], None)
    ensures r.failure.Some? ==> r.failure.value in {IndexError, KeyError}
  {
    var charts := Cells(page, ChartClass);
    if charts == [] then Partial([], None) else Collect(DoseRow, ChartRows(page))
  }

  /** Doses and rows correspond one to one: without a failure there is one
      dose per row, each that row's own record, and a failure is the first
      failing row's. */
  lemma {:induction false} DosesPerRow(page: Node)
    requires Cells(page, ChartClass) != []
    ensures var rows := FindAll(Cells(page, ChartClass)[0], ByTag("tr"));
      && (Doses(page).failure.None? <==> forall k :: 0 <= k < |rows| ==> DoseRow(rows[k]).Ok?)
      && (Doses(page).failure.None? ==> |Doses(page).done| == |rows|)
      && (forall k :: 0 <= k < |Doses(page).done| ==> DoseRow(rows[k]) == Ok(Doses(page).done[k]))
  {
    var rows := FindAll(Cells(page, ChartClass)[0], ByTag("tr"));
    var f: Node -> Result<Dose> := DoseRow;
    var c := Collect(f, rows);
    assert Doses(page) == c;
    CollectCompletes(f, rows);
    CollectEach(f, rows);
    forall k | 0 <= k < |rows| ensures f(rows[k]) == DoseRow(rows[k]) { }
    forall k | 0 <= k < |c.done| ensures DoseRow(rows[k]) == Ok(c.done[k]) {
      assert f(rows[k]) == Ok(c.done[k]);
    }
  }

  // ---------------------------------------------------------------- strict

  /** `row.find_all(class_=cls)[0].text`. */
  function CellText(row: Node, cls: string): Result<string> {
    var found := Cells(row, cls);
    if found == [] then Fail(IndexError) else Ok(TextOf(found[0]))
  }

  /** Every cell the strict loop indexes is there: the amount, method,
      substance and form cells, a link with an `href` in the substance
      cell, and a second child of the row. */
  predicate StrictRowComplete(row: Node) {
    && Cells(row, AmountClass) != [] && Cells(row, MethodClass) != []
    && Cells(row, SubstanceClass) != [] && Links(Cells(row, SubstanceClass)[0]) != []
    && "href" in Links(Cells(row, SubstanceClass)[0])[0].attrs
    && Cells(row, FormClass) != [] && |Children(row)| >= 2
  }

  /** One iteration of the thesis dose loop: every `[0]` raises IndexError
      when the list is empty, a link without `href` raises KeyError, and no
      field is stripped. */
  function ThesisDoseRow(row: Node): (r: Result<Dose>)
    ensures r.Ok? <==> StrictRowComplete(row)
    ensures r.Fail? ==> r.error in {IndexError, KeyError}
    ensures r == Fail(KeyError) <==>
      && Cells(row, AmountClass) != [] && Cells(row, MethodClass) != [] && Cells(row, SubstanceClass) != []
      && Links(Cells(row, SubstanceClass)[0]) != [] && HrefMissing(Cells(row, SubstanceClass)[0])
    ensures r.Ok? ==> && r.value.amount == TextOf(Cells(row, AmountClass)[0])
                      && r.value.route == TextOf(Cells(row, MethodClass)[0])
                      && r.value.form == TextOf(Cells(row, FormClass)[0])
                      && r.value.substanceName == TextOf(Cells(row, SubstanceClass)[0])
                      && r.value.substanceId == Links(Cells(row, SubstanceClass)[0])[0].attrs["href"]
                      && r.value.useTime == TextOf(Children(row)[1])
  {
    var amount :- CellText(row, AmountClass);
    var route :- CellText(row, MethodClass);
    var cells := Cells(row, SubstanceClass);
    if cells == [] then Fail(IndexError)
    else
      var links := Links(cells[0]);
      if links == [] then Fail(IndexError)
      else if "href" !in links[0].attrs then Fail(KeyError)
      else
        var form :- CellText(row, FormClass);
        var children := Children(row);
        if |children| < 2 then Fail(IndexError)
        else Ok(Dose(TextOf(children[1]), amount, route, links[0].attrs["href"], TextOf(cells[0]), form))
  }

  /** The lenient record made from the strict one: every field stripped, and
      "DOSE:" removed from the use time first. */
  function Tidy(d: Dose): Dose {
    Dose(Strip(RemoveAll(d.useTime, DoseLabel)), Strip(d.amount), Strip(d.route),
         Strip(d.substanceId), Strip(d.substanceName), Strip(d.form))
  }

  /** Where the strict loop accepts a row, the lenient one does too, and
      its record is the strict one tidied. */
  lemma {:induction false} StrictRowAgrees(row: Node)
    requires ThesisDoseRow(row).Ok?
    ensures DoseRow(row) == Ok(Tidy(ThesisDoseRow(row).value))
  {
  }

  /** The strict chart: a missing `dosechart` raises IndexError, and so
      does any row that misses a cell; otherwise there is one record per
      `tr`, each that row's own. */
  function ThesisDoses(page: Node): (r: Result<seq<Dose>>)
    ensures Cells(page, ChartClass) == [] ==> r == Fail(IndexError)
    ensures r.Ok? <==>
      && Cells(page, ChartClass) != []
      && forall k :: 0 <= k < |ChartRows(page)| ==> StrictRowComplete(ChartRows(page)[k])
    ensures r.Ok? ==> |r.value| == |ChartRows(page)|
    ensures r.Ok? ==> forall k :: 0 <= k < |r.value| ==> ThesisDoseRow(ChartRows(page)[k]) == Ok(r.value[k])
    ensures r.Fail? ==> r.error in {IndexError, KeyError}
  {
    var charts := Cells(page, ChartClass);
    if charts == [] then Fail(IndexError)
    else
      var rows := ChartRows(page);
      var f: Node -> Result<Dose> := ThesisDoseRow;
      var all := Collect(f, rows);
      CollectCompletes(f, rows);
      CollectEach(f, rows);
      assert forall k :: 0 <= k < |rows| ==> f(rows[k]) == ThesisDoseRow(rows[k]);
      if all.failure.Some? then Fail(all.failure.value) else Ok(all.done)
  }

  /** Where the strict chart succeeds, the lenient chart gives the same
      number of records, each one the strict record tidied. */
  lemma {:induction false} StrictChartAgrees(page: Node)
    requires ThesisDoses(page).Ok?
    ensures Doses(page).failure.None?
    ensures |Doses(page).done| == |ThesisDoses(page).value|
    ensures forall k :: 0 <= k < |Doses(page).done| ==> Doses(page).done[k] == Tidy(ThesisDoses(page).value[k])
  {
    var rows := FindAll(Cells(page, ChartClass)[0], ByTag("tr"));
    CollectCompletes(ThesisDoseRow, rows);
    CollectEach(ThesisDoseRow, rows);
    forall k | 0 <= k < |rows| ensures DoseRow(rows[k]) == Ok(Tidy(ThesisDoseRow(rows[k]).value)) {
      StrictRowAgrees(rows[k]);
    }
    CollectCompletes(DoseRow, rows);
    CollectEach(DoseRow, rows);
  }
}

=== FILE: experience.dfy ===
/** One experience report extracted from its page, in the three versions of
    the extractor, and the dictionary `to_dict` makes of it. */
module Experience {
  import opened Wrappers
  import opened Strings
  import opened Page
  import opened TagParse
  import opened Dicts
  import opened Story
  import opened DoseChart
  import opened FootData

  /** The fields `to_dict` saves. */
  datatype Record = Record(story: seq<string>, doses: seq<Dose>, substances: seq<TagRef>,
                           metadata: Dict<string, string>, tags: seq<TagRef>, title: string)

  const TitleClass := "title"

  /** `soup.find(class_='title').text.strip()`: AttributeError without a
      title element. */
  function Title(page: Node): (r: Result<string>)
    ensures r.Fail? <==> Find(page, ByClass(TitleClass)).None?
    ensures r.Fail? ==> r.error == AttributeError
    ensures r.Ok? ==> Trimmed(r.value)
  {
    match Find(page, ByClass(TitleClass))
    case None => Fail(AttributeError)
    case Some(n) => Ok(Strip(TextOf(n)))
  }

  // ---------------------------------------------------------------- current version

  /** `extract_data` of src/experiences_scraper.py on a fresh instance:
      story, then doses, then title and footer; the first exception ends
      the extraction. */
  function ExtractCurrent(page: Node): (r: Result<Record>)
    ensures r.Ok? ==> (FindAll(page, ByClass(StoryClass)) != [] &&
                       r.value.story == StoryWindow(Children(FindAll(page, ByClass(StoryClass))[0])))
    ensures r.Ok? ==> r.value.doses == Doses(page).done && Doses(page).failure.None?
    ensures r.Ok? ==> BodyWeightKey in r.value.metadata.values
    ensures r.Ok? ==> forall k :: 0 <= k < |r.value.tags| ==> ParsedTag(r.value.tags[k])
    ensures FindAll(page, ByClass(StoryClass)) == [] ==> r == Fail(MissingExperienceFromPage)
  {
    var story :- ExtractStory(page);
    var doses := Doses(page);
    if doses.failure.Some? then Fail(doses.failure.value)
    else
      var title :- Title(page);
      var foot := ExtractFooter(Current, page, [], []);
      if foot.failure.Some? then Fail(foot.failure.value)
      else
        CurrentTagsParsed(page);
        Ok(Record(story, doses.done, foot.footer.substances, foot.footer.metadata, foot.footer.tags, title))
  }

  /** Every tag and substance of the current footer comes from `split_tags`. */
  lemma {:induction false} CurrentTagsParsed(page: Node)
    ensures var r := ExtractFooter(Current, page, [], []).footer;
      && (forall k :: 0 <= k < |r.tags| ==> ParsedTag(r.tags[k]))
      && (forall k :: 0 <= k < |r.substances| ==> ParsedTag(r.substances[k]))
  {
    match BodyWeight(Current, page)
    case Fail(_) =>
    case Ok(w) =>
      match Find(page, ByClass(FootClass))
      case None =>
      case Some(foot) =>
        CurrentRowsParsed(Footer(Singleton(BodyWeightKey, w), [], []), Children(foot));
  }

  predicate AllParsed(ts: seq<TagRef>) {
    forall k :: 0 <= k < |ts| ==> ParsedTag(ts[k])
  }

  lemma {:induction false} CurrentRowsParsed(f: Footer, rows: seq<Node>)
    requires Valid(f.metadata) && AllParsed(f.substances) && AllParsed(f.tags)
    ensures AllParsed(FooterRows(Current, f, rows).footer.substances)
    ensures AllParsed(FooterRows(Current, f, rows).footer.tags)
    decreases |rows|
  {
    if rows != [] {
      var step := FooterRow(Current, f, rows[0]);
      CurrentRowParsed(f, rows[0]);
      if step.failure.None? {
        CurrentRowsParsed(step.footer, rows[1..]);
      }
    }
  }

  lemma {:induction false} CurrentRowParsed(f: Footer, row: Node)
    requires Valid(f.metadata) && AllParsed(f.substances) && AllParsed(f.tags)
    ensures AllParsed(FooterRow(Current, f, row).footer.substances)
    ensures AllParsed(FooterRow(Current, f, row).footer.tags)
  {
    if row.Element? && |row.children| <= 1 && !IsPdfRow(Current, row) {
      var parts := Split(TextOf(row), ':');
      AppendParsed(f.substances, ListOf(Current, parts[0]).done);
      if |parts| >= 2 {
        AppendParsed(f.tags, ListOf(Current, parts[1]).done);
      }
    }
  }

  lemma {:induction false} AppendParsed(a: seq<TagRef>, b: seq<TagRef>)
    requires AllParsed(a) && AllParsed(b)
    ensures AllParsed(a + b)
  {
    assert forall k :: 0 <= k < |a + b| ==> (a + b)[k] == if k < |a| then a[k] else b[k - |a|];
  }

  // ---------------------------------------------------------------- older version

  /** The lists declared on the class in experiences_scraper.py: `append`
      and `extend` reach the one list every instance shares. */
  datatype Shared = Shared(story: seq<string>, doses: seq<Dose>, substances: seq<TagRef>, tags: seq<TagRef>)

  const NoneShared := Shared([], [], [], [])

  /** The shared lists after one extraction, and the record `to_dict` would
      save (or the exception). */
  datatype Step = Step(shared: Shared, record: Result<Record>)

  /** Every shared list only grows. */
  predicate Grows(a: Shared, b: Shared) {
    a.story <= b.story && a.doses <= b.doses && a.substances <= b.substances && a.tags <= b.tags
  }

  /** `extract_data` of experiences_scraper.py on a new instance: the same
      steps as the current version, but the story, doses, substances and
      tags are appended to the shared lists (also when a later step raises),
      while title and metadata belong to the instance. */
  function ExtractOlder(sh: Shared, page: Node): (r: Step)
    ensures Grows(sh, r.shared)
    ensures r.record.Ok? ==> && r.record.value.story == r.shared.story && r.record.value.doses == r.shared.doses
                             && r.record.value.substances == r.shared.substances && r.record.value.tags == r.shared.tags
    ensures FindAll(page, ByClass(StoryClass)) == [] ==> r == Step(sh, Fail(MissingExperienceFromPage))
  {
    match ExtractStory(page)
    case Fail(e) => Step(sh, Fail(e))
    case Ok(story) =>
      var doses := Doses(page);
      var sh1 := sh.(story := sh.story + story, doses := sh.doses + doses.done);
      if doses.failure.Some? then Step(sh1, Fail(doses.failure.value))
      else
        match Title(page)
        case Fail(e) => Step(sh1, Fail(e))
        case Ok(title) =>
          var foot := ExtractFooter(Older, page, sh1.substances, sh1.tags);
          var sh2 := sh1.(substances := foot.footer.substances, tags := foot.footer.tags);
          if foot.failure.Some? then Step(sh2, Fail(foot.failure.value))
          else Step(sh2, Ok(Record(sh2.story, sh2.doses, sh2.substances, foot.footer.metadata, sh2.tags, title)))
  }

  /** `b`'s lists appended to `a`'s. */
  function Extend(a: Shared, b: Shared): Shared {
    Shared(a.story + b.story, a.doses + b.doses, a.substances + b.substances, a.tags + b.tags)
  }

  /** What one extraction appends does not depend on what the lists already
      hold, and neither does whether it raises. */
  lemma {:induction false} OlderShift(sh: Shared, page: Node)
    ensures ExtractOlder(sh, page).shared == Extend(sh, ExtractOlder(NoneShared, page).shared)
    ensures ExtractOlder(sh, page).record.Ok? == ExtractOlder(NoneShared, page).record.Ok?
  {
    assert sh.story + [] == sh.story && sh.doses + [] == sh.doses;
    assert sh.substances + [] == sh.substances && sh.tags + [] == sh.tags;
    match ExtractStory(page)
    case Fail(_) =>
    case Ok(story) =>
      var doses := Doses(page);
      var sh1 := sh.(story := sh.story + story, doses := sh.doses + doses.done);
      var z1 := NoneShared.(story := story, doses := doses.done);
      assert [] + story == story && [] + doses.done == doses.done;
      assert sh1 == Extend(sh, z1);
      if doses.failure.None? && Title(page).Ok? {
        ExtractFooterShift(Older, page, sh.substances, sh.tags);
        var foot := ExtractFooter(Older, page, [], []);
        assert ExtractOlder(NoneShared, page).shared == z1.(substances := foot.footer.substances, tags := foot.footer.tags);
      }
  }

  /** The story and the doses an extraction appends are its page's own. */
  lemma {:induction false} OlderLists(sh: Shared, page: Node)
    requires FindAll(page, ByClass(StoryClass)) != []
    ensures ExtractOlder(sh, page).shared.story == sh.story + StoryWindow(Children(FindAll(page, ByClass(StoryClass))[0]))
    ensures ExtractOlder(sh, page).shared.doses == sh.doses + Doses(page).done
  {
  }

  /** The first instance sees the story window and the dose chart of its own
      page, as the current version does. */
  lemma {:induction false} OlderFirstAgrees(page: Node)
    requires ExtractOlder(NoneShared, page).record.Ok?
    ensures FindAll(page, ByClass(StoryClass)) != []
    ensures ExtractOlder(NoneShared, page).record.value.story == StoryWindow(Children(FindAll(page, ByClass(StoryClass))[0]))
    ensures ExtractOlder(NoneShared, page).record.value.doses == Doses(page).done
  {
    OlderLists(NoneShared, page);
    var found := FindAll(page, ByClass(StoryClass));
    assert [] + StoryWindow(Children(found[0])) == StoryWindow(Children(found[0]));
    assert [] + Doses(page).done == Doses(page).done;
  }

  /** A later record's story, doses, substances and tags start with the
      earlier record's. */
  lemma {:induction false} OlderAccumulates(sh: Shared, first: Node, second: Node)
    requires ExtractOlder(sh, first).record.Ok?
    requires ExtractOlder(ExtractOlder(sh, first).shared, second).record.Ok?
    ensures var a := ExtractOlder(sh, first).record.value;
            var b := ExtractOlder(ExtractOlder(sh, first).shared, second).record.value;
            a.story <= b.story && a.doses <= b.doses && a.substances <= b.substances && a.tags <= b.tags
  {
  }

  /** Extracting the same page twice repeats everything it appended: the
      second record's story is the story twice over. */
  lemma {:induction false} OlderRepeats(page: Node)
    requires ExtractOlder(NoneShared, page).record.Ok?
    ensures var s := ExtractOlder(NoneShared, page).shared;
      && ExtractOlder(s, page).record.Ok?
      && ExtractOlder(s, page).shared == Extend(s, s)
      && ExtractOlder(s, page).record.value.story == s.story + s.story
  {
    OlderShift(ExtractOlder(NoneShared, page).shared, page);
  }

  /** `extract_data` of erowid_scraping.py: the steps and shared lists of
      the older version; its own exception class for a page without a
      story. */
  function ExtractEarliest(sh: Shared, page: Node): (r: Step)
    ensures Grows(sh, r.shared)
    ensures r.record.Ok? ==> && r.record.value.story == r.shared.story && r.record.value.doses == r.shared.doses
                             && r.record.value.substances == r.shared.substances && r.record.value.tags == r.shared.tags
    ensures FindAll(page, ByClass(StoryClass)) == [] ==> r == Step(sh, Fail(MissingExperience))
  {
    if FindAll(page, ByClass(StoryClass)) == [] then Step(sh, Fail(MissingExperience))
    else ExtractOlder(sh, page)
  }

  /** On a page with a story the two versions agree, and on one without
      they differ only in the exception class. */
  lemma {:induction false} EarliestAgrees(sh: Shared, page: Node)
    ensures ExtractEarliest(sh, page).shared == ExtractOlder(sh, page).shared
    ensures ExtractEarliest(sh, page).record.Ok? <==> ExtractOlder(sh, page).record.Ok?
    ensures ExtractOlder(sh, page).record == Fail(MissingExperienceFromPage)
        <==> ExtractEarliest(sh, page).record == Fail(MissingExperience)
  {
    if FindAll(page, ByClass(StoryClass)) != [] {
      OlderNeverMissing(sh, page);
    }
  }

  /** With a story container the older version never reports it missing. */
  lemma {:induction false} OlderNeverMissing(sh: Shared, page: Node)
    requires FindAll(page, ByClass(StoryClass)) != []
    ensures ExtractOlder(sh, page).record != Fail(MissingExperienceFromPage)
    ensures ExtractOlder(sh, page).record != Fail(MissingExperience)
  {
  }

  // ---------------------------------------------------------------- thesis

  /** `get_experience` of erowid_download_thesis.py once the page is parsed;
      the title comes from another library and is a parameter. Story, then
      the strict dose chart, then the strict footer. */
  function ExtractThesis(page: Node, title: string): (r: Result<Record>)
    ensures FindAll(page, ByClass(StoryClass)) == [] ==> r == Fail(GenericException(Some(ThesisMissing)))
    ensures r.Ok? ==> r.value.title == title
    ensures r.Ok? ==> FindAll(page, ByClass(ChartClass)) != [] && Find(page, ByClass(BodyWeightClass)).Some?
  {
    var story :- ThesisExtractStory(page);
    var doses :- ThesisDoses(page);
    var foot := ExtractFooter(Thesis, page, [], []);
    if foot.failure.Some? then Fail(foot.failure.value)
    else Ok(Record(story, doses, foot.footer.substances, foot.footer.metadata, foot.footer.tags, title))
  }

  /** Where both versions accept a page, the current version's doses are
      the thesis doses tidied. */
  lemma {:induction false} ThesisDosesAgree(page: Node, title: string)
    requires ExtractThesis(page, title).Ok? && ExtractCurrent(page).Ok?
    ensures |ExtractCurrent(page).value.doses| == |ExtractThesis(page, title).value.doses|
    ensures forall k :: 0 <= k < |ExtractCurrent(page).value.doses| ==>
      ExtractCurrent(page).value.doses[k] == Tidy(ExtractThesis(page, title).value.doses[k])
  {
    assert ThesisDoses(page).Ok? && ExtractThesis(page, title).value.doses == ThesisDoses(page).value;
    StrictChartAgrees(page);
  }

  // ---------------------------------------------------------------- to_dict

  /** A value of the saved dictionary. */
  datatype Value =
    | Paragraphs(paragraphs: seq<string>)
    | DoseList(doses: seq<Dose>)
    | TagList(tags: seq<TagRef>)
    | Mapping(mapping: Dict<string, string>)
    | Str(text: string)

  const RecordKeys: seq<string> :=
    ["story_paragraphs", "substances_details", "substances_main", "metadata", "tags", "title"]

  /** `to_dict`: the six fields under their keys, in this order. */
  function ToDict(r: Record): (d: Dict<string, Value>)
    ensures Valid(d) && d.keys == RecordKeys
  {
    Dict(RecordKeys, map[
      "story_paragraphs" := Paragraphs(r.story),
      "substances_details" := DoseList(r.doses),
      "substances_main" := TagList(r.substances),
      "metadata" := Mapping(r.metadata),
      "tags" := TagList(r.tags),
      "title" := Str(r.title)])
  }

  /** The loading side (`get_exp` of src/processor.py): a missing key raises
      KeyError; a value of another kind is reported as TypeError. */
  function FromDict(d: Dict<string, Value>): (r: Result<Record>)
    ensures r.Ok? ==> HasRecordKeys(d)
  {
    if !HasRecordKeys(d) then Fail(KeyError)
    else
      var v := d.values;
      if && v["story_paragraphs"].Paragraphs? && v["substances_details"].DoseList?
         && v["substances_main"].TagList? && v["metadata"].Mapping?
         && v["tags"].TagList? && v["title"].Str?
      then Ok(Record(v["story_paragraphs"].paragraphs, v["substances_details"].doses,
                     v["substances_main"].tags, v["metadata"].mapping, v["tags"].tags, v["title"].text))
      else Fail(TypeError)
  }

  predicate HasRecordKeys(d: Dict<string, Value>) {
    && "story_paragraphs" in d.values && "substances_details" in d.values
    && "substances_main" in d.values && "metadata" in d.values
    && "tags" in d.values && "title" in d.values
  }

  /** A saved record loads back unchanged. */
  lemma {:induction false} FromDictToDict(r: Record)
    ensures FromDict(ToDict(r)) == Ok(r)
  {
    assert HasRecordKeys(ToDict(r));
  }
}

=== FILE: fetch.dfy ===
/** `ElementScraper.get`: one request for a page, a retry through the next
    proxy server after a connection failure, and one more call through
    the next server when the site reports a blocked address. */
module Fetch {
  import opened Wrappers
  import opened Strings
  import opened Proxy

  /** A response: its status code, its text, whether it came from the
      local cache, and whether `raw._connection.sock` can still be read on
      it (a connection that is held open), which the network decides. */
  datatype Response = Response(status: nat, text: string, fromCache: bool, socketOpen: bool)

  /** What one `http_call` does: raise, or answer. The network is a
      parameter: `net(n)` is the outcome of the `n`-th call of a `get`. */
  datatype Reply = Raised(error: Error) | Served(response: Response)

  /** The calls made (with the proxy settings each used), the proxy server
      afterwards, how many times the url was dropped from the cache, and
      the response kept or the exception raised. */
  datatype Fetched = Fetched(calls: seq<Option<Proxies>>, server: Option<ProxyServer>, forgotten: nat, result: Result<Response>)

  const BlockedNotice := "IP address has been blocked"

  /** `raise_for_status` raises for client and server errors. */
  predicate RaisesForStatus(status: nat) {
    400 <= status < 600
  }

  /** The exceptions the first call recovers from. */
  predicate Recoverable(e: Error) {
    e == ConnectionError || e == SOCKS5AuthError
  }

  /** Whether the log message about a blocked address can be built: its
      argument reads the socket of the response's connection, which a
      response from the cache does not have; otherwise the f-string raises
      AttributeError before anything is logged. */
  predicate SocketReadable(res: Response) {
    !res.fromCache && res.socketOpen
  }

  predicate ServerValid(s: Option<ProxyServer>) {
    s.Some? ==> Valid(s.value)
  }

  function Settings(s: Option<ProxyServer>): Option<Proxies>
    requires ServerValid(s)
  {
    if s.Some? then Some(GetProxy(s.value)) else None
  }

  /** `update_proxy_get_response`: the next server, the url dropped from
      the cache, and a call through the new server. Without a proxy server
      the first step is an AttributeError on `None`. The call's response
      is returned without a status check. */
  function Refetch(f: Fetched, net: nat -> Reply): (r: Fetched)
    requires ServerValid(f.server)
    ensures ServerValid(r.server)
    ensures f.server.None? ==> r == f.(result := Fail(AttributeError))
    ensures f.server.Some? ==> && r.server == Some(UpdateServerUsed(f.server.value))
                               && r.calls == f.calls + [Settings(r.server)]
                               && r.forgotten == f.forgotten + 1
                               && (net(|f.calls|).Served? <==> r.result.Ok?)
                               && (r.result.Ok? ==> net(|f.calls|) == Served(r.result.value))
                               && (r.result.Fail? ==> net(|f.calls|) == Raised(r.result.error))
  {
    if f.server.None? then f.(result := Fail(AttributeError))
    else
      var s := UpdateServerUsed(f.server.value);
      var result := match net(|f.calls|)
        case Raised(e) => Fail(e)
        case Served(res) => Ok(res);
      Fetched(f.calls + [Some(GetProxy(s))], Some(s), f.forgotten + 1, result)
  }

  /** The `try` block: the first call and its status check, and the retry
      after a recoverable exception. */
  function FirstAttempt(server: Option<ProxyServer>, net: nat -> Reply): (r: Fetched)
    requires ServerValid(server)
    ensures ServerValid(r.server)
    ensures 1 <= |r.calls| <= 2 && r.calls[0] == Settings(server)
    ensures server.None? ==> |r.calls| == 1 && r.server.None? && r.forgotten == 0
    ensures server.Some? ==> && r.server == Some(Advance(server.value, |r.calls| - 1))
                             && r.forgotten == |r.calls| - 1
                             && r.calls[|r.calls| - 1] == Settings(r.server)
    ensures r.result.Ok? ==> net(|r.calls| - 1) == Served(r.result.value)
    ensures r.result.Fail? ==> r.result.error in {HTTPError, AttributeError} || net(|r.calls| - 1) == Raised(r.result.error)
  {
    var start := Fetched([Settings(server)], server, 0, Fail(ConnectionError));
    match net(0)
    case Served(res) =>
      if RaisesForStatus(res.status) then start.(result := Fail(HTTPError)) else start.(result := Ok(res))
    case Raised(e) =>
      if Recoverable(e) then Refetch(start, net) else start.(result := Fail(e))
  }

  /** `get`: after the `try` block, a page reporting a blocked address
      fetched through a proxy first builds a log message from the
      response's socket, which raises AttributeError when there is none,
      and then makes one more call through the next server; that call's
      response is dropped and the blocked page is kept. */
  function Get(server: Option<ProxyServer>, net: nat -> Reply): (r: Fetched)
    requires ServerValid(server)
    ensures ServerValid(r.server)
    ensures 1 <= |r.calls| <= 3 && r.calls[0] == Settings(server)
    ensures server.None? ==> |r.calls| == 1 && r.server.None? && r.forgotten == 0
    ensures server.Some? ==> && r.server == Some(Advance(server.value, |r.calls| - 1))
                             && r.forgotten == |r.calls| - 1
                             && r.calls[|r.calls| - 1] == Settings(r.server)
  {
    var first := FirstAttempt(server, net);
    if first.result.Ok? && Contains(first.result.value.text, BlockedNotice) && server.Some? then
      if SocketReadable(first.result.value) then AfterBlock(server.value, first, net)
      else first.(result := Fail(AttributeError))
    else first
  }

  /** The extra call after a block notice: through the next server, with
      its response dropped unless it raises. */
  function AfterBlock(s: ProxyServer, first: Fetched, net: nat -> Reply): (r: Fetched)
    requires Valid(s) && 1 <= |first.calls| && first.result.Ok?
    requires first.server == Some(Advance(s, |first.calls| - 1)) && first.forgotten == |first.calls| - 1
    ensures |r.calls| == |first.calls| + 1 && r.calls[..|first.calls|] == first.calls
    ensures r.server == Some(Advance(s, |r.calls| - 1)) && ServerValid(r.server)
    ensures r.forgotten == |r.calls| - 1 && r.calls[|r.calls| - 1] == Settings(r.server)
    ensures r.result.Ok? ==> r.result == first.result
    ensures r.result.Fail? ==> net(|r.calls| - 1) == Raised(r.result.error)
  {
    var again := Refetch(first, net);
    if again.result.Fail? then again else again.(result := first.result)
  }

  /** `was_cached` after `get`: whether the kept response came from the
      cache; it keeps its default `False` when `get` raised. */
  function WasCached(f: Fetched): bool {
    f.result.Ok? && f.result.value.fromCache
  }

  /** `get_experience` of erowid_scraping.py: one call through the given
      settings, with neither a status check nor a retry. */
  function GetExperience(proxy: Option<Proxies>, net: nat -> Reply): (r: Fetched)
    ensures r.calls == [proxy] && r.server.None? && r.forgotten == 0
    ensures r.result.Ok? <==> net(0).Served?
    ensures r.result.Ok? ==> net(0) == Served(r.result.value)
    ensures r.result.Fail? ==> net(0) == Raised(r.result.error)
  {
    var result := match net(0)
      case Raised(e) => Fail(e)
      case Served(res) => Ok(res);
    Fetched([proxy], None, 0, result)
  }

  // ---------------------------------------------------------------- properties

  /** Each call goes through the server the rotation has reached: the
      `k`-th call through the server `k` updates on. */
  lemma {:induction false} CallsRotate(s: ProxyServer, net: nat -> Reply, k: nat)
    requires Valid(s) && k < |Get(Some(s), net).calls|
    ensures Get(Some(s), net).calls[k] == Some(GetProxy(Advance(s, k)))
  {
    var n := |Get(Some(s), net).calls|;
    if k == 0 {
      FirstCall(s, net);
    } else if k == n - 1 {
      LastCall(s, net, k);
    } else {
      MiddleCall(s, net, k);
    }
  }

  /** The first call goes through the server in use. */
  lemma {:induction false} FirstCall(s: ProxyServer, net: nat -> Reply)
    requires Valid(s)
    ensures Get(Some(s), net).calls[0] == Some(GetProxy(Advance(s, 0)))
  {
    assert Advance(s, 0) == s;
  }

  /** The last call goes through the server the rotation ends on. */
  lemma {:induction false} LastCall(s: ProxyServer, net: nat -> Reply, k: nat)
    requires Valid(s) && k == |Get(Some(s), net).calls| - 1
    ensures Get(Some(s), net).calls[k] == Some(GetProxy(Advance(s, k)))
  {
    var r := Get(Some(s), net);
    assert r.server == Some(Advance(s, k));
  }

  /** With three calls, the middle one is the retry of the `try` block. */
  lemma {:induction false} MiddleCall(s: ProxyServer, net: nat -> Reply, k: nat)
    requires Valid(s) && 0 < k < |Get(Some(s), net).calls| - 1
    ensures Get(Some(s), net).calls[k] == Some(GetProxy(Advance(s, k)))
  {
    assert k == 1;
    var first := FirstAttempt(Some(s), net);
    if first.result.Ok? && Contains(first.result.value.text, BlockedNotice) && SocketReadable(first.result.value) {
      var r := AfterBlock(s, first, net);
      assert Get(Some(s), net) == r;
      assert |first.calls| == 2;
      assert r.calls[1] == first.calls[1] by {
        assert r.calls[..2] == first.calls;
      }
    }
  }

  /** A response `get` returns is one its calls received. */
  lemma {:induction false} ServedFromNet(server: Option<ProxyServer>, net: nat -> Reply)
    requires ServerValid(server)
    ensures var r := Get(server, net);
            r.result.Ok? ==> exists k :: 0 <= k < |r.calls| && net(k) == Served(r.result.value)
  {
    var first := FirstAttempt(server, net);
    var r := Get(server, net);
    if first.result.Ok? && Contains(first.result.value.text, BlockedNotice) && server.Some? {
      if SocketReadable(first.result.value) {
        assert r == AfterBlock(server.value, first, net);
        assert r.result.Ok? ==> net(|first.calls| - 1) == Served(r.result.value);
      }
    } else {
      assert r == first;
      assert r.result.Ok? ==> net(|r.calls| - 1) == Served(r.result.value);
    }
  }

  /** An exception `get` raises is one of its calls raised, or one of the
      two it raises itself. */
  lemma {:induction false} RaisedFromNet(server: Option<ProxyServer>, net: nat -> Reply)
    requires ServerValid(server)
    ensures var r := Get(server, net);
            r.result.Fail? ==> || r.result.error in {HTTPError, AttributeError}
                               || exists k :: 0 <= k < |r.calls| && net(k) == Raised(r.result.error)
  {
    var first := FirstAttempt(server, net);
    var r := Get(server, net);
    if first.result.Ok? && Contains(first.result.value.text, BlockedNotice) && server.Some? {
      if SocketReadable(first.result.value) {
        assert r == AfterBlock(server.value, first, net);
        assert r.result.Fail? ==> net(|r.calls| - 1) == Raised(r.result.error);
      }
    } else {
      assert r == first;
      assert r.result.Fail? && r.result.error !in {HTTPError, AttributeError}
             ==> net(|r.calls| - 1) == Raised(r.result.error);
    }
  }

  /** A good first response that is not a block notice is kept: one call,
      no rotation. */
  lemma {:induction false} CleanFirstResponse(server: Option<ProxyServer>, net: nat -> Reply, res: Response)
    requires ServerValid(server)
    requires net(0) == Served(res) && !RaisesForStatus(res.status)
    requires !Contains(res.text, BlockedNotice) || server.None?
    ensures Get(server, net) == Fetched([Settings(server)], server, 0, Ok(res))
  {
  }

  /** An error status is raised at once, without a retry. */
  lemma {:induction false} StatusErrorNotRetried(server: Option<ProxyServer>, net: nat -> Reply, res: Response)
    requires ServerValid(server)
    requires net(0) == Served(res) && RaisesForStatus(res.status)
    ensures Get(server, net) == Fetched([Settings(server)], server, 0, Fail(HTTPError))
  {
  }

  /** A connection failure is retried through the next server when there
      is one, and is an AttributeError when there is none; other
      exceptions propagate. */
  lemma {:induction false} FailureRetried(server: Option<ProxyServer>, net: nat -> Reply, e: Error)
    requires ServerValid(server) && net(0) == Raised(e)
    ensures !Recoverable(e) ==> Get(server, net) == Fetched([Settings(server)], server, 0, Fail(e))
    ensures Recoverable(e) && server.None? ==> Get(server, net) == Fetched([None], None, 0, Fail(AttributeError))
    ensures Recoverable(e) && server.Some? ==> |Get(server, net).calls| >= 2 && Get(server, net).forgotten >= 1
  {
  }

  /** The retry's response is kept even with an error status, since it is
      not checked. */
  lemma {:induction false} RetryNotChecked(s: ProxyServer, net: nat -> Reply, res: Response)
    requires Valid(s) && net(0).Raised? && Recoverable(net(0).error)
    requires net(1) == Served(res) && !Contains(res.text, BlockedNotice)
    ensures Get(Some(s), net).result == Ok(res)
    ensures |Get(Some(s), net).calls| == 2
  {
  }

  /** A block notice fetched through a proxy costs one more call through
      the next server, but the page kept is still the block notice. When
      the notice came from the cache, or its connection is gone, building
      the log message raises AttributeError instead: no further call, no
      rotation, and `was_cached` keeps its default. */
  lemma {:induction false} BlockedPageKept(s: ProxyServer, net: nat -> Reply, res: Response, other: Response)
    requires Valid(s)
    requires net(0) == Served(res) && !RaisesForStatus(res.status) && Contains(res.text, BlockedNotice)
    requires net(1) == Served(other)
    ensures SocketReadable(res) ==> && Get(Some(s), net).result == Ok(res)
                                    && |Get(Some(s), net).calls| == 2
                                    && Get(Some(s), net).server == Some(UpdateServerUsed(s))
                                    && WasCached(Get(Some(s), net)) == res.fromCache
    ensures !SocketReadable(res) ==> && Get(Some(s), net) == Fetched([Some(GetProxy(s))], Some(s), 0, Fail(AttributeError))
                                     && !WasCached(Get(Some(s), net))
  {
  }

  /** Without a proxy server the two versions differ only on error
      statuses, which the earliest one keeps as pages, and on connection
      failures, which the later one turns into an AttributeError. */
  lemma {:induction false} EarliestAgrees(net: nat -> Reply)
    ensures net(0).Served? && !RaisesForStatus(net(0).response.status)
            ==> GetExperience(None, net) == Get(None, net)
    ensures net(0).Served? && RaisesForStatus(net(0).response.status)
            ==> GetExperience(None, net).result == Ok(net(0).response) && Get(None, net).result == Fail(HTTPError)
    ensures net(0).Raised? && Recoverable(net(0).error)
            ==> GetExperience(None, net).result == Fail(net(0).error) && Get(None, net).result == Fail(AttributeError)
  {
  }
}

=== FILE: footer.dfy ===
/** The footer of an experience report (`extract_experience_metadata` and
    its thesis counterpart): the body weight, the `key: value` metadata
    rows, and the one row listing the substances and the tags,
    "substances: tags". The three versions differ in how a list is parsed
    and in how strictly the page is read. */
module FootData {
  import opened Wrappers
  import opened Strings
  import opened Page
  import opened TagParse
  import opened Dicts
  import opened Seqs

  /** src/experiences_scraper.py, experiences_scraper.py and
      erowid_download_thesis.py. */
  datatype Version = Current | Older | Thesis

  datatype Footer = Footer(metadata: Dict<string, string>, substances: seq<TagRef>, tags: seq<TagRef>)

  /** The footer the loop leaves behind, and the exception that stopped it. */
  datatype Outcome = Outcome(footer: Footer, failure: Option<Error>)

  const FootClass := "footdata"
  const BodyWeightClass := "bodyweight-amount"
  const BodyWeightKey := "body_weight"
  const PdfLabel := "View as PDF"

  // ---------------------------------------------------------------- metadata rows

  /** `text.split(':')`, kept only when it has exactly two parts. */
  function MetaPair(text: string): (r: Option<(string, string)>)
    ensures r.Some? <==> Count(text, ':') == 1
    ensures r.Some? ==> ':' !in r.value.0 && ':' !in r.value.1
  {
    var parts := Split(text, ':');
    if |parts| == 2 then Some((parts[0], parts[1])) else None
  }

  /** A `key:value` text is read back as that pair. */
  lemma {:induction false} MetaPairOf(key: string, value: string)
    requires ':' !in key && ':' !in value
    ensures MetaPair(key + ":" + value) == Some((key, value))
  {
    assert key + ":" + value == key + [':'] + value;
    SplitConcat(key, value, ':');
    SplitAbsent(key, ':');
    SplitAbsent(value, ':');
  }

  /** The pairs of the nodes whose text splits in two, in order. */
  function MetaPairs(nodes: seq<Node>): (r: seq<(string, string)>)
    ensures |r| <= |nodes|
    decreases |nodes|
  {
    if nodes == [] then []
    else
      var own := match MetaPair(TextOf(nodes[0])) case Some(p) => [p] case None => [];
      own + MetaPairs(nodes[1..])
  }

  /** The children a multi-child row reads: all of them, or in the thesis
      only `contents[0]` and `contents[1]`. */
  function MetaSources(v: Version, children: seq<Node>): (r: seq<Node>)
    requires |children| >= 2
    ensures v == Thesis ==> r == [children[0], children[1]]
    ensures v != Thesis ==> r == children
  {
    if v == Thesis then children[..2] else children
  }

  // ---------------------------------------------------------------- list row

  /** The "View as PDF" row is skipped; the thesis does not strip the text
      before testing. */
  predicate IsPdfRow(v: Version, row: Node) {
    Contains(if v == Thesis then TextOf(row) else Strip(TextOf(row)), PdfLabel)
  }

  /** The parser each version applies to one `:` segment of the list row:
      `split_tags`, which never raises, or one `_dict_from_str` per comma
      fragment, which raises IndexError on a fragment without `(`. */
  function ListOf(v: Version, segment: string): (r: Partial<TagRef>)
    ensures v == Current ==> r.failure.None? && forall k :: 0 <= k < |r.done| ==> ParsedTag(r.done[k])
    ensures r.failure.Some? ==> r.failure.value == IndexError
    ensures v != Current && r.failure.None? ==> |r.done| == Count(segment, ',') + 1
  {
    match v
    case Current => Partial(SplitTags(segment), None)
    case Older => DictsFromList(segment)
    case Thesis => Collect(ThesisDictFromStr, Split(segment, ','))
  }

  // ---------------------------------------------------------------- the loop

  /** What one row contributes: metadata assignments, appended substances
      and tags, and the exception it raises. */
  datatype Effect = Effect(pairs: seq<(string, string)>, substances: seq<TagRef>, tags: seq<TagRef>,
                           failure: Option<Error>)

  /** One iteration of `for row in footdata_tag`. Strings are skipped. A row
      with more than one child assigns its pairs to the metadata. Any other
      row that is not the PDF link is split on `:`: the first segment
      extends the substances, then the second extends the tags, and a row
      without `:` raises IndexError after the substances were extended. */
  function RowEffect(v: Version, row: Node): (e: Effect)
    ensures e.failure.Some? ==> e.failure.value == IndexError
    ensures e.pairs != [] ==> e.substances == [] && e.tags == [] && e.failure.None?
  {
    if !row.Element? then Effect([], [], [], None)
    else if |row.children| > 1 then Effect(MetaPairs(MetaSources(v, row.children)), [], [], None)
    else if IsPdfRow(v, row) then Effect([], [], [], None)
    else
      var parts := Split(TextOf(row), ':');
      var subs := ListOf(v, parts[0]);
      if subs.failure.Some? then Effect([], subs.done, [], subs.failure)
      else if |parts| < 2 then Effect([], subs.done, [], Some(IndexError))
      else
        var tags := ListOf(v, parts[1]);
        Effect([], subs.done, tags.done, tags.failure)
  }

  /** The footer after a row's effect. */
  function Apply(f: Footer, e: Effect): (r: Outcome)
    requires Valid(f.metadata)
    ensures Valid(r.footer.metadata)
    ensures f.metadata.values.Keys <= r.footer.metadata.values.Keys
    ensures f.substances <= r.footer.substances && f.tags <= r.footer.tags
  {
    Outcome(Footer(PutAll(f.metadata, e.pairs), f.substances + e.substances, f.tags + e.tags), e.failure)
  }

  function FooterRow(v: Version, f: Footer, row: Node): (r: Outcome)
    requires Valid(f.metadata)
    ensures Valid(r.footer.metadata)
  {
    Apply(f, RowEffect(v, row))
  }

  /** The loop over the footer's children, stopping at the first row that
      raises. */
  function FooterRows(v: Version, f: Footer, rows: seq<Node>): (r: Outcome)
    requires Valid(f.metadata)
    ensures Valid(r.footer.metadata)
    ensures f.metadata.values.Keys <= r.footer.metadata.values.Keys
    ensures f.substances <= r.footer.substances && f.tags <= r.footer.tags
    ensures r.failure.Some? ==> r.failure.value == IndexError
    decreases |rows|
  {
    if rows == [] then Outcome(f, None)
    else
      var step := FooterRow(v, f, rows[0]);
      if step.failure.Some? then step else FooterRows(v, step.footer, rows[1..])
  }

  /** `body_weight`: the stripped text of the element, or '' without one;
      the thesis reads `.text` of the element unconditionally, raising
      AttributeError when it is missing, and does not strip. */
  function BodyWeight(v: Version, page: Node): (r: Result<string>)
    ensures r.Fail? <==> v == Thesis && Find(page, ByClass(BodyWeightClass)).None?
    ensures r.Fail? ==> r.error == AttributeError
    ensures v != Thesis && Find(page, ByClass(BodyWeightClass)).None? ==> r == Ok("")
  {
    match Find(page, ByClass(BodyWeightClass))
    case None => if v == Thesis then Fail(AttributeError) else Ok("")
    case Some(n) => Ok(if v == Thesis then TextOf(n) else Strip(TextOf(n)))
  }

  /** The footer part of the extraction, continuing lists that already hold
      `substances` and `tags` (the older version's lists are shared by every
      report). The metadata starts as the body weight alone. A page without
      `footdata` raises TypeError, since the loop iterates `None`. */
  function ExtractFooter(v: Version, page: Node, substances: seq<TagRef>, tags: seq<TagRef>): (r: Outcome)
    ensures substances <= r.footer.substances && tags <= r.footer.tags
    ensures Valid(r.footer.metadata)
    ensures r.failure.Some? ==> r.failure.value in {IndexError, TypeError, AttributeError}
    ensures v != Thesis ==> BodyWeightKey in r.footer.metadata.values
  {
    match BodyWeight(v, page)
    case Fail(e) => Outcome(Footer(Empty(), substances, tags), Some(e))
    case Ok(weight) =>
      var start := Footer(Singleton(BodyWeightKey, weight), substances, tags);
      match Find(page, ByClass(FootClass))
      case None => Outcome(start, Some(TypeError))
      case Some(foot) => FooterRows(v, start, Children(foot))
  }

  // ---------------------------------------------------------------- properties

  /** A multi-child row leaves each key with the last value its children
      assign, or the earlier value when none does. */
  lemma {:induction false} MetaRowLookup(v: Version, f: Footer, row: Node, key: string)
    requires Valid(f.metadata) && row.Element? && |row.children| > 1
    ensures Lookup(FooterRow(v, f, row).footer.metadata, key)
         == LastValue(MetaPairs(MetaSources(v, row.children)), key, Lookup(f.metadata, key))
  {
    PutAllLookup(f.metadata, MetaPairs(MetaSources(v, row.children)), key);
  }

  /** `a + ":" + b` with colon-free halves splits into exactly them. */
  lemma {:induction false} SplitColon(a: string, b: string)
    requires ':' !in a && ':' !in b
    ensures Split(a + ":" + b, ':') == [a, b]
  {
    assert a + ":" + b == a + [':'] + b;
    SplitConcat(a, b, ':');
    SplitAbsent(a, ':');
    SplitAbsent(b, ':');
  }

  /** The list row of the current version: the two halves are parsed by
      `split_tags` and appended, and the row never raises. */
  lemma {:induction false} ListRowCurrent(f: Footer, row: Node, a: string, b: string)
    requires Valid(f.metadata) && row.Element? && |row.children| <= 1 && !IsPdfRow(Current, row)
    requires TextOf(row) == a + ":" + b && ':' !in a && ':' !in b
    ensures FooterRow(Current, f, row)
         == Outcome(f.(substances := f.substances + SplitTags(a), tags := f.tags + SplitTags(b)), None)
  {
    SplitColon(a, b);
  }

  /** The list row of the older version: one entry per comma fragment on
      each side, or IndexError at the first fragment without `(`. */
  lemma {:induction false} ListRowOlder(f: Footer, row: Node, a: string, b: string)
    requires Valid(f.metadata) && row.Element? && |row.children| <= 1 && !IsPdfRow(Older, row)
    requires TextOf(row) == a + ":" + b && ':' !in a && ':' !in b
    ensures var r := FooterRow(Older, f, row);
      r.failure.None? ==> && |r.footer.substances| == |f.substances| + Count(a, ',') + 1
                          && |r.footer.tags| == |f.tags| + Count(b, ',') + 1
  {
    SplitColon(a, b);
  }

  /** A list row without `:` raises IndexError in every version, after the
      substances were extended. */
  lemma {:induction false} ListRowWithoutColon(v: Version, f: Footer, row: Node)
    requires Valid(f.metadata) && row.Element? && |row.children| <= 1 && !IsPdfRow(v, row)
    requires ':' !in TextOf(row)
    ensures FooterRow(v, f, row).failure == Some(IndexError)
  {
    SplitAbsent(TextOf(row), ':');
  }

  /** The footer with `s` and `t` put in front of its lists. */
  function Prefixed(f: Footer, s: seq<TagRef>, t: seq<TagRef>): Footer {
    f.(substances := s + f.substances, tags := t + f.tags)
  }

  /** The loop only appends to the lists: run on lists that already hold
      entries, it appends what it appends to empty lists, and fails alike. */
  lemma {:induction false} FooterRowsShift(v: Version, m: Dict<string, string>, s: seq<TagRef>, t: seq<TagRef>, rows: seq<Node>)
    requires Valid(m)
    ensures var r := FooterRows(v, Footer(m, [], []), rows);
      FooterRows(v, Footer(m, s, t), rows) == Outcome(Prefixed(r.footer, s, t), r.failure)
    decreases |rows|
  {
    if rows == [] {
      assert s + [] == s && t + [] == t;
    } else {
      var e := RowEffect(v, rows[0]);
      var m1 := PutAll(m, e.pairs);
      assert [] + e.substances == e.substances && [] + e.tags == e.tags;
      if e.failure.None? {
        var tail := rows[1..];
        assert FooterRows(v, Footer(m, s, t), rows) == FooterRows(v, Footer(m1, s + e.substances, t + e.tags), tail);
        assert FooterRows(v, Footer(m, [], []), rows) == FooterRows(v, Footer(m1, e.substances, e.tags), tail);
        FooterRowsShift(v, m1, s + e.substances, t + e.tags, tail);
        FooterRowsShift(v, m1, e.substances, e.tags, tail);
        var rest := FooterRows(v, Footer(m1, [], []), tail).footer;
        Assoc(s, e.substances, rest.substances);
        Assoc(t, e.tags, rest.tags);
      }
    }
  }

  /** The footer extraction only appends to the lists it is given. */
  lemma {:induction false} ExtractFooterShift(v: Version, page: Node, s: seq<TagRef>, t: seq<TagRef>)
    ensures var r := ExtractFooter(v, page, [], []);
      ExtractFooter(v, page, s, t) == Outcome(Prefixed(r.footer, s, t), r.failure)
  {
    assert s + [] == s && t + [] == t;
    match BodyWeight(v, page)
    case Fail(_) =>
    case Ok(w) =>
      match Find(page, ByClass(FootClass))
      case None =>
      case Some(foot) =>
        FooterRowsShift(v, Singleton(BodyWeightKey, w), s, t, Children(foot));
  }
}

=== FILE: listing.dfy ===
/** The scraper of the search-result pages (src/urls_scraper.py): which
    pages are queued, what each page's list is called, the urls read off a
    page and the file they are saved to. */
module Listing {
  import opened Wrappers
  import opened Strings
  import opened Page
  import opened Dicts
  import opened TextFiles
  import Locations

  const SearchUrl := "https://www.erowid.org/experiences/exp.cgi"
  const ExperiencesBase := "https://www.erowid.org/experiences/"
  const ListFolder := "data/exp_links"
  const FirstStart := 0
  const MaxStep := 1000
  const FinalStart := 39300

  /** The query of a search page. */
  datatype Params = Params(showViews: nat, cellar: nat, start: nat, max: nat)

  const BaseParams := Params(0, 1, FirstStart, MaxStep)

  /** `exp_list_id`: `f"{Start}_{Start + Max}"`. */
  function ListId(p: Params): string {
    NatToString(p.start) + "_" + NatToString(p.start + p.max)
  }

  /** The id names the range it lists: its two halves read back as the
      first and the last offset. */
  lemma {:induction false} ListIdParts(p: Params)
    ensures Split(ListId(p), '_') == [NatToString(p.start), NatToString(p.start + p.max)]
    ensures ParseNat(Split(ListId(p), '_')[0]) == p.start
    ensures ParseNat(Split(ListId(p), '_')[1]) == p.start + p.max
  {
    var a, b := NatToString(p.start), NatToString(p.start + p.max);
    assert '_' !in a by { NoUnderscore(a); }
    assert '_' !in b by { NoUnderscore(b); }
    SplitConcat(a, b, '_');
    SplitAbsent(a, '_');
    SplitAbsent(b, '_');
    ParseNatToString(p.start);
    ParseNatToString(p.start + p.max);
  }

  lemma NoUnderscore(s: string)
    requires AllDigits(s)
    ensures '_' !in s
  {
  }

  /** Two pages with the same id cover the same range. */
  lemma {:induction false} ListIdInjective(p: Params, q: Params)
    requires ListId(p) == ListId(q)
    ensures p.start == q.start && p.max == q.max
  {
    ListIdParts(p);
    ListIdParts(q);
  }

  /** Python's `range(lo, hi, step)` for a positive step. */
  function Range(lo: nat, hi: nat, step: nat): seq<nat>
    requires step > 0
    decreases if lo < hi then hi - lo else 0
  {
    if lo >= hi then [] else [lo] + Range(lo + step, hi, step)
  }

  /** The `k`-th element of a range is `k` steps from its start, and
      below its end. */
  lemma {:induction false} RangeAt(lo: nat, hi: nat, step: nat, k: nat)
    requires step > 0 && k < |Range(lo, hi, step)|
    ensures Range(lo, hi, step)[k] == lo + k * step < hi
    decreases k
  {
    if k > 0 {
      RangeAt(lo + step, hi, step, k - 1);
      assert (lo + step) + (k - 1) * step == lo + k * step;
    }
  }

  /** The range stops at the first step that reaches its end. */
  lemma {:induction false} RangeEnd(lo: nat, hi: nat, step: nat)
    requires step > 0
    ensures hi <= lo + |Range(lo, hi, step)| * step
    decreases if lo < hi then hi - lo else 0
  {
    if lo < hi {
      var n := |Range(lo + step, hi, step)|;
      RangeEnd(lo + step, hi, step);
      assert lo + step + n * step == lo + (n + 1) * step;
    }
  }

  /** The start offsets of the search pages. */
  function Starts(): seq<nat> {
    Range(FirstStart, FinalStart, MaxStep)
  }

  /** Forty pages... */
  lemma StartsCount()
    ensures |Starts()| == 40
  {
    var n := |Starts()|;
    RangeEnd(FirstStart, FinalStart, MaxStep);
    assert n > 0;
    RangeAt(FirstStart, FinalStart, MaxStep, n - 1);
  }

  /** ... at 0, 1000, ..., 39000. */
  lemma StartsAt(k: nat)
    requires k < 40
    ensures k < |Starts()| && Starts()[k] == 1000 * k
  {
    StartsCount();
    RangeAt(FirstStart, FinalStart, MaxStep, k);
  }

  /** The query of the page at `start`: the base query with only the
      offset changed. */
  function PageParams(start: nat): Params {
    BaseParams.(start := start)
  }

  /** `os.path.join(save_folder, f"{exp_list_id}.txt")`. */
  function ListPath(p: Params): string {
    Locations.PathJoin(ListFolder, ListId(p) + ".txt")
  }

  /** A queued search page: its url, its query and the file its urls go to. */
  datatype ListJob = ListJob(url: string, params: Params, savePath: string)

  /** The pages at the given offsets whose list file is not there yet,
      keyed by their id, in offset order. */
  function ListJobs(existing: set<string>, starts: seq<nat>): (r: seq<(string, ListJob)>)
    ensures |r| <= |starts|
    ensures forall k :: 0 <= k < |r| ==> && r[k].1.params == PageParams(r[k].1.params.start)
                                         && r[k].0 == ListId(r[k].1.params)
                                         && r[k].1.url == SearchUrl
                                         && r[k].1.savePath == ListPath(r[k].1.params)
                                         && r[k].1.savePath !in existing
    decreases |starts|
  {
    if starts == [] then []
    else
      var p := PageParams(starts[0]);
      var path := ListPath(p);
      (if path in existing then [] else [(ListId(p), ListJob(SearchUrl, p, path))]) + ListJobs(existing, starts[1..])
  }

  /** A page gets a job exactly when its offset is listed and its file is
      missing. */
  lemma {:induction false} ListJobsAssign(existing: set<string>, starts: seq<nat>, s: nat)
    ensures Assigns(ListJobs(existing, starts), ListId(PageParams(s)))
            <==> s in starts && ListPath(PageParams(s)) !in existing
    decreases |starts|
  {
    if starts != [] {
      var p := PageParams(starts[0]);
      var head := if ListPath(p) in existing then [] else [(ListId(p), ListJob(SearchUrl, p, ListPath(p)))];
      ListJobsAssign(existing, starts[1..], s);
      assert ListJobs(existing, starts) == head + ListJobs(existing, starts[1..]);
      AssignsConcat(head, ListJobs(existing, starts[1..]), ListId(PageParams(s)));
      if ListId(p) == ListId(PageParams(s)) {
        ListIdInjective(p, PageParams(s));
      }
      assert s in starts <==> s == starts[0] || s in starts[1..];
    }
  }

  lemma AssignsConcat(a: seq<(string, ListJob)>, b: seq<(string, ListJob)>, k: string)
    ensures Assigns(a + b, k) <==> Assigns(a, k) || Assigns(b, k)
  {
    if Assigns(a + b, k) {
      var i :| 0 <= i < |a + b| && (a + b)[i].0 == k;
      if i >= |a| {
        assert b[i - |a|].0 == k;
      }
    }
    if Assigns(a, k) {
      var i :| 0 <= i < |a| && a[i].0 == k;
      assert (a + b)[i].0 == k;
    }
    if Assigns(b, k) {
      var i :| 0 <= i < |b| && b[i].0 == k;
      assert (a + b)[|a| + i].0 == k;
    }
  }

  /** `ErowidUrlsScraper.update_download_list`: every search page whose
      list file is missing is added to the queue under its id. */
  function UpdateListing(existing: set<string>, q: Dict<string, ListJob>): (r: Dict<string, ListJob>)
    requires Valid(q)
    ensures Valid(r) && q.values.Keys <= r.values.Keys
  {
    PutAll(q, ListJobs(existing, Starts()))
  }

  /** The `k`-th page is queued after the update exactly when it was queued
      before or its list file is missing; a queued page is saved to its
      own file. */
  lemma {:induction false} ListingQueued(existing: set<string>, q: Dict<string, ListJob>, k: nat)
    requires Valid(q) && k < 40
    ensures ListId(PageParams(1000 * k)) in UpdateListing(existing, q).values
            <==> ListId(PageParams(1000 * k)) in q.values || ListPath(PageParams(1000 * k)) !in existing
  {
    StartsAt(k);
    ListJobsAssign(existing, Starts(), 1000 * k);
    PutAllKeys(q, ListJobs(existing, Starts()), ListId(PageParams(1000 * k)));
  }

  /** Running the update twice queues nothing more. */
  lemma {:induction false} ListingIdempotent(existing: set<string>, q: Dict<string, ListJob>)
    requires Valid(q)
    ensures UpdateListing(existing, UpdateListing(existing, q)) == UpdateListing(existing, q)
  {
    PutAllTwice(q, ListJobs(existing, Starts()));
  }

  // ---------------------------------------------------------------- one page

  /** The first `<a>` of a row, if any. */
  function FirstAnchor(row: Node): (r: Option<Node>)
    ensures r.Some? ==> r.value.Element?
  {
    var anchors := FindAll(row, ByTag("a"));
    if anchors == [] then None else Some(anchors[0])
  }

  /** The url of a row: the base followed by the stripped `href` of its
      first anchor. */
  function RowUrl(a: Node): (r: Result<string>)
    requires a.Element?
    ensures r.Fail? <==> "href" !in a.attrs
    ensures r.Fail? ==> r.error == KeyError
    ensures r.Ok? ==> ExperiencesBase <= r.value && Trimmed(r.value)
    ensures r.Ok? ==> r.value[|ExperiencesBase|..] == Strip(a.attrs["href"])
  {
    if "href" !in a.attrs then Fail(KeyError)
    else
      var h := Strip(a.attrs["href"]);
      BaseThenTrimmed(h);
      Ok(ExperiencesBase + h)
  }

  lemma BaseThenTrimmed(h: string)
    requires Trimmed(h)
    ensures Trimmed(ExperiencesBase + h)
  {
    assert ExperiencesBase[0] == 'h';
    assert ExperiencesBase[|ExperiencesBase| - 1] == '/';
  }

  /** The rows' urls in order; rows without an anchor give none, and an
      anchor without `href` is a KeyError. */
  function RowUrls(rows: seq<Node>): (r: Result<seq<string>>)
    ensures r.Ok? ==> |r.value| <= |rows|
    ensures r.Ok? ==> forall k :: 0 <= k < |r.value| ==> ExperiencesBase <= r.value[k] && Trimmed(r.value[k])
    ensures r.Fail? ==> r.error == KeyError
    decreases |rows|
  {
    if rows == [] then Ok([])
    else
      match FirstAnchor(rows[0])
      case None => RowUrls(rows[1..])
      case Some(a) =>
        var u :- RowUrl(a);
        var rest :- RowUrls(rows[1..]);
        Ok([u] + rest)
  }

  /** `UrlListScraper.extract_data`: the urls of the rows of the first
      `exp-list-table`; an IndexError when the page has none. */
  function ExtractUrls(soup: Node): (r: Result<seq<string>>)
    ensures r.Fail? ==> r.error in {IndexError, KeyError}
    ensures FindAll(soup, ByClass("exp-list-table")) == [] ==> r == Fail(IndexError)
  {
    var tables := FindAll(soup, ByClass("exp-list-table"));
    if tables == [] then Fail(IndexError)
    else RowUrls(FindAll(tables[0], ByTag("tr")))
  }

  /** The rows that have an anchor. */
  function Anchored(rows: seq<Node>): (r: seq<Node>)
    ensures forall k :: 0 <= k < |r| ==> FirstAnchor(r[k]).Some?
    decreases |rows|
  {
    if rows == [] then []
    else (if FirstAnchor(rows[0]).Some? then [rows[0]] else []) + Anchored(rows[1..])
  }

  /** Every anchored row's first anchor has an `href`. */
  predicate AllHref(a: seq<Node>)
    requires forall k :: 0 <= k < |a| ==> FirstAnchor(a[k]).Some?
  {
    forall k :: 0 <= k < |a| ==> "href" in FirstAnchor(a[k]).value.attrs
  }

  /** A page fails exactly when one of its rows' first anchors has no
      `href`. */
  lemma {:induction false} RowUrlsOk(rows: seq<Node>)
    ensures RowUrls(rows).Ok? <==> AllHref(Anchored(rows))
    decreases |rows|
  {
    if rows != [] {
      RowUrlsOk(rows[1..]);
      var a, rest := Anchored(rows), Anchored(rows[1..]);
      if FirstAnchor(rows[0]).Some? {
        assert a == [rows[0]] + rest;
        AllHrefCons(rows[0], rest);
      } else {
        assert a == rest;
      }
    }
  }

  lemma AllHrefCons(x: Node, rest: seq<Node>)
    requires FirstAnchor(x).Some? && forall k :: 0 <= k < |rest| ==> FirstAnchor(rest[k]).Some?
    ensures AllHref([x] + rest) <==> "href" in FirstAnchor(x).value.attrs && AllHref(rest)
  {
    var a := [x] + rest;
    if AllHref(a) {
      assert a[0] == x;
      forall k | 0 <= k < |rest| ensures "href" in FirstAnchor(rest[k]).value.attrs {
        assert a[k + 1] == rest[k];
      }
    }
    if "href" in FirstAnchor(x).value.attrs && AllHref(rest) {
      forall k | 0 <= k < |a| ensures "href" in FirstAnchor(a[k]).value.attrs {
        if k > 0 {
          assert a[k] == rest[k - 1];
        }
      }
    }
  }

  /** One url per anchored row. */
  lemma {:induction false} RowUrlsCount(rows: seq<Node>)
    requires RowUrls(rows).Ok?
    ensures |RowUrls(rows).value| == |Anchored(rows)|
    decreases |rows|
  {
    if rows != [] {
      RowUrlsCount(rows[1..]);
    }
  }

  /** The urls are, in order, one per anchored row, built from its first
      anchor. */
  lemma {:induction false} RowUrlsAt(rows: seq<Node>, k: nat)
    requires RowUrls(rows).Ok? && k < |Anchored(rows)|
    ensures |RowUrls(rows).value| == |Anchored(rows)|
    ensures Ok(RowUrls(rows).value[k]) == RowUrl(FirstAnchor(Anchored(rows)[k]).value)
    decreases |rows|
  {
    RowUrlsCount(rows);
    var rest := Anchored(rows[1..]);
    if FirstAnchor(rows[0]).Some? {
      var x := FirstAnchor(rows[0]).value;
      var v := RowUrls(rows[1..]).value;
      assert Anchored(rows) == [rows[0]] + rest;
      assert RowUrls(rows).value == [RowUrl(x).value] + v;
      if k > 0 {
        RowUrlsAt(rows[1..], k - 1);
        assert Anchored(rows)[k] == rest[k - 1];
      }
    } else {
      RowUrlsAt(rows[1..], k);
      assert Anchored(rows) == rest;
    }
  }

  /** `save`: one url per line. */
  function Save(urls: seq<string>): (r: string)
    ensures Count(r, '\n') >= |urls|
  {
    Lines(urls)
  }

  /** A saved list reads back as the urls of the page, provided no `href`
      holds a line break (`\n` or `\r`). */
  lemma {:induction false} SavedListReadsBack(soup: Node, urls: seq<string>)
    requires ExtractUrls(soup) == Ok(urls)
    requires forall k :: 0 <= k < |urls| ==> '\n' !in urls[k] && '\r' !in urls[k]
    ensures FromTxtToList(Save(urls)) == urls
  {
    forall k | 0 <= k < |urls| ensures IsEntry(urls[k]) {
      assert ExperiencesBase <= urls[k];
    }
    FromTxtToListLines(urls);
  }
}

=== FILE: locations.dfy ===
/** Identifiers, URLs and file paths: the id an experience URL carries,
    where a record is saved, and the id the statistics step reads back
    from a saved file's path. */
module Locations {
  import opened Wrappers
  import opened Strings

  const UrlPrefix := "https://" + "www.erowid.org" + "/experiences/" + "exp.php"
  const BaseUrl := UrlPrefix + "?ID="

  /** The text before the first `c`, or all of `s`. */
  function BeforeFirst(s: string, c: char): (r: string)
    ensures r <= s && c !in r
    decreases |s|
  {
    if s == [] || s[0] == c then [] else [s[0]] + BeforeFirst(s[1..], c)
  }

  /** The text after the first `c`, if there is one. */
  function AfterFirst(s: string, c: char): (r: Option<string>)
    ensures r.Some? ==> |r.value| < |s| && r.value == s[|s| - |r.value|..]
    decreases |s|
  {
    if s == [] then None
    else if s[0] == c then Some(s[1..])
    else AfterFirst(s[1..], c)
  }

  // ---------------------------------------------------------------- urlsplit

  /** The characters `urlsplit` deletes anywhere in a url. */
  predicate Unsafe(c: char) {
    c == '\t' || c == '\r' || c == '\n'
  }

  /** The url without its leading C0 controls and spaces. */
  function LeftStripped(url: string): (r: string)
    ensures forall c :: c in r ==> c in url
    decreases |url|
  {
    if url != [] && url[0] <= ' ' then LeftStripped(url[1..]) else url
  }

  /** The text with every tab and line break deleted. */
  function Deleted(s: string): (r: string)
    ensures forall c :: c in r ==> c in s && !Unsafe(c)
    decreases |s|
  {
    if s == [] then [] else (if Unsafe(s[0]) then [] else [s[0]]) + Deleted(s[1..])
  }

  /** What `urlsplit` parses: the url left-stripped of C0 controls and
      spaces, then without tabs and line breaks. */
  function Sanitised(url: string): (r: string)
    ensures forall c :: c in r ==> c in url && !Unsafe(c)
  {
    Deleted(LeftStripped(url))
  }

  predicate SchemeChar(c: char) {
    'a' <= c <= 'z' || 'A' <= c <= 'Z' || '0' <= c <= '9' || c == '+' || c == '-' || c == '.'
  }

  /** What `urlsplit` reads after the scheme: the text after the first `:`
      when a letter and then only scheme characters come before it, and
      otherwise the whole url. */
  function AfterScheme(url: string): (r: string)
    ensures forall c :: c in r ==> c in url
  {
    var head := BeforeFirst(url, ':');
    if && |head| < |url| && head != [] && ('a' <= head[0] <= 'z' || 'A' <= head[0] <= 'Z')
       && forall k :: 0 <= k < |head| ==> SchemeChar(head[k])
    then
      assert forall c :: c in url[|head| + 1..] ==> c in url;
      url[|head| + 1..]
    else url
  }

  /** The text before the first `/`, `?` or `#`. */
  function NetlocPart(s: string): (r: string)
    ensures r <= s
    decreases |s|
  {
    if s == [] || s[0] == '/' || s[0] == '?' || s[0] == '#' then [] else [s[0]] + NetlocPart(s[1..])
  }

  /** `urlsplit(url).netloc` when the url has one: what a `//` right after
      the scheme opens, up to the first `/`, `?` or `#`. */
  function Netloc(url: string): (r: Option<string>)
    ensures r.Some? ==> forall c :: c in r.value ==> c in url
  {
    var rest := AfterScheme(Sanitised(url));
    if |rest| >= 2 && rest[..2] == "//" then
      var n := NetlocPart(rest[2..]);
      assert forall c :: c in n ==> c in rest[2..];
      Some(n)
    else None
  }

  /** `urlsplit`'s "Invalid IPv6 URL": a network location with one square
      bracket but not the other. */
  predicate InvalidIPv6(url: string) {
    var n := Netloc(url);
    n.Some? && (('[' in n.value) != (']' in n.value))
  }

  /** `urlparse(url).query`: the fragment after `#` is cut off first; the
      query is what follows the first `?`, or '' without one. The scheme
      and network location hold neither, so they need not be split off
      first. */
  function Query(url: string): (q: string)
    ensures '#' !in q
    ensures forall c :: c in q ==> c in url && !Unsafe(c)
  {
    var kept := BeforeFirst(Sanitised(url), '#');
    match AfterFirst(kept, '?')
    case None => ""
    case Some(q) =>
      assert forall c :: c in q ==> c in kept;
      q
  }

  /** `urlparse(url).query.split('=')[1]`: ValueError when the network
      location has a lone bracket, IndexError when the query has no `=`. */
  function ExpId(url: string): (r: Result<string>)
    ensures r == Fail(ValueError) <==> InvalidIPv6(url)
    ensures r.Ok? <==> !InvalidIPv6(url) && '=' in Query(url)
    ensures r.Fail? ==> r.error in {IndexError, ValueError}
    ensures r.Ok? ==> '=' !in r.value && '#' !in r.value && forall c :: c in r.value ==> c in url && !Unsafe(c)
  {
    if InvalidIPv6(url) then Fail(ValueError)
    else
      var parts := Split(Query(url), '=');
      CountPositive(Query(url), '=');
      if |parts| < 2 then Fail(IndexError)
      else
        assert Join(parts, "=") == Query(url) by { JoinSplit(Query(url), '='); }
        JoinParts(parts, "=", 1);
        Ok(parts[1])
  }

  /** Every piece of a join but the first lies inside it. */
  lemma {:induction false} JoinParts(pieces: seq<string>, sep: string, k: nat)
    requires 1 <= k < |pieces|
    ensures forall c :: c in pieces[k] ==> c in Join(pieces, sep)
    decreases k
  {
    var rest := Join(pieces[1..], sep);
    assert Join(pieces, sep) == pieces[0] + sep + rest;
    if k == 1 {
      if |pieces[1..]| == 1 {
        assert rest == pieces[1];
      } else {
        assert rest == pieces[1] + sep + Join(pieces[2..], sep);
      }
    } else {
      JoinParts(pieces[1..], sep, k - 1);
    }
  }

  lemma {:induction false} BeforeFirstAbsent(s: string, c: char)
    requires c !in s
    ensures BeforeFirst(s, c) == s
    decreases |s|
  {
    if s != [] {
      BeforeFirstAbsent(s[1..], c);
      assert s == [s[0]] + s[1..];
    }
  }

  lemma {:induction false} AfterFirstOf(a: string, c: char, b: string)
    requires c !in a
    ensures AfterFirst(a + [c] + b, c) == Some(b)
    decreases |a|
  {
    if a == [] {
      assert a + [c] + b == [c] + b;
    } else {
      assert (a + [c] + b)[1..] == a[1..] + [c] + b;
      AfterFirstOf(a[1..], c, b);
    }
  }

  /** Neither a tab, a line break nor a square bracket. */
  predicate UrlClean(s: string) {
    forall c :: c in s ==> !Unsafe(c) && c != '[' && c != ']'
  }

  lemma {:induction false} DeletedPlain(s: string)
    requires forall c :: c in s ==> !Unsafe(c)
    ensures Deleted(s) == s
    decreases |s|
  {
    if s != [] {
      assert forall c :: c in s[1..] ==> c in s;
      DeletedPlain(s[1..]);
      assert s == [s[0]] + s[1..];
    }
  }

  /** A url without a bracket has no lone one. */
  lemma {:induction false} NoLoneBracket(url: string)
    requires '[' !in url && ']' !in url
    ensures !InvalidIPv6(url)
  {
    var n := Netloc(url);
    if n.Some? {
      assert '[' !in n.value && ']' !in n.value;
    }
  }

  /** The query of a url whose part before the first `?` is clean and
      starts with a visible character is the rest, without its tabs and
      line breaks. */
  lemma {:induction false} QueryOf(prefix: string, rest: string)
    requires '?' !in prefix && '#' !in prefix + rest
    requires (prefix == [] || prefix[0] > ' ') && UrlClean(prefix)
    ensures Query(prefix + "?" + rest) == Deleted(rest)
  {
    var url := prefix + "?" + rest;
    assert url[0] > ' ';
    assert LeftStripped(url) == url;
    DeletedConcat(prefix + "?", rest);
    var d := Deleted(rest);
    assert Sanitised(url) == prefix + ['?'] + d;
    BeforeFirstAbsent(prefix + ['?'] + d, '#');
    AfterFirstOf(prefix, '?', d);
  }

  /** A URL built as `prefix?key=id` carries `id`, without its tabs and
      line breaks. */
  lemma {:induction false} ExpIdOf(prefix: string, key: string, id: string)
    requires '?' !in prefix && '=' !in key && '=' !in id
    requires '#' !in prefix && '#' !in key && '#' !in id
    requires (prefix == [] || prefix[0] > ' ') && UrlClean(prefix) && UrlClean(key) && '[' !in id && ']' !in id
    ensures ExpId(prefix + "?" + key + "=" + id) == Ok(Deleted(id))
  {
    var rest := key + "=" + id;
    var url := prefix + "?" + rest;
    assert url == prefix + "?" + key + "=" + id;
    assert '[' !in url && ']' !in url by {
      assert forall c :: c in url ==> c in prefix || c == '?' || c in key || c == '=' || c in id;
    }
    NoLoneBracket(url);
    QueryOf(prefix, rest);
    DeletedConcat(key + "=", id);
    var d := Deleted(id);
    var q := Query(url);
    assert q == key + ['='] + d;
    SplitConcat(key, d, '=');
    SplitAbsent(key, '=');
    SplitAbsent(d, '=');
    assert Split(q, '=') == [key] + [d];
    ExpIdSecond(url);
  }

  /** Without a lone bracket, the id is the second piece of the query. */
  lemma ExpIdSecond(url: string)
    requires !InvalidIPv6(url) && |Split(Query(url), '=')| >= 2
    ensures ExpId(url) == Ok(Split(Query(url), '=')[1])
  {
  }

  /** A host with an opening bracket and no closing one is refused before
      the query is read, whatever the path and query. */
  lemma {:induction false} LoneBracketRefused(host: string, path: string)
    requires forall c :: c in host ==> !Unsafe(c) && c != '/' && c != '?' && c != '#'
    requires '[' in host && ']' !in host
    requires path != [] && path[0] == '/'
    ensures ExpId("https://" + host + path) == Fail(ValueError)
  {
    HttpsNetloc(host, path);
  }

  /** The network location of an `https://` url is the host before the
      path. */
  lemma {:induction false} HttpsNetloc(host: string, path: string)
    requires forall c :: c in host ==> !Unsafe(c) && c != '/' && c != '?' && c != '#'
    requires path != [] && path[0] == '/'
    ensures Netloc("https://" + host + path) == Some(host)
  {
    var d := Deleted(path);
    SanitisedHttps(host, path);
    assert Sanitised("https://" + host + path) == "https://" + (host + d);
    AfterHttps(host + d);
    NetlocPartOf(host, d);
    var rest := AfterScheme("https://" + (host + d));
    assert NetlocPart(rest[2..]) == host;
  }

  /** The network location ends at the first delimiter. */
  lemma {:induction false} NetlocPartOf(host: string, rest: string)
    requires forall c :: c in host ==> c != '/' && c != '?' && c != '#'
    requires rest != [] && rest[0] == '/'
    ensures NetlocPart(host + rest) == host
    decreases |host|
  {
    if host == [] {
      assert host + rest == rest;
    } else {
      assert (host + rest)[0] == host[0] && host[0] in host;
      assert (host + rest)[1..] == host[1..] + rest;
      assert forall c :: c in host[1..] ==> c in host;
      NetlocPartOf(host[1..], rest);
      assert host == [host[0]] + host[1..];
    }
  }

  /** An `https://` url with a clean head is parsed with its tail's tabs
      and line breaks deleted. */
  lemma {:induction false} SanitisedHttps(head: string, rest: string)
    requires forall c :: c in head ==> !Unsafe(c)
    ensures Sanitised("https://" + head + rest) == "https://" + head + Deleted(rest)
    ensures rest != [] && rest[0] == '/' ==> Deleted(rest) != [] && Deleted(rest)[0] == '/'
  {
    var url := "https://" + head + rest;
    assert url[0] == 'h';
    assert url == ("https://" + head) + rest;
    DeletedConcat("https://" + head, rest);
  }

  /** The scheme `https` is split off at its colon. */
  lemma {:induction false} AfterHttps(t: string)
    ensures var r := AfterScheme("https://" + t); |r| >= 2 && r[..2] == "//" && r[2..] == t
  {
    assert "https://" + t == "https" + [':'] + ("//" + t);
    BeforeFirstOf("https", ':', "//" + t);
  }

  /** Deletion leaves a clean head alone. */
  lemma {:induction false} DeletedConcat(a: string, b: string)
    requires forall c :: c in a ==> !Unsafe(c)
    ensures Deleted(a + b) == a + Deleted(b)
    decreases |a|
  {
    if a == [] {
      assert a + b == b;
    } else {
      var ab, t := a + b, a[1..];
      assert ab[0] == a[0] && ab[1..] == t + b;
      assert !Unsafe(a[0]) by { assert a[0] in a; }
      assert forall c :: c in t ==> c in a;
      DeletedConcat(t, b);
      calc {
        Deleted(ab);
        [a[0]] + Deleted(t + b);
        [a[0]] + (t + Deleted(b));
        ([a[0]] + t) + Deleted(b);
        { assert a == [a[0]] + t; }
        a + Deleted(b);
      }
    }
  }

  lemma {:induction false} BeforeFirstOf(a: string, c: char, b: string)
    requires c !in a
    ensures BeforeFirst(a + [c] + b, c) == a
    decreases |a|
  {
    if a == [] {
      assert a + [c] + b == [c] + b;
    } else {
      assert (a + [c] + b)[1..] == a[1..] + [c] + b;
      BeforeFirstOf(a[1..], c, b);
      assert a == [a[0]] + a[1..];
    }
  }

  /** The prefix holds only letters, `:`, `/` and `.`. */
  lemma {:induction false} UrlPrefixClean()
    ensures '?' !in UrlPrefix && '#' !in UrlPrefix && '=' !in UrlPrefix
    ensures UrlClean(UrlPrefix) && UrlPrefix[0] == 'h'
  {
    PlainConcat("https://", "www.erowid.org");
    PlainConcat("https://" + "www.erowid.org", "/experiences/");
    PlainConcat("https://" + "www.erowid.org" + "/experiences/", "exp.php");
  }

  predicate Plain(s: string) {
    forall k :: 0 <= k < |s| ==> UrlChar(s[k])
  }

  lemma {:induction false} PlainConcat(a: string, b: string)
    requires Plain(a) && Plain(b)
    ensures Plain(a + b)
  {
    assert forall k :: 0 <= k < |a + b| ==> (a + b)[k] == if k < |a| then a[k] else b[k - |a|];
  }

  predicate UrlChar(c: char) {
    'a' <= c <= 'z' || c == ':' || c == '/' || c == '.'
  }

  /** The generated URL of experience `n` carries `str(n)`. */
  lemma {:induction false} ExpIdOfNumber(n: nat)
    ensures ExpId(BaseUrl + NatToString(n)) == Ok(NatToString(n))
  {
    var id := NatToString(n);
    assert forall c :: c in id ==> IsDigit(c);
    UrlPrefixClean();
    ExpIdAfterKey(UrlPrefix, id);
  }

  /** A clean prefix, `?ID=` and a run of digits carry those digits. */
  lemma {:induction false} ExpIdAfterKey(prefix: string, id: string)
    requires '?' !in prefix && '#' !in prefix && prefix != [] && prefix[0] > ' ' && UrlClean(prefix)
    requires forall c :: c in id ==> IsDigit(c)
    ensures ExpId(prefix + "?ID=" + id) == Ok(id)
  {
    var key := "ID";
    assert forall c :: c in key ==> c == 'I' || c == 'D';
    assert prefix + "?ID=" + id == prefix + "?" + key + "=" + id;
    ExpIdOf(prefix, key, id);
    DeletedPlain(id);
  }

  // ---------------------------------------------------------------- paths

  /** `os.path.join(folder, name)` for two parts. */
  function PathJoin(folder: string, name: string): (r: string)
    ensures name <= r || r == folder + name || r == folder + "/" + name
  {
    if name != [] && name[0] == '/' then name
    else if folder == [] || folder[|folder| - 1] == '/' then folder + name
    else folder + "/" + name
  }

  /** `os.path.join(save_folder, f"{id}.json")`. */
  function JsonPath(folder: string, id: string): string {
    PathJoin(folder, id + ".json")
  }

  /** The thesis script's `OUT_FOLDER + exp_id + ".json"`. */
  const OutFolder := "experiences_db/"
  const AlreadySaved := "Experience already saved"

  /** `return_save_path`: the id as above, and a bare `Exception` when the
      file already exists. */
  function ThesisSavePath(url: string, existing: set<string>): (r: Result<string>)
    ensures r.Ok? ==> r.value !in existing
    ensures ExpId(url).Fail? ==> r == Fail(ExpId(url).error)
    ensures ExpId(url).Ok? ==> (r.Fail? <==> OutFolder + ExpId(url).value + ".json" in existing)
    ensures r.Fail? ==> r.error in {IndexError, ValueError, GenericException(Some(AlreadySaved))}
  {
    var id :- ExpId(url);
    var path := OutFolder + id + ".json";
    if path in existing then Fail(GenericException(Some(AlreadySaved))) else Ok(path)
  }

  /** The thesis path is the one the older class version joins from its
      folder. */
  lemma {:induction false} ThesisPathIsJoined(id: string)
    requires id == [] || id[0] != '/'
    ensures JsonPath("experiences_db", id) == OutFolder + id + ".json"
  {
    assert (id + ".json")[0] != '/';
  }

  // ---------------------------------------------------------------- id from path

  /** The id `/(\d+)\.json` matches right after position `j`: the maximal
      digit run there, when it is not empty and ".json" follows it. A
      shorter run cannot match, since a digit then stands where the dot
      must be. */
  function IdAt(p: string, j: nat): (r: Option<string>)
    requires j <= |p|
    ensures r.Some? ==> r.value != [] && AllDigits(r.value)
  {
    var d := DigitRun(p[j..]);
    if d != [] && ".json" <= p[j + |d|..] then Some(d) else None
  }

  /** `re.findall(r'/(\d+)\.json', p)[0]` searched from position `i`: the
      first `/` from which the pattern matches. */
  function PathIdFrom(p: string, i: nat): (r: Option<string>)
    requires i <= |p|
    ensures r.Some? ==> r.value != [] && AllDigits(r.value)
    decreases |p| - i
  {
    if i == |p| then None
    else if p[i] == '/' && IdAt(p, i + 1).Some? then IdAt(p, i + 1)
    else PathIdFrom(p, i + 1)
  }

  function PathId(p: string): (r: Option<string>)
    ensures r.Some? ==> r.value != [] && AllDigits(r.value)
  {
    PathIdFrom(p, 0)
  }

  /** ".json" does not occur before position `h`. */
  predicate JsonFreeBefore(p: string, h: nat)
    requires h <= |p|
  {
    !Contains(p[..h], ".json")
  }

  /** No match starts inside a head without ".json" that a `/` ends. */
  lemma {:induction false} NoIdInHead(p: string, h: nat, i: nat)
    requires i <= h < |p| && p[h] == '/'
    requires JsonFreeBefore(p, h)
    ensures PathIdFrom(p, i) == PathIdFrom(p, h)
    decreases h - i
  {
    if i < h {
      NoIdInHead(p, h, i + 1);
      NoIdStep(p, h, i);
    }
  }

  /** One position of the head is skipped. */
  lemma {:induction false} NoIdStep(p: string, h: nat, i: nat)
    requires i < h < |p| && p[h] == '/'
    requires JsonFreeBefore(p, h)
    ensures PathIdFrom(p, i) == PathIdFrom(p, i + 1)
  {
    if p[i] == '/' {
      NoIdAtHead(p, h, i + 1);
    }
    PathIdFromSkip(p, i);
  }

  /** A position that is not a `/` followed by an id is skipped. */
  lemma {:induction false} PathIdFromSkip(p: string, i: nat)
    requires i < |p| && (p[i] != '/' || IdAt(p, i + 1).None?)
    ensures PathIdFrom(p, i) == PathIdFrom(p, i + 1)
  {
  }

  /** A digit run in the head ends at or before the `/`, so ".json"
      cannot follow it: either it would lie in the head or cover the `/`. */
  lemma {:induction false} NoIdAtHead(p: string, h: nat, j: nat)
    requires j <= h < |p| && p[h] == '/'
    requires JsonFreeBefore(p, h)
    ensures IdAt(p, j).None?
  {
    var d := DigitRun(p[j..]);
    assert p[j..][h - j] == '/';
    DigitRunStops(p[j..], h - j);
    var q := j + |d|;
    if q + 5 <= h {
      NotContainsAt(p[..h], ".json", q);
      assert p[..h][q..q + 5] == p[q..][..5];
    } else {
      assert p[q..][h - q] == '/';
      assert ".json"[h - q] != '/';
    }
  }

  /** A digit run ends at the first non-digit. */
  lemma {:induction false} DigitRunStops(s: string, m: nat)
    requires m < |s| && !IsDigit(s[m])
    ensures |DigitRun(s)| <= m
    decreases m
  {
    if m > 0 && IsDigit(s[0]) {
      assert s[1..][m - 1] == s[m];
      DigitRunStops(s[1..], m - 1);
    }
  }

  lemma {:induction false} IdAtTail(p: string, j: nat, d: string)
    requires j <= |p| && p[j..] == d + ".json" && d != [] && AllDigits(d)
    ensures IdAt(p, j) == Some(d)
  {
    DigitRunOf(d, ".json");
    assert p[j + |d|..] == ".json";
  }

  /** A path that ends in `/<digits>.json` after a head without ".json"
      yields those digits. */
  lemma {:induction false} PathIdOfTail(p: string, h: nat, d: string)
    requires h < |p| && p[h] == '/' && p[h + 1..] == d + ".json"
    requires d != [] && AllDigits(d)
    requires !Contains(p[..h], ".json")
    ensures PathId(p) == Some(d)
  {
    NoIdInHead(p, h, 0);
    IdAtTail(p, h + 1, d);
  }

  /** Round trip with the save path: the file saved for id `str(n)` in a
      non-empty folder without ".json" in its name, such as
      `../data/experiences_db`, is read back as `str(n)`. */
  lemma {:induction false} PathIdOfJsonPath(folder: string, n: nat)
    requires folder != [] && !Contains(folder, ".json")
    ensures PathId(JsonPath(folder, NatToString(n))) == Some(NatToString(n))
  {
    var d := NatToString(n);
    var p := JsonPath(folder, d);
    assert (d + ".json")[0] == d[0];
    if folder[|folder| - 1] == '/' {
      JoinedAfterSlash(folder[..|folder| - 1], d + ".json");
      assert folder[..|folder| - 1] + "/" == folder;
      NotContainsPrefix(folder, |folder| - 1, ".json");
      assert p[..|folder| - 1] == folder[..|folder| - 1];
      PathIdOfTail(p, |folder| - 1, d);
    } else {
      JoinedAfterSlash(folder, d + ".json");
      assert p[..|folder|] == folder;
      PathIdOfTail(p, |folder|, d);
    }
  }

  lemma {:induction false} JoinedAfterSlash(head: string, name: string)
    ensures var p := head + "/" + name;
      p[|head|] == '/' && p[|head| + 1..] == name && forall k :: 0 <= k < |head| ==> p[k] == head[k]
  {
  }
}

=== FILE: page.dfy ===
/** An already-parsed HTML page, as the scraper sees it through
    BeautifulSoup: a tree of comments, text nodes and elements. Parsing
    itself is not modelled; the queries the scraper makes are. */
module Page {
  import opened Wrappers
  import opened Strings

  /** A node of the parsed tree. `Comment` and `Text` are both
      `NavigableString`s in BeautifulSoup; `Element` is a `Tag`. */
  datatype Node =
    | Comment(content: string)
    | Text(content: string)
    | Element(tag: string, classes: set<string>, attrs: map<string, string>, children: seq<Node>)

  /** The two queries the scraper makes: `find_all(class_=c)` and `find_all(t)`. */
  datatype Selector = ByClass(cls: string) | ByTag(name: string)

  predicate Selects(sel: Selector, n: Node) {
    n.Element? &&
    match sel
    case ByClass(c) => c in n.classes
    case ByTag(t) => n.tag == t
  }

  /** The direct children (`.contents`); strings have none. */
  function Children(n: Node): seq<Node> {
    if n.Element? then n.children else []
  }

  /** `n.find_all(sel)`: every selected descendant of `n`, `n` itself
      excluded, in document (pre-)order. */
  function FindAll(n: Node, sel: Selector): (r: seq<Node>)
    ensures forall k :: 0 <= k < |r| ==> Selects(sel, r[k])
    decreases n, 1
  {
    if n.Element? then FindAllIn(n.children, sel) else []
  }

  function FindAllIn(ns: seq<Node>, sel: Selector): (r: seq<Node>)
    ensures forall k :: 0 <= k < |r| ==> Selects(sel, r[k])
    decreases ns, 0
  {
    if ns == [] then []
    else (if Selects(sel, ns[0]) then [ns[0]] else []) + FindAll(ns[0], sel) + FindAllIn(ns[1..], sel)
  }

  /** `n.find(sel)`: the first selected descendant, if any. */
  function Find(n: Node, sel: Selector): (r: Option<Node>)
    ensures r.Some? <==> FindAll(n, sel) != []
    ensures r.Some? ==> r.value == FindAll(n, sel)[0] && Selects(sel, r.value)
  {
    var all := FindAll(n, sel);
    if all == [] then None else Some(all[0])
  }

  /** `.text`: the concatenated text of every text node below `n`; comments
      contribute nothing. */
  function TextOf(n: Node): string
    decreases n, 1
  {
    match n
    case Comment(_) => []
    case Text(s) => s
    case Element(_, _, _, children) => TextOfAll(children)
  }

  function TextOfAll(ns: seq<Node>): string
    decreases ns, 0
  {
    if ns == [] then [] else TextOf(ns[0]) + TextOfAll(ns[1..])
  }

  /** `str(node)` for a string node: its content. */
  predicate IsString(n: Node) {
    n.Comment? || n.Text?
  }
}

=== FILE: processor.dfy ===
/** The statistics over the saved records (src/processor.py): loading a
    record file, the per-tag appearance counts and usage shares, the
    co-appearance counts, and the final percentages and means. */
module Processor {
  import opened Wrappers
  import opened Strings
  import opened Dicts
  import opened TagParse
  import opened Experience
  import opened Locations

  // ---------------------------------------------------------------- get_exp

  /** `utils.Experience` as `get_exp` fills it: the id from the file name
      and the loaded record. */
  datatype Loaded = Loaded(id: string, record: Record)

  const DuplicateMark := "(1)"

  /** `get_exp(path)`, with `file` the outcome of `json.load` on it (None
      when the file is not valid JSON). A duplicate's path is refused with
      a bare Exception before the file is read; the id comes from
      `/(\d+)\.json` in the path (IndexError without a match); then the
      record's keys are read. */
  function GetExp(path: string, file: Option<Dict<string, Value>>): (r: Result<Loaded>)
    ensures Contains(path, DuplicateMark) ==> r == Fail(GenericException(None))
    ensures !Contains(path, DuplicateMark) && file.None? ==> r == Fail(JSONDecodeError)
    ensures !Contains(path, DuplicateMark) && file.Some? && PathId(path).None? ==> r == Fail(IndexError)
    ensures r.Ok? ==> PathId(path) == Some(r.value.id) && AllDigits(r.value.id) && FromDict(file.value) == Ok(r.value.record)
  {
    if Contains(path, DuplicateMark) then Fail(GenericException(None))
    else if file.None? then Fail(JSONDecodeError)
    else
      match PathId(path)
      case None => Fail(IndexError)
      case Some(id) =>
        var record :- FromDict(file.value);
        Ok(Loaded(id, record))
  }

  /** What the scraper saves for id `str(n)` loads back with that id and
      the same record, from any folder whose name holds neither ".json"
      nor the duplicate mark, such as `../data/experiences_db`. */
  lemma {:induction false} GetExpOfSaved(folder: string, n: nat, r: Record)
    requires folder != [] && !Contains(folder, ".json") && !Contains(folder, DuplicateMark)
    ensures GetExp(JsonPath(folder, NatToString(n)), Some(ToDict(r))) == Ok(Loaded(NatToString(n), r))
  {
    var d := NatToString(n);
    var path := JsonPath(folder, d);
    assert path[..|folder|] == folder;
    forall k | |folder| <= k < |path| ensures path[k] != ')' {
      var name := d + ".json";
      assert path[k] == '/' || path[k] in name;
      assert ')' !in name;
    }
    NotContainsPastHead(path, |folder|, DuplicateMark);
    PathIdOfJsonPath(folder, n);
    FromDictToDict(r);
  }

  /** The folder `main` processes. */
  const MainFolder := "../data/experiences_db"

  /** Every file the scraper saves in the folder `main` processes is
      loaded back, under its id, as the record saved. */
  lemma {:induction false} MainFolderLoads(n: nat, r: Record)
    ensures GetExp(JsonPath(MainFolder, NatToString(n)), Some(ToDict(r))) == Ok(Loaded(NatToString(n), r))
  {
    var folder := MainFolder;
    assert 'j' !in folder && ')' !in folder;
    FolderWithoutMarks(folder);
    GetExpOfSaved(folder, n, r);
  }

  /** A folder name without `j` and `)` holds neither ".json" nor the
      duplicate mark. */
  lemma {:induction false} FolderWithoutMarks(folder: string)
    requires 'j' !in folder && ')' !in folder
    ensures !Contains(folder, ".json") && !Contains(folder, DuplicateMark)
  {
    NotContainsMissing(folder, ".json", 'j');
    NotContainsMissing(folder, DuplicateMark, ')');
  }

  // ---------------------------------------------------------------- tags

  /** `Tag`: its name, its id, how often it appeared, its share of the tags
      of each experience it appeared in, how often each other tag appeared
      alongside it, and the figures `calculate_stats` fills in. */
  datatype Tag = Tag(name: string, tagId: string, appearances: nat, usages: seq<real>, co: map<string, nat>,
                     percExpAppearances: Option<real>, averageImpact: Option<real>)

  type Tags = map<string, Tag>

  /** Ids `'17'` and `'2-9'` are the same tag. */
  function Fold(id: string): (r: string)
    ensures r != "2-9"
    ensures r == "17" <==> id == "17" || id == "2-9"
    ensures r != "17" ==> r == id
  {
    if id == "17" || id == "2-9" then "17" else id
  }

  /** The folded ids of an experience's tags, in order. */
  function Found(ts: seq<TagRef>): (r: seq<string>)
    ensures |r| == |ts|
    decreases |ts|
  {
    if ts == [] then [] else [Fold(ts[0].id)] + Found(ts[1..])
  }

  /** How often `x` occurs in `xs`. */
  function Occ(xs: seq<string>, x: string): nat
    decreases |xs|
  {
    if xs == [] then 0 else (if xs[0] == x then 1 else 0) + Occ(xs[1..], x)
  }

  /** `co_appearances.get(c)`, with 0 for none. */
  function Co(co: map<string, nat>, c: string): nat {
    if c in co then co[c] else 0
  }

  /** The appearance count of an id, 0 for an unknown one. */
  function Apps(tags: Tags, id: string): nat {
    if id in tags then tags[id].appearances else 0
  }

  /** One tag of an experience with `share` the inverse of its tag count:
      a known id appears once more with one more share, an unknown one
      starts at one appearance and that share. */
  function AddTag(tags: Tags, t: TagRef, share: real): Tags {
    var id := Fold(t.id);
    if id in tags then
      tags[id := tags[id].(appearances := tags[id].appearances + 1, usages := tags[id].usages + [share])]
    else
      tags[id := Tag(t.name, id, 1, [share], map[], None, None)]
  }

  function AddTags(tags: Tags, ts: seq<TagRef>, share: real): Tags
    decreases |ts|
  {
    if ts == [] then tags else AddTags(AddTag(tags, ts[0], share), ts[1..], share)
  }

  /** The inner loop: every id of `found` counted once more in `co`. */
  function CoRow(co: map<string, nat>, found: seq<string>): map<string, nat>
    decreases |found|
  {
    if found == [] then co else CoRow(co[found[0] := Co(co, found[0]) + 1], found[1..])
  }

  /** The outer loop: the row of every id of `rows`. */
  function CoAll(tags: Tags, rows: seq<string>, found: seq<string>): Tags
    requires forall k :: 0 <= k < |rows| ==> rows[k] in tags
    decreases |rows|
  {
    if rows == [] then tags
    else
      var t := tags[rows[0]];
      CoAll(tags[rows[0] := t.(co := CoRow(t.co, found))], rows[1..], found)
  }

  /** One loaded experience: its tags counted, then every ordered pair of
      its (folded) ids counted as a co-appearance. With no tags nothing
      happens and nothing is divided. */
  function AddExperience(tags: Tags, ts: seq<TagRef>): (r: Tags)
    ensures r.Keys == tags.Keys + set k | 0 <= k < |ts| :: Found(ts)[k]
    ensures ts == [] ==> r == tags
  {
    if ts == [] then tags
    else
      var mid := AddTags(tags, ts, 1.0 / (|ts| as real));
      forall k | 0 <= k < |ts| ensures Found(ts)[k] in mid {
        AddTagsKeys(tags, ts, 1.0 / (|ts| as real), Found(ts)[k]);
        OccFound(ts, k);
      }
      var r := CoAll(mid, Found(ts), Found(ts));
      forall id ensures id in r <==> id in mid {
        CoAllKeys(mid, Found(ts), Found(ts), id);
      }
      forall id ensures id in mid <==> id in tags || id in Found(ts) {
        AddTagsKeys(tags, ts, 1.0 / (|ts| as real), id);
      }
      r
  }

  // ---------------------------------------------------------------- counting lemmas

  lemma {:induction false} OccFound(ts: seq<TagRef>, k: nat)
    requires k < |ts|
    ensures Found(ts)[k] == Fold(ts[k].id) && Occ(Found(ts), Found(ts)[k]) > 0
    decreases k
  {
    if k > 0 {
      OccFound(ts[1..], k - 1);
    }
  }

  lemma {:induction false} OccIn(xs: seq<string>, x: string)
    ensures Occ(xs, x) > 0 <==> x in xs
    decreases |xs|
  {
    if xs != [] {
      OccIn(xs[1..], x);
    }
  }

  /** The ids after counting an experience's tags: the old ones and the
      folded new ones. */
  lemma {:induction false} AddTagsKeys(tags: Tags, ts: seq<TagRef>, share: real, id: string)
    ensures id in AddTags(tags, ts, share) <==> id in tags || id in Found(ts)
    decreases |ts|
  {
    if ts != [] {
      AddTagsKeys(AddTag(tags, ts[0], share), ts[1..], share, id);
    }
  }

  /** Each occurrence of an id counts as one appearance. */
  lemma {:induction false} AddTagsApps(tags: Tags, ts: seq<TagRef>, share: real, id: string)
    ensures Apps(AddTags(tags, ts, share), id) == Apps(tags, id) + Occ(Found(ts), id)
    decreases |ts|
  {
    if ts != [] {
      AddTagsApps(AddTag(tags, ts[0], share), ts[1..], share, id);
    }
  }

  /** Counting tags leaves the co-appearance rows alone, and a new id
      starts with an empty one. */
  lemma {:induction false} AddTagsCo(tags: Tags, ts: seq<TagRef>, share: real, id: string)
    requires id in AddTags(tags, ts, share)
    ensures AddTags(tags, ts, share)[id].co == if id in tags then tags[id].co else map[]
    decreases |ts|
  {
    if ts != [] {
      AddTagsCo(AddTag(tags, ts[0], share), ts[1..], share, id);
    }
  }

  /** A tag is sound when it is filed under its own id and has one share,
      each in (0, 1], per appearance. */
  predicate Sound(id: string, t: Tag) {
    && t.tagId == id
    && |t.usages| == t.appearances >= 1
    && forall k :: 0 <= k < |t.usages| ==> 0.0 < t.usages[k] <= 1.0
  }

  lemma {:induction false} AddTagsSound(tags: Tags, ts: seq<TagRef>, share: real, id: string)
    requires 0.0 < share <= 1.0
    requires forall x | x in tags :: Sound(x, tags[x])
    ensures id in AddTags(tags, ts, share) ==> Sound(id, AddTags(tags, ts, share)[id])
    decreases |ts|
  {
    if ts != [] {
      var next := AddTag(tags, ts[0], share);
      forall x | x in next ensures Sound(x, next[x]) {
        if x == Fold(ts[0].id) && x in tags {
          var us := tags[x].usages + [share];
          assert forall k :: 0 <= k < |tags[x].usages| ==> us[k] == tags[x].usages[k];
        }
      }
      AddTagsSound(next, ts[1..], share, id);
    }
  }

  /** The inner loop counts each id once per occurrence. */
  lemma {:induction false} CoRowCount(co: map<string, nat>, found: seq<string>, c: string)
    ensures Co(CoRow(co, found), c) == Co(co, c) + Occ(found, c)
    ensures c in CoRow(co, found) <==> c in co || c in found
    decreases |found|
  {
    if found != [] {
      CoRowCount(co[found[0] := Co(co, found[0]) + 1], found[1..], c);
    }
  }

  lemma {:induction false} CoAllKeys(tags: Tags, rows: seq<string>, found: seq<string>, id: string)
    requires forall k :: 0 <= k < |rows| ==> rows[k] in tags
    ensures id in CoAll(tags, rows, found) <==> id in tags
    decreases |rows|
  {
    if rows != [] {
      var t := tags[rows[0]];
      CoAllKeys(tags[rows[0] := t.(co := CoRow(t.co, found))], rows[1..], found, id);
    }
  }

  /** The outer loop gives each id of `rows` its row once per occurrence:
      the pair `(a, b)` is counted once per occurrence of `a` times once
      per occurrence of `b`. Nothing but the rows changes. */
  lemma {:induction false} CoAllCount(tags: Tags, rows: seq<string>, found: seq<string>, a: string, b: string)
    requires forall k :: 0 <= k < |rows| ==> rows[k] in tags
    requires a in tags
    ensures a in CoAll(tags, rows, found)
    ensures Co(CoAll(tags, rows, found)[a].co, b) == Co(tags[a].co, b) + Occ(rows, a) * Occ(found, b)
    ensures CoAll(tags, rows, found)[a] == tags[a].(co := CoAll(tags, rows, found)[a].co)
    ensures b in CoAll(tags, rows, found)[a].co <==> b in tags[a].co || (a in rows && b in found)
    decreases |rows|
  {
    CoAllKeys(tags, rows, found, a);
    if rows != [] {
      var t := tags[rows[0]];
      var next := tags[rows[0] := t.(co := CoRow(t.co, found))];
      CoAllCount(next, rows[1..], found, a, b);
      OccIn(rows, a);
      OccIn(rows[1..], a);
      if rows[0] == a {
        CoRowCount(t.co, found, b);
        OccIn(found, b);
        var n: int, m: int := Occ(rows[1..], a), Occ(found, b);
        assert Occ(rows, a) == n + 1;
        assert (n + 1) * m == m + n * m;
      }
    }
  }

  // ---------------------------------------------------------------- one experience

  /** Each occurrence of an id in an experience is one more appearance:
      occurrences are counted, not experiences. */
  lemma {:induction false} AppearancesCount(tags: Tags, ts: seq<TagRef>, id: string)
    ensures Apps(AddExperience(tags, ts), id) == Apps(tags, id) + Occ(Found(ts), id)
  {
    if ts != [] {
      var share := 1.0 / (|ts| as real);
      var mid := AddTags(tags, ts, share);
      AddTagsApps(tags, ts, share, id);
      AddTagsKeys(tags, ts, share, id);
      if id in mid {
        CoAllFor(tags, ts, id, id);
      }
    }
  }

  /** The co-appearance count of `(a, b)` grows by the product of their
      occurrences in the experience. */
  lemma {:induction false} CoAppearancesCount(tags: Tags, ts: seq<TagRef>, a: string, b: string)
    requires a in AddExperience(tags, ts)
    ensures Co(AddExperience(tags, ts)[a].co, b)
         == (if a in tags then Co(tags[a].co, b) else 0) + Occ(Found(ts), a) * Occ(Found(ts), b)
  {
    if ts != [] {
      AddTagsKeys(tags, ts, 1.0 / (|ts| as real), a);
      CoAllFor(tags, ts, a, b);
    }
  }

  /** How `AddExperience` ends: the loop over the found ids run on the
      counted tags. */
  lemma {:induction false} CoAllFor(tags: Tags, ts: seq<TagRef>, a: string, b: string)
    requires ts != [] && a in AddTags(tags, ts, 1.0 / (|ts| as real))
    ensures var mid := AddTags(tags, ts, 1.0 / (|ts| as real));
      && a in AddExperience(tags, ts)
      && AddExperience(tags, ts)[a] == mid[a].(co := AddExperience(tags, ts)[a].co)
      && Co(AddExperience(tags, ts)[a].co, b)
         == (if a in tags then Co(tags[a].co, b) else 0) + Occ(Found(ts), a) * Occ(Found(ts), b)
      && (b in AddExperience(tags, ts)[a].co <==> b in mid[a].co || (a in Found(ts) && b in Found(ts)))
  {
    var share := 1.0 / (|ts| as real);
    var mid := AddTags(tags, ts, share);
    forall k | 0 <= k < |ts| ensures Found(ts)[k] in mid {
      AddTagsKeys(tags, ts, share, Found(ts)[k]);
      OccFound(ts, k);
      OccIn(Found(ts), Found(ts)[k]);
    }
    CoAllCount(mid, Found(ts), Found(ts), a, b);
    AddTagsCo(tags, ts, share, a);
  }

  /** A tag seen at most once per experience co-appears with itself as
      often as it appears. */
  lemma {:induction false} SelfCoAppearance(tags: Tags, ts: seq<TagRef>, a: string)
    requires a in AddExperience(tags, ts) && Occ(Found(ts), a) <= 1
    ensures Co(AddExperience(tags, ts)[a].co, a) - (if a in tags then Co(tags[a].co, a) else 0)
         == Apps(AddExperience(tags, ts), a) - Apps(tags, a)
  {
    CoAppearancesCount(tags, ts, a, a);
    AppearancesCount(tags, ts, a);
  }

  // ---------------------------------------------------------------- the invariant

  /** What `get_tags` keeps true of its table: every tag sound, no tag
      under `'2-9'`, co-appearances only with known tags and symmetric. */
  predicate Consistent(tags: Tags) {
    && (forall id | id in tags :: Sound(id, tags[id]))
    && "2-9" !in tags
    && (forall a, b | a in tags && b in tags[a].co :: b in tags)
    && (forall a, b | a in tags && b in tags[a].co :: tags[a].co[b] >= 1)
    && (forall a, b | a in tags && b in tags :: Co(tags[a].co, b) == Co(tags[b].co, a))
  }

  /** Counting an experience keeps the table consistent. */
  lemma {:induction false} AddExperienceConsistent(tags: Tags, ts: seq<TagRef>)
    requires Consistent(tags)
    ensures Consistent(AddExperience(tags, ts))
  {
    if ts != [] {
      var r := AddExperience(tags, ts);
      FoundNoAlias(ts);
      forall id | id in r ensures Sound(id, r[id]) {
        ExperienceSound(tags, ts, id);
      }
      forall a, b | a in r && b in r[a].co ensures b in r {
        ExperienceCoKnown(tags, ts, a, b);
      }
      forall a, b | a in r && b in r[a].co ensures r[a].co[b] >= 1 {
        ExperienceCoPositive(tags, ts, a, b);
      }
      forall a, b | a in r && b in r ensures Co(r[a].co, b) == Co(r[b].co, a) {
        CoAppearancesCount(tags, ts, a, b);
        CoAppearancesCount(tags, ts, b, a);
        OldCoSymmetric(tags, a, b);
      }
    }
  }

  lemma {:induction false} FoundNoAlias(ts: seq<TagRef>)
    ensures "2-9" !in Found(ts)
    decreases |ts|
  {
    if ts != [] {
      FoundNoAlias(ts[1..]);
    }
  }

  lemma InverseShare(n: nat)
    requires n > 0
    ensures 0.0 < 1.0 / (n as real) <= 1.0
  {
  }

  lemma {:induction false} ExperienceSound(tags: Tags, ts: seq<TagRef>, id: string)
    requires ts != [] && Consistent(tags) && id in AddExperience(tags, ts)
    ensures Sound(id, AddExperience(tags, ts)[id])
  {
    var share := 1.0 / (|ts| as real);
    InverseShare(|ts|);
    AddTagsKeys(tags, ts, share, id);
    AddTagsSound(tags, ts, share, id);
    CoAllFor(tags, ts, id, id);
  }

  lemma {:induction false} ExperienceCoKnown(tags: Tags, ts: seq<TagRef>, a: string, b: string)
    requires ts != [] && Consistent(tags) && a in AddExperience(tags, ts) && b in AddExperience(tags, ts)[a].co
    ensures b in AddExperience(tags, ts)
  {
    var share := 1.0 / (|ts| as real);
    AddTagsKeys(tags, ts, share, a);
    AddTagsKeys(tags, ts, share, b);
    CoAllFor(tags, ts, a, b);
    AddTagsCo(tags, ts, share, a);
  }

  /** A count that is present was incremented at least once. */
  lemma {:induction false} ExperienceCoPositive(tags: Tags, ts: seq<TagRef>, a: string, b: string)
    requires ts != [] && a in AddExperience(tags, ts) && b in AddExperience(tags, ts)[a].co
    requires forall x, y | x in tags && y in tags[x].co :: tags[x].co[y] >= 1
    ensures AddExperience(tags, ts)[a].co[b] >= 1
  {
    var share := 1.0 / (|ts| as real);
    var r := AddExperience(tags, ts);
    var found := Found(ts);
    AddTagsKeys(tags, ts, share, a);
    CoAllFor(tags, ts, a, b);
    AddTagsCo(tags, ts, share, a);
    assert r[a].co[b] == Co(r[a].co, b);
    if a in found && b in found {
      OccIn(found, a);
      OccIn(found, b);
      ProductPositive(Occ(found, a), Occ(found, b));
    }
  }

  lemma ProductPositive(x: nat, y: nat)
    requires x >= 1 && y >= 1
    ensures x * y >= 1
  {
    assert x * y == (x - 1) * y + y;
  }

  /** In a consistent table the old counts are symmetric, counting an
      unknown id as an empty row. */
  lemma OldCoSymmetric(tags: Tags, a: string, b: string)
    requires Consistent(tags)
    ensures (if a in tags then Co(tags[a].co, b) else 0) == (if b in tags then Co(tags[b].co, a) else 0)
  {
  }

  // ---------------------------------------------------------------- the files

  /** The table and the experience counter. */
  datatype Progress = Progress(tags: Tags, total: nat)

  /** One globbed file: counted, then counted again and added when it
      loads; a file that does not load is skipped. */
  function Step(p: Progress, file: (string, Option<Dict<string, Value>>)): (r: Progress)
    ensures r.total == p.total + 1 || r.total == p.total + 2
  {
    match GetExp(file.0, file.1)
    case Fail(_) => Progress(p.tags, p.total + 1)
    case Ok(e) => Progress(AddExperience(p.tags, e.record.tags), p.total + 2)
  }

  function Process(p: Progress, files: seq<(string, Option<Dict<string, Value>>)>): Progress
    decreases |files|
  {
    if files == [] then p else Process(Step(p, files[0]), files[1..])
  }

  /** The files that load. */
  function Parsed(files: seq<(string, Option<Dict<string, Value>>)>): (n: nat)
    ensures n <= |files|
    decreases |files|
  {
    if files == [] then 0 else (if GetExp(files[0].0, files[0].1).Ok? then 1 else 0) + Parsed(files[1..])
  }

  /** The counter ends at the number of files plus the number that
      loaded: loaded files are counted twice. */
  lemma {:induction false} TotalCount(p: Progress, files: seq<(string, Option<Dict<string, Value>>)>)
    ensures Process(p, files).total == p.total + |files| + Parsed(files)
    decreases |files|
  {
    if files != [] {
      TotalCount(Step(p, files[0]), files[1..]);
    }
  }

  lemma {:induction false} ProcessConsistent(p: Progress, files: seq<(string, Option<Dict<string, Value>>)>)
    requires Consistent(p.tags)
    ensures Consistent(Process(p, files).tags)
    decreases |files|
  {
    if files != [] {
      var e := GetExp(files[0].0, files[0].1);
      if e.Ok? {
        AddExperienceConsistent(p.tags, e.value.record.tags);
      }
      ProcessConsistent(Step(p, files[0]), files[1..]);
    }
  }

  /** Starting from an empty table, tags only come from loaded files. */
  lemma {:induction false} TagsFromParsed(p: Progress, files: seq<(string, Option<Dict<string, Value>>)>)
    requires p.tags == map[]
    ensures Process(p, files).tags != map[] ==> Parsed(files) > 0
    decreases |files|
  {
    if files != [] && GetExp(files[0].0, files[0].1).Fail? {
      TagsFromParsed(Step(p, files[0]), files[1..]);
    }
  }

  // ---------------------------------------------------------------- calculate_stats

  function Sum(us: seq<real>): real
    decreases |us|
  {
    if us == [] then 0.0 else us[0] + Sum(us[1..])
  }

  /** `statistics.mean`. */
  function Mean(us: seq<real>): real
    requires us != []
  {
    Sum(us) / (|us| as real)
  }

  lemma {:induction false} SumBounds(us: seq<real>)
    requires forall k :: 0 <= k < |us| ==> 0.0 < us[k] <= 1.0
    ensures us != [] ==> 0.0 < Sum(us) <= |us| as real
    decreases |us|
  {
    if us != [] {
      assert forall k :: 0 <= k < |us[1..]| ==> us[1..][k] == us[k + 1];
      SumBounds(us[1..]);
    }
  }

  /** The mean of shares in (0, 1] is in (0, 1]. */
  lemma {:induction false} MeanBounds(us: seq<real>)
    requires us != [] && forall k :: 0 <= k < |us| ==> 0.0 < us[k] <= 1.0
    ensures 0.0 < Mean(us) <= 1.0
  {
    SumBounds(us);
    RatioBounds(Sum(us), |us| as real);
  }

  /** A positive amount over one at least as large is in (0, 1]. */
  lemma {:induction false} RatioBounds(s: real, n: real)
    requires 0.0 < s <= n
    ensures 0.0 < s / n <= 1.0
  {
    assert s / n * n == s;
  }

  /** `calculate_stats(total)`: the share of experiences and the mean
      usage; a zero total divides by zero, and `mean` of no shares is a
      StatisticsError. */
  function CalculateStats(t: Tag, total: nat): (r: Result<Tag>)
    ensures total == 0 ==> r == Fail(ZeroDivisionError)
    ensures total > 0 && t.usages == [] ==> r == Fail(StatisticsError)
    ensures r.Ok? ==> && r.value.percExpAppearances.Some? && r.value.averageImpact.Some?
                      && r.value.percExpAppearances.value * (total as real) == t.appearances as real
                      && r.value.averageImpact.value * (|t.usages| as real) == Sum(t.usages)
                      && r.value == t.(percExpAppearances := r.value.percExpAppearances,
                                       averageImpact := r.value.averageImpact)
  {
    if total == 0 then Fail(ZeroDivisionError)
    else if t.usages == [] then Fail(StatisticsError)
    else Ok(t.(percExpAppearances := Some(t.appearances as real / total as real), averageImpact := Some(Mean(t.usages))))
  }

  /** The final loop over the table; every tag raises alike, so the order
      of the loop does not matter. */
  function CalculateAll(tags: Tags, total: nat): (r: Result<Tags>)
    ensures r.Ok? ==> r.value.Keys == tags.Keys
    ensures tags != map[] && total == 0 ==> r == Fail(ZeroDivisionError)
    ensures r.Ok? ==> forall id | id in tags :: CalculateStats(tags[id], total) == Ok(r.value[id])
  {
    if tags == map[] then Ok(tags)
    else if total == 0 then Fail(ZeroDivisionError)
    else if exists id | id in tags :: tags[id].usages == [] then Fail(StatisticsError)
    else Ok(map id | id in tags :: CalculateStats(tags[id], total).value)
  }

  /** `get_tags` on a processor whose table is `tags`. */
  function GetTags(tags: Tags, files: seq<(string, Option<Dict<string, Value>>)>): Result<Tags> {
    var p := Process(Progress(tags, 0), files);
    CalculateAll(p.tags, p.total)
  }

  /** On a fresh processor `get_tags` cannot fail: any tag comes from a
      loaded file, so the total is positive, and every tag has a share per
      appearance. Every tag's figures are its appearances over the total
      and its mean share, which lies in (0, 1]. */
  lemma {:induction false} FreshGetTags(files: seq<(string, Option<Dict<string, Value>>)>)
    ensures GetTags(map[], files).Ok?
    ensures forall id | id in GetTags(map[], files).value ::
              && GetTags(map[], files).value[id].tagId == id
              && 0.0 < GetTags(map[], files).value[id].averageImpact.value <= 1.0
  {
    var start := Progress(map[], 0);
    var p := Process(start, files);
    ProcessConsistent(start, files);
    TagsFromParsed(start, files);
    TotalCount(start, files);
    var r := CalculateAll(p.tags, p.total);
    forall id | id in r.value
      ensures r.value[id].tagId == id && 0.0 < r.value[id].averageImpact.value <= 1.0
    {
      MeanBounds(p.tags[id].usages);
    }
  }

  // ---------------------------------------------------------------- get_tags_co_appearances_matrix

  /** The cell of the co-appearance matrix in row `a` and column `b`: the
      count `a`'s row holds for `b`, or nothing (NaN once the frame is
      reindexed) when it holds none. Rows and columns are tags by id. */
  function Cell(tags: Tags, a: string, b: string): Option<nat>
    requires a in tags
  {
    if b in tags[a].co then Some(tags[a].co[b]) else None
  }

  /** The column labels: every id some row holds a count for. */
  function Columns(tags: Tags): set<string> {
    set a, b | a in tags && b in tags[a].co :: b
  }

  /** In a consistent table the matrix is already symmetric, cell by cell
      and missing cell by missing cell, and every column is a row, so the
      reindex to the union of the labels adds no row. */
  lemma {:induction false} CellSymmetric(tags: Tags, a: string, b: string)
    requires Consistent(tags) && a in tags && b in tags
    ensures Cell(tags, a, b) == Cell(tags, b, a)
    ensures Columns(tags) <= tags.Keys
  {
    assert Co(tags[a].co, b) == Co(tags[b].co, a);
    if b in tags[a].co {
      assert tags[a].co[b] >= 1;
    }
    if a in tags[b].co {
      assert tags[b].co[a] >= 1;
    }
  }

  /** The statistics leave every row of counts as it was. */
  lemma {:induction false} StatsKeepCounts(tags: Tags, total: nat, id: string)
    requires CalculateAll(tags, total).Ok? && id in tags
    ensures id in CalculateAll(tags, total).value
    ensures CalculateAll(tags, total).value[id].co == tags[id].co
  {
    assert CalculateStats(tags[id], total) == Ok(CalculateAll(tags, total).value[id]);
  }

  lemma {:induction false} StatsKeepColumns(tags: Tags, total: nat)
    requires CalculateAll(tags, total).Ok?
    ensures Columns(CalculateAll(tags, total).value) == Columns(tags)
  {
    var r := CalculateAll(tags, total).value;
    forall id | id in tags ensures r[id].co == tags[id].co {
      StatsKeepCounts(tags, total, id);
    }
  }

  /** After `get_tags` on a fresh processor the matrix is symmetric: the
      statistics leave the counts as they were. */
  lemma {:induction false} MatrixSymmetric(files: seq<(string, Option<Dict<string, Value>>)>, a: string, b: string)
    requires GetTags(map[], files).Ok?
    requires a in GetTags(map[], files).value && b in GetTags(map[], files).value
    ensures Cell(GetTags(map[], files).value, a, b) == Cell(GetTags(map[], files).value, b, a)
    ensures Columns(GetTags(map[], files).value) <= GetTags(map[], files).value.Keys
  {
    var p := Process(Progress(map[], 0), files);
    ProcessConsistent(Progress(map[], 0), files);
    StatsKeepCounts(p.tags, p.total, a);
    StatsKeepCounts(p.tags, p.total, b);
    StatsKeepColumns(p.tags, p.total);
    CellSymmetric(p.tags, a, b);
  }

  /** A processor that already holds tags and finds no file divides by
      zero. */
  lemma {:induction false} RerunOnEmptyFolder(tags: Tags)
    requires tags != map[]
    ensures GetTags(tags, []) == Fail(ZeroDivisionError)
  {
  }
}

=== FILE: proxy.dfy ===
/** The SOCKS5 proxy the scrapers route their requests through: a list of
    servers used in turn, and the proxy settings handed to `requests`. */
module Proxy {
  import opened Wrappers

  /** The credentials file: a user, a password and the server names. */
  datatype Credentials = Credentials(username: string, password: string, servers: seq<string>)

  /** `ProxyServer`: the servers in their shuffled order and the position
      of the one in use (`server_in_use` is `servers[number]`). */
  datatype ProxyServer = ProxyServer(username: string, password: string, servers: seq<string>, number: nat)

  predicate Valid(p: ProxyServer) {
    p.number < |p.servers|
  }

  function InUse(p: ProxyServer): string
    requires Valid(p)
  {
    p.servers[p.number]
  }

  /** The positions of a list of length `n`, in order. */
  function Indices(n: nat): (r: seq<nat>)
    ensures |r| == n && forall k :: 0 <= k < n ==> r[k] == k
  {
    seq(n, k requires 0 <= k < n => k)
  }

  /** `order` is a rearrangement of the positions of a list of length `n`:
      the outcome of `random.shuffle`, which is a parameter here. */
  predicate IsShuffle(order: seq<nat>, n: nat) {
    && (forall k :: 0 <= k < |order| ==> order[k] < n)
    && multiset(order) == multiset(Indices(n))
  }

  lemma ShuffleLength(order: seq<nat>, n: nat)
    requires IsShuffle(order, n)
    ensures |order| == n
  {
    assert |multiset(order)| == |multiset(Indices(n))|;
  }

  /** The constructor: an AssertionError without servers, otherwise the
      servers in shuffled order with the first one in use. */
  function NewProxyServer(c: Credentials, order: seq<nat>): (r: Result<ProxyServer>)
    requires IsShuffle(order, |c.servers|)
    ensures r.Fail? <==> c.servers == []
    ensures r.Fail? ==> r.error == AssertionError
    ensures r.Ok? ==> Valid(r.value) && r.value.number == 0
    ensures r.Ok? ==> r.value.username == c.username && r.value.password == c.password
    ensures r.Ok? ==> |r.value.servers| == |c.servers| == |order|
    ensures r.Ok? ==> forall k :: 0 <= k < |order| ==> r.value.servers[k] == c.servers[order[k]]
  {
    if c.servers == [] then Fail(AssertionError)
    else
      ShuffleLength(order, |c.servers|);
      var shuffled := seq(|order|, k requires 0 <= k < |order| => c.servers[order[k]]);
      Ok(ProxyServer(c.username, c.password, shuffled, 0))
  }

  /** The shuffle loses no server: every configured server is somewhere
      in the list. */
  lemma {:induction false} ShuffleKeepsServers(c: Credentials, order: seq<nat>, i: nat)
    requires IsShuffle(order, |c.servers|) && i < |c.servers|
    ensures NewProxyServer(c, order).Ok?
    ensures exists k :: 0 <= k < |c.servers| && NewProxyServer(c, order).value.servers[k] == c.servers[i]
  {
    var k := PositionOf(order, |c.servers|, i);
    assert NewProxyServer(c, order).value.servers[k] == c.servers[i];
  }

  /** Where a shuffle puts position `i`. */
  lemma PositionOf(order: seq<nat>, n: nat, i: nat) returns (k: nat)
    requires IsShuffle(order, n) && i < n
    ensures k < |order| && order[k] == i
  {
    assert Indices(n)[i] == i;
    assert i in multiset(order);
    k :| 0 <= k < |order| && order[k] == i;
  }

  /** `update_server_used`: the next server, wrapping round to the first. */
  function UpdateServerUsed(p: ProxyServer): (r: ProxyServer)
    requires Valid(p)
    ensures Valid(r)
    ensures r.servers == p.servers && r.username == p.username && r.password == p.password
    ensures r.number == (p.number + 1) % |p.servers|
  {
    if p.number < |p.servers| - 1 then p.(number := p.number + 1) else p.(number := 0)
  }

  /** `n` successive updates. */
  function Advance(p: ProxyServer, n: nat): (r: ProxyServer)
    requires Valid(p)
    ensures Valid(r) && r.servers == p.servers && r.username == p.username && r.password == p.password
    decreases n
  {
    if n == 0 then p else UpdateServerUsed(Advance(p, n - 1))
  }

  /** Updates compose. */
  lemma {:induction false} AdvanceAdd(p: ProxyServer, a: nat, b: nat)
    requires Valid(p)
    ensures Advance(Advance(p, a), b) == Advance(p, a + b)
    decreases b
  {
    if b > 0 {
      AdvanceAdd(p, a, b - 1);
    }
  }

  /** Before the end of the list each update moves one place on. */
  lemma {:induction false} AdvanceWithin(p: ProxyServer, n: nat)
    requires Valid(p) && p.number + n < |p.servers|
    ensures Advance(p, n).number == p.number + n
    decreases n
  {
    if n > 0 {
      AdvanceWithin(p, n - 1);
    }
  }

  /** How many updates bring server `i` into use. */
  function Distance(p: ProxyServer, i: nat): nat
    requires Valid(p) && i < |p.servers|
  {
    if p.number <= i then i - p.number else |p.servers| - p.number + i
  }

  /** A full round of updates returns to the server in use. */
  lemma {:induction false} FullRound(p: ProxyServer)
    requires Valid(p)
    ensures Advance(p, |p.servers|) == p
  {
    var toEnd := |p.servers| - 1 - p.number;
    AdvanceWithin(p, toEnd);
    var first := Advance(p, toEnd + 1);
    assert first.number == 0;
    AdvanceWithin(first, p.number);
    AdvanceAdd(p, toEnd + 1, p.number);
    assert toEnd + 1 + p.number == |p.servers|;
    var last := Advance(first, p.number);
    assert last.number == p.number && last.servers == p.servers;
    assert last.username == p.username && last.password == p.password;
  }

  /** Every server comes into use within one round of updates. */
  lemma {:induction false} RotationVisitsAll(p: ProxyServer, i: nat)
    requires Valid(p) && i < |p.servers|
    ensures Distance(p, i) < |p.servers|
    ensures InUse(Advance(p, Distance(p, i))) == p.servers[i]
  {
    if p.number <= i {
      AdvanceWithin(p, i - p.number);
    } else {
      var toEnd := |p.servers| - 1 - p.number;
      AdvanceWithin(p, toEnd);
      var first := Advance(p, toEnd + 1);
      assert first.number == 0;
      AdvanceWithin(first, i);
      AdvanceAdd(p, toEnd + 1, i);
      assert Distance(p, i) == toEnd + 1 + i;
      assert Advance(first, i).number == i;
    }
  }

  // ---------------------------------------------------------------- proxy settings

  const Port := "1080"

  /** `f"socks5://{username}:{password}@{server}:1080"`. */
  function ProxyString(username: string, password: string, server: string): string {
    "socks5://" + username + ":" + password + "@" + server + ":" + Port
  }

  /** The settings `requests` gets: the same proxy for both schemes. */
  datatype Proxies = Proxies(http: string, https: string)

  /** `get_proxy`: both schemes go through the server in use. */
  function GetProxy(p: ProxyServer): (r: Proxies)
    requires Valid(p)
    ensures r.http == r.https
  {
    var s := ProxyString(p.username, p.password, InUse(p));
    Proxies(s, s)
  }

  /** The single-server `ProxyCredentials` of the earliest script. */
  datatype ProxyCredentials = ProxyCredentials(username: string, password: string, server: string)

  function CredentialsProxy(c: ProxyCredentials): (r: Proxies)
    ensures r.http == r.https
  {
    var s := ProxyString(c.username, c.password, c.server);
    Proxies(s, s)
  }

  /** The two classes build the same settings for the same server. */
  lemma {:induction false} ProxiesAgree(p: ProxyServer)
    requires Valid(p)
    ensures GetProxy(p) == CredentialsProxy(ProxyCredentials(p.username, p.password, InUse(p)))
  {
  }

  /** The server can be read back from the settings: different servers
      in use give different settings. */
  lemma {:induction false} ProxyStringServer(username: string, password: string, a: string, b: string)
    requires ProxyString(username, password, a) == ProxyString(username, password, b)
    ensures a == b
  {
    var head := "socks5://" + username + ":" + password + "@";
    var tail := ":" + Port;
    assert ProxyString(username, password, a) == head + a + tail;
    assert ProxyString(username, password, b) == head + b + tail;
    assert |a| == |b|;
    forall k | 0 <= k < |a| ensures a[k] == b[k] {
      assert a[k] == (head + a + tail)[|head| + k];
      assert b[k] == (head + b + tail)[|head| + k];
    }
  }
}

=== FILE: queue.dfy ===
/** The download queue of the experience scraper: a dict from experience
    id to the scraper that will fetch it, filled from url lists or from a
    shuffled range of ids, skipping ids whose file is already saved. */
module Queue {
  import opened Wrappers
  import opened Strings
  import opened Dicts
  import opened Locations
  import opened TextFiles
  import Seqs

  /** An `ExperienceScraper` waiting in the queue: the url it fetches and
      the path it will be saved to. */
  datatype Job = Job(url: string, savePath: string)

  /** The queue after an update, and the exception that stopped it. */
  datatype Queued = Queued(queue: Dict<string, Job>, failure: Option<Error>)

  /** Where each version saves its records. */
  const SaveFolder := "data/experiences_db"
  const OlderSaveFolder := "experiences_db"

  /** Ids the generated list draws from: `range(1, 130000)`. */
  const FirstId := 1
  const EndId := 130000

  /** `list(range(FirstId, EndId))`. */
  function IdRange(): (r: seq<nat>)
    ensures |r| == EndId - FirstId
    ensures forall k :: 0 <= k < |r| ==> r[k] == FirstId + k
  {
    seq(EndId - FirstId, k requires 0 <= k < EndId - FirstId => FirstId + k)
  }

  /** What `random.shuffle` leaves of that list: some permutation of it,
      which one depending on the seed. */
  predicate IsShuffledRange(ids: seq<nat>) {
    multiset(ids) == multiset(IdRange())
  }

  /** A shuffled range holds exactly the ids of the range. */
  lemma {:induction false} ShuffledRangeMembers(ids: seq<nat>, n: nat)
    requires IsShuffledRange(ids)
    ensures n in ids <==> FirstId <= n < EndId
  {
    var range := IdRange();
    assert n in ids <==> n in multiset(range);
    if FirstId <= n < EndId {
      assert range[n - FirstId] == n;
    }
  }

  /** The urls an update reads: the lines of a list file, or one url per id
      of the shuffled id range (the order is a parameter). */
  datatype Source = ListFile(text: string) | Shuffled(ids: seq<nat>)

  /** `f"{base_url}{exp_id}"` for every id. */
  function Generated(ids: seq<nat>): (r: seq<string>)
    ensures |r| == |ids|
    ensures forall k :: 0 <= k < |r| ==> ExpId(r[k]) == Ok(NatToString(ids[k]))
  {
    var r := seq(|ids|, k requires 0 <= k < |ids| => BaseUrl + NatToString(ids[k]));
    forall k | 0 <= k < |r| ensures ExpId(r[k]) == Ok(NatToString(ids[k])) {
      ExpIdOfNumber(ids[k]);
    }
    r
  }

  function Urls(src: Source): seq<string> {
    match src
    case ListFile(text) => FromTxtToList(text)
    case Shuffled(ids) => Generated(ids)
  }

  /** The number of urls handled before the first one whose id cannot be
      read (`idOf` is the id reader, `ExpId` in the scrapers). */
  function Reached(idOf: string -> Result<string>, urls: seq<string>): (n: nat)
    ensures n <= |urls|
    ensures forall k :: 0 <= k < n ==> idOf(urls[k]).Ok?
    ensures n < |urls| ==> idOf(urls[n]).Fail?
    decreases |urls|
  {
    if urls == [] || idOf(urls[0]).Fail? then 0 else 1 + Reached(idOf, urls[1..])
  }

  /** The dict assignments the loop makes, in order: one per url whose
      file is not saved yet, stopping at the first url without an id
      (the exception of the scraper's constructor). */
  function Entries(idOf: string -> Result<string>, folder: string, existing: set<string>, urls: seq<string>): (r: Partial<(string, Job)>)
    ensures |r.done| <= |urls|
    ensures r.failure.Some? ==> urls != []
    ensures urls != [] && idOf(urls[0]).Fail? ==> r == Partial([], Some(idOf(urls[0]).error))
    decreases |urls|
  {
    if urls == [] then Partial([], None)
    else
      match idOf(urls[0])
      case Fail(e) => Partial([], Some(e))
      case Ok(id) =>
        var rest := Entries(idOf, folder, existing, urls[1..]);
        var path := JsonPath(folder, id);
        if path in existing then rest
        else Partial([(id, Job(urls[0], path))] + rest.done, rest.failure)
  }

  /** The loop stops exactly at the first url without an id, with that
      url's exception. */
  lemma {:induction false} EntriesStop(idOf: string -> Result<string>, folder: string, existing: set<string>, urls: seq<string>)
    ensures Entries(idOf, folder, existing, urls).failure.Some? <==> Reached(idOf, urls) < |urls|
    ensures Entries(idOf, folder, existing, urls).failure.Some? ==>
              idOf(urls[Reached(idOf, urls)]) == Fail(Entries(idOf, folder, existing, urls).failure.value)
    decreases |urls|
  {
    if urls != [] && idOf(urls[0]).Ok? {
      var tail := urls[1..];
      EntriesStop(idOf, folder, existing, tail);
      assert Reached(idOf, urls) == 1 + Reached(idOf, tail);
      assert Entries(idOf, folder, existing, urls).failure == Entries(idOf, folder, existing, tail).failure;
      if Reached(idOf, tail) < |tail| {
        assert urls[Reached(idOf, urls)] == tail[Reached(idOf, tail)];
      }
    }
  }

  /** Every queued job is saved to its id's file, which does not exist
      yet, and fetches a url carrying that id. */
  lemma {:induction false} EntriesFresh(idOf: string -> Result<string>, folder: string, existing: set<string>, urls: seq<string>)
    ensures forall p | p in Entries(idOf, folder, existing, urls).done ::
              p.1.savePath == JsonPath(folder, p.0) && p.1.savePath !in existing && idOf(p.1.url) == Ok(p.0)
    decreases |urls|
  {
    if urls != [] && idOf(urls[0]).Ok? {
      EntriesCons(idOf, folder, existing, urls[0], urls[1..]);
      assert urls == [urls[0]] + urls[1..];
      EntriesFresh(idOf, folder, existing, urls[1..]);
    }
  }

  /** The loop of `update_download_list` over a list of urls: every url
      is keyed by its id unless its file exists; a later url with the same
      id replaces the earlier one. The assignments made before an
      exception stay in the dict. */
  function Update(folder: string, existing: set<string>, q: Dict<string, Job>, urls: seq<string>): (r: Queued)
    requires Valid(q)
    ensures Valid(r.queue)
    ensures q.values.Keys <= r.queue.values.Keys
    ensures r.failure.Some? ==> r.failure.value in {IndexError, ValueError}
  {
    var e := Entries(ExpId, folder, existing, urls);
    EntriesStop(ExpId, folder, existing, urls);
    Queued(PutAll(q, e.done), e.failure)
  }

  /** `update_download_list(file)`: the urls of the file, or of the
      shuffled id range when no file is given. */
  function UpdateDownloadList(folder: string, existing: set<string>, q: Dict<string, Job>, src: Source): (r: Queued)
    requires Valid(q)
    ensures r == Update(folder, existing, q, Urls(src))
  {
    Update(folder, existing, q, Urls(src))
  }

  // ---------------------------------------------------------------- what ends up queued

  /** Some url handled before the first exception carries `id`. */
  predicate Carries(idOf: string -> Result<string>, urls: seq<string>, id: string) {
    exists k :: 0 <= k < Reached(idOf, urls) && idOf(urls[k]) == Ok(id)
  }

  lemma {:induction false} CarriesCons(idOf: string -> Result<string>, urls: seq<string>, id: string)
    requires urls != [] && idOf(urls[0]).Ok?
    ensures Carries(idOf, urls, id) <==> idOf(urls[0]) == Ok(id) || Carries(idOf, urls[1..], id)
  {
    var tail := urls[1..];
    assert Reached(idOf, urls) == 1 + Reached(idOf, tail);
    if Carries(idOf, urls, id) && idOf(urls[0]) != Ok(id) {
      var k :| 0 <= k < Reached(idOf, urls) && idOf(urls[k]) == Ok(id);
      assert urls[k] == tail[k - 1];
    }
    if Carries(idOf, tail, id) {
      var k :| 0 <= k < Reached(idOf, tail) && idOf(tail[k]) == Ok(id);
      assert urls[k + 1] == tail[k];
    }
  }

  /** An id is assigned exactly when a url handled before the exception
      carries it and its file does not exist. */
  lemma {:induction false} EntriesAssign(idOf: string -> Result<string>, folder: string, existing: set<string>, urls: seq<string>, id: string)
    ensures Assigns(Entries(idOf, folder, existing, urls).done, id)
        <==> JsonPath(folder, id) !in existing && Carries(idOf, urls, id)
    decreases |urls|
  {
    if urls != [] && idOf(urls[0]).Ok? {
      var tail := urls[1..];
      var first := idOf(urls[0]).value;
      EntriesAssign(idOf, folder, existing, tail, id);
      CarriesCons(idOf, urls, id);
      var dt := Entries(idOf, folder, existing, tail).done;
      if JsonPath(folder, first) !in existing {
        assert Entries(idOf, folder, existing, urls).done == [(first, Job(urls[0], JsonPath(folder, first)))] + dt;
        AssignsCons((first, Job(urls[0], JsonPath(folder, first))), dt, id);
      } else {
        assert Entries(idOf, folder, existing, urls).done == dt;
      }
    }
  }

  /** The queue holds an id exactly when it did before or a url handled
      before the exception carries it and its file does not exist. */
  lemma {:induction false} QueuedIds(folder: string, existing: set<string>, q: Dict<string, Job>, urls: seq<string>, id: string)
    requires Valid(q)
    ensures id in Update(folder, existing, q, urls).queue.values
        <==> id in q.values
             || (JsonPath(folder, id) !in existing && Carries(ExpId, urls, id))
  {
    PutAllKeys(q, Entries(ExpId, folder, existing, urls).done, id);
    EntriesAssign(ExpId, folder, existing, urls, id);
  }

  /** One step of the loop. */
  lemma {:induction false} EntriesCons(idOf: string -> Result<string>, folder: string, existing: set<string>, u: string, rest: seq<string>)
    requires idOf(u).Ok?
    ensures Entries(idOf, folder, existing, [u] + rest)
         == var e := Entries(idOf, folder, existing, rest);
            var path := JsonPath(folder, idOf(u).value);
            if path in existing then e
            else Partial([(idOf(u).value, Job(u, path))] + e.done, e.failure)
  {
    assert ([u] + rest)[0] == u && ([u] + rest)[1..] == rest;
  }

  lemma {:induction false} EntriesAppend(idOf: string -> Result<string>, folder: string, existing: set<string>, a: seq<string>, b: seq<string>)
    requires Entries(idOf, folder, existing, a).failure.None?
    ensures Entries(idOf, folder, existing, a + b)
         == Partial(Entries(idOf, folder, existing, a).done + Entries(idOf, folder, existing, b).done,
                    Entries(idOf, folder, existing, b).failure)
    decreases |a|, 1
  {
    if a == [] {
      assert a + b == b;
    } else {
      var u, tail := a[0], a[1..];
      assert a == [u] + tail;
      assert a + b == [u] + (tail + b);
      EntriesAppendCons(idOf, folder, existing, u, tail, b);
    }
  }

  lemma {:induction false} EntriesAppendCons(idOf: string -> Result<string>, folder: string, existing: set<string>, u: string, tail: seq<string>, b: seq<string>)
    requires Entries(idOf, folder, existing, [u] + tail).failure.None?
    ensures Entries(idOf, folder, existing, [u] + (tail + b))
         == Partial(Entries(idOf, folder, existing, [u] + tail).done + Entries(idOf, folder, existing, b).done,
                    Entries(idOf, folder, existing, b).failure)
    decreases |tail| + 1, 0
  {
    assert ([u] + tail)[0] == u;
    EntriesCons(idOf, folder, existing, u, tail);
    EntriesAppend(idOf, folder, existing, tail, b);
    EntriesAppendStep(idOf, folder, existing, u, tail, b);
  }

  lemma {:induction false} EntriesAppendStep(idOf: string -> Result<string>, folder: string, existing: set<string>, u: string, tail: seq<string>, b: seq<string>)
    requires idOf(u).Ok?
    requires Entries(idOf, folder, existing, tail + b)
          == Partial(Entries(idOf, folder, existing, tail).done + Entries(idOf, folder, existing, b).done,
                     Entries(idOf, folder, existing, b).failure)
    ensures Entries(idOf, folder, existing, [u] + (tail + b))
         == Partial(Entries(idOf, folder, existing, [u] + tail).done + Entries(idOf, folder, existing, b).done,
                    Entries(idOf, folder, existing, b).failure)
  {
    EntriesCons(idOf, folder, existing, u, tail);
    EntriesCons(idOf, folder, existing, u, tail + b);
    var path := JsonPath(folder, idOf(u).value);
    if path !in existing {
      Seqs.Assoc([(idOf(u).value, Job(u, path))], Entries(idOf, folder, existing, tail).done,
                 Entries(idOf, folder, existing, b).done);
    }
  }

  /** A url appended to a list that runs through: the later url's id
      wins. */
  lemma {:induction false} UpdateSnoc(folder: string, existing: set<string>, q: Dict<string, Job>, urls: seq<string>, u: string, id: string)
    requires Valid(q)
    requires Reached(ExpId, urls) == |urls| && ExpId(u) == Ok(id)
    ensures Update(folder, existing, q, urls + [u]).failure.None?
    ensures Update(folder, existing, q, urls + [u]).queue
         == if JsonPath(folder, id) in existing then Update(folder, existing, q, urls).queue
            else Put(Update(folder, existing, q, urls).queue, id, Job(u, JsonPath(folder, id)))
  {
    EntriesStop(ExpId, folder, existing, urls);
    EntriesAppend(ExpId, folder, existing, urls, [u]);
    assert [u][1..] == [];
    PutAllAppend(q, Entries(ExpId, folder, existing, urls).done, Entries(ExpId, folder, existing, [u]).done);
  }

  // ---------------------------------------------------------------- reruns

  /** Running the same update again changes nothing: the same urls make
      the same assignments, and the later ones win again. */
  lemma {:induction false} UpdateIdempotent(folder: string, existing: set<string>, q: Dict<string, Job>, urls: seq<string>)
    requires Valid(q)
    ensures Update(folder, existing, Update(folder, existing, q, urls).queue, urls)
         == Update(folder, existing, q, urls)
  {
    PutAllTwice(q, Entries(ExpId, folder, existing, urls).done);
  }

  /** A loop that assigns no key leaves nothing to assign. */
  lemma {:induction false} NoneAssigned<K, V>(pairs: seq<(K, V)>)
    requires forall k :: !Assigns(pairs, k)
    ensures pairs == []
  {
    if pairs != [] {
      assert Assigns(pairs, pairs[0].0);
    }
  }

  /** Once every queued experience is saved, running the update again
      queues nothing: every url handled either had its file already or
      was queued. */
  lemma {:induction false} RerunAfterSaving(folder: string, existing: set<string>, saved: set<string>,
                                            q: Dict<string, Job>, q2: Dict<string, Job>, urls: seq<string>)
    requires Valid(q) && Valid(q2)
    requires existing <= saved
    requires forall id | id in Update(folder, existing, q, urls).queue.values :: JsonPath(folder, id) in saved
    ensures Update(folder, saved, q2, urls).queue == q2
  {
    var r := Update(folder, existing, q, urls);
    forall id ensures !Assigns(Entries(ExpId, folder, saved, urls).done, id) {
      EntriesAssign(ExpId, folder, saved, urls, id);
      QueuedIds(folder, existing, q, urls, id);
    }
    NoneAssigned(Entries(ExpId, folder, saved, urls).done);
  }

  // ---------------------------------------------------------------- generated ids

  /** Every id of the range yields a url with that id, so the generated
      list never stops early. */
  lemma {:induction false} ReachedAll(idOf: string -> Result<string>, urls: seq<string>)
    requires forall k :: 0 <= k < |urls| ==> idOf(urls[k]).Ok?
    ensures Reached(idOf, urls) == |urls|
  {
  }

  /** Without a list file the queue gains exactly the generated ids whose
      file does not exist, and no exception stops it. */
  lemma {:induction false} GeneratedQueued(folder: string, existing: set<string>, q: Dict<string, Job>, ids: seq<nat>, id: string)
    requires Valid(q)
    ensures UpdateDownloadList(folder, existing, q, Shuffled(ids)).failure.None?
    ensures id in UpdateDownloadList(folder, existing, q, Shuffled(ids)).queue.values
        <==> id in q.values
             || (JsonPath(folder, id) !in existing && exists k :: 0 <= k < |ids| && id == NatToString(ids[k]))
  {
    var urls := Generated(ids);
    ReachedAll(ExpId, urls);
    EntriesStop(ExpId, folder, existing, urls);
    QueuedIds(folder, existing, q, urls, id);
    if exists k :: 0 <= k < |ids| && id == NatToString(ids[k]) {
      var k :| 0 <= k < |ids| && id == NatToString(ids[k]);
      assert ExpId(urls[k]) == Ok(id);
    }
  }

  /** `id` is the text of one of the generated ids. */
  predicate GeneratedId(ids: seq<nat>, id: string) {
    exists k :: 0 <= k < |ids| && id == NatToString(ids[k])
  }

  /** `id` is the text of an id of the range. */
  predicate RangeId(id: string) {
    exists n :: FirstId <= n < EndId && id == NatToString(n)
  }

  /** The ids a shuffled range generates are those of the range. */
  lemma {:induction false} ShuffledRangeIds(ids: seq<nat>, id: string)
    requires IsShuffledRange(ids)
    ensures GeneratedId(ids, id) <==> RangeId(id)
  {
    if n :| FirstId <= n < EndId && id == NatToString(n) {
      ShuffledRangeMembers(ids, n);
      var k :| 0 <= k < |ids| && ids[k] == n;
      assert id == NatToString(ids[k]);
    }
    if k :| 0 <= k < |ids| && id == NatToString(ids[k]) {
      ShuffledRangeMembers(ids, ids[k]);
    }
  }

  /** From the shuffled range, the queue gains exactly the ids from 1 to
      129999 whose file does not exist, whatever order the shuffle chose. */
  lemma {:induction false} ShuffledRangeQueued(folder: string, existing: set<string>, q: Dict<string, Job>, ids: seq<nat>, id: string)
    requires Valid(q) && IsShuffledRange(ids)
    ensures UpdateDownloadList(folder, existing, q, Shuffled(ids)).failure.None?
    ensures id in UpdateDownloadList(folder, existing, q, Shuffled(ids)).queue.values
        <==> id in q.values || (JsonPath(folder, id) !in existing && RangeId(id))
  {
    GeneratedQueued(folder, existing, q, ids, id);
    ShuffledRangeIds(ids, id);
  }

  // ---------------------------------------------------------------- folders of lists

  /** The file name ends in `.txt`. */
  predicate IsTxt(name: string) {
    |name| >= 4 && name[|name| - 4..] == ".txt"
  }

  /** The urls of all list files of a folder, file after file. */
  function FolderUrls(files: seq<(string, string)>): seq<string>
    decreases |files|
  {
    if files == [] then []
    else (if IsTxt(files[0].0) then FromTxtToList(files[0].1) else []) + FolderUrls(files[1..])
  }

  /** `update_from_folder`: `update_download_list` for every `.txt` file
      in the listing order; a missing folder changes nothing. Each entry
      is a file's name and contents. */
  function UpdateFromFolder(folder: string, existing: set<string>, q: Dict<string, Job>, listing: Option<seq<(string, string)>>): (r: Queued)
    requires Valid(q)
    ensures Valid(r.queue)
    ensures listing.None? ==> r == Queued(q, None)
  {
    match listing
    case None => Queued(q, None)
    case Some(files) => UpdateFiles(folder, existing, q, files)
  }

  function UpdateFiles(folder: string, existing: set<string>, q: Dict<string, Job>, files: seq<(string, string)>): (r: Queued)
    requires Valid(q)
    ensures Valid(r.queue)
    decreases |files|
  {
    if files == [] then Queued(q, None)
    else if !IsTxt(files[0].0) then UpdateFiles(folder, existing, q, files[1..])
    else
      var r := Update(folder, existing, q, FromTxtToList(files[0].1));
      if r.failure.Some? then r else UpdateFiles(folder, existing, r.queue, files[1..])
  }

  /** A list whose loop stops early stops the same way when more urls
      follow. */
  lemma {:induction false} EntriesAppendFail(idOf: string -> Result<string>, folder: string, existing: set<string>, a: seq<string>, b: seq<string>)
    requires Entries(idOf, folder, existing, a).failure.Some?
    ensures Entries(idOf, folder, existing, a + b) == Entries(idOf, folder, existing, a)
    decreases |a|, 1
  {
    var u, tail := a[0], a[1..];
    assert a == [u] + tail;
    EntriesAppendFailCons(idOf, folder, existing, u, tail, b);
  }

  lemma {:induction false} EntriesAppendFailCons(idOf: string -> Result<string>, folder: string, existing: set<string>, u: string, tail: seq<string>, b: seq<string>)
    requires Entries(idOf, folder, existing, [u] + tail).failure.Some?
    ensures Entries(idOf, folder, existing, [u] + tail + b) == Entries(idOf, folder, existing, [u] + tail)
    decreases |tail| + 1, 0
  {
    assert [u] + tail + b == [u] + (tail + b);
    if idOf(u).Ok? {
      EntriesCons(idOf, folder, existing, u, tail);
      EntriesCons(idOf, folder, existing, u, tail + b);
      EntriesAppendFail(idOf, folder, existing, tail, b);
    } else {
      assert ([u] + tail)[0] == u && ([u] + (tail + b))[0] == u;
    }
  }

  /** An update over two lists, the first of which runs through, is the
      update over the second after the one over the first. */
  lemma {:induction false} UpdateAppend(folder: string, existing: set<string>, q: Dict<string, Job>, a: seq<string>, b: seq<string>)
    requires Valid(q)
    requires Update(folder, existing, q, a).failure.None?
    ensures Update(folder, existing, q, a + b) == Update(folder, existing, Update(folder, existing, q, a).queue, b)
  {
    var ea := Entries(ExpId, folder, existing, a);
    EntriesAppend(ExpId, folder, existing, a, b);
    PutAllAppend(q, ea.done, Entries(ExpId, folder, existing, b).done);
  }

  /** Updating file by file is one update over all their urls. */
  lemma {:induction false} UpdateFilesFlat(folder: string, existing: set<string>, q: Dict<string, Job>, files: seq<(string, string)>)
    requires Valid(q)
    ensures UpdateFiles(folder, existing, q, files) == Update(folder, existing, q, FolderUrls(files))
    decreases |files|, 1
  {
    if files != [] {
      if IsTxt(files[0].0) {
        UpdateFilesTxt(folder, existing, q, files);
      } else {
        var rest := files[1..];
        assert UpdateFiles(folder, existing, q, files) == UpdateFiles(folder, existing, q, rest);
        assert FolderUrls(files) == FolderUrls(rest) by {
          assert FolderUrls(files) == [] + FolderUrls(rest);
        }
        UpdateFilesFlat(folder, existing, q, rest);
      }
    }
  }

  lemma {:induction false} UpdateFilesTxt(folder: string, existing: set<string>, q: Dict<string, Job>, files: seq<(string, string)>)
    requires Valid(q)
    requires files != [] && IsTxt(files[0].0)
    ensures UpdateFiles(folder, existing, q, files) == Update(folder, existing, q, FolderUrls(files))
    decreases |files|, 0
  {
    var a, rest := FromTxtToList(files[0].1), files[1..];
    var r := Update(folder, existing, q, a);
    assert FolderUrls(files) == a + FolderUrls(rest);
    if r.failure.Some? {
      EntriesAppendFail(ExpId, folder, existing, a, FolderUrls(rest));
    } else {
      UpdateFilesFlat(folder, existing, r.queue, rest);
      UpdateAppend(folder, existing, q, a, FolderUrls(rest));
    }
  }

  /** Updating from the same folder twice gives the queue of doing it
      once. */
  lemma {:induction false} UpdateFromFolderIdempotent(folder: string, existing: set<string>, q: Dict<string, Job>, listing: Option<seq<(string, string)>>)
    requires Valid(q)
    ensures UpdateFromFolder(folder, existing, UpdateFromFolder(folder, existing, q, listing).queue, listing)
         == UpdateFromFolder(folder, existing, q, listing)
  {
    if listing.Some? {
      var r := UpdateFromFolder(folder, existing, q, listing);
      UpdateFilesFlat(folder, existing, q, listing.value);
      UpdateFilesFlat(folder, existing, r.queue, listing.value);
      UpdateIdempotent(folder, existing, q, FolderUrls(listing.value));
    }
  }
}

=== FILE: seqs.dfy ===
/** Small facts about sequences that the proofs cite by name. */
module Seqs {

  lemma {:induction false} Assoc<T>(a: seq<T>, b: seq<T>, c: seq<T>)
    ensures a + (b + c) == (a + b) + c
  {
  }

  /** A non-empty sequence is its head followed by its tail, also with
      one more element appended. */
  lemma {:induction false} HeadTail<T>(xs: seq<T>, n: T)
    requires xs != []
    ensures xs == [xs[0]] + xs[1..]
    ensures xs + [n] == [xs[0]] + (xs[1..] + [n])
  {
  }

  /** The empty sequence is a unit of concatenation. */
  lemma {:induction false} Unit<T>(a: seq<T>)
    ensures [] + a == a && a + [] == a
  {
    assert [] + a == a;
    assert a + [] == a;
  }
}

=== FILE: story.dfy ===
/** The story of one experience report: the paragraphs collected from the
    children of the `report-text-surround` container, between marker
    comments. Two versions of the loop are modelled: the one shared by
    src/experiences_scraper.py and experiences_scraper.py, where "End Body"
    ends the story, and the one of erowid_download_thesis.py, where the
    markers only toggle collection. */
module Story {
  import opened Wrappers
  import opened Strings
  import opened Page
  import opened Seqs

  // ================================================================ story

  /** A comment whose stripped text is `marker`. */
  predicate IsMarker(n: Node, marker: string) {
    n.Comment? && Strip(n.content) == marker
  }

  const StartBody := "Start Body"
  const EndBody := "End Body"

  /** The loop of `extract_experience_story` over the children of the story
      container, `saving` being `save_row`. A "Start Body" comment switches
      saving on and is not itself kept; an "End Body" comment ends the loop;
      every other string child (a comment too, since a bs4 `Comment` is a
      `NavigableString`) is kept stripped while saving, unless it strips to
      nothing. Elements are never kept. */
  function StoryRows(rows: seq<Node>, saving: bool): (r: seq<string>)
    decreases |rows|
  {
    if rows == [] then []
    else if IsMarker(rows[0], StartBody) then StoryRows(rows[1..], true)
    else if IsMarker(rows[0], EndBody) then []
    else
      var rest := StoryRows(rows[1..], saving);
      if saving && IsString(rows[0]) && Strip(rows[0].content) != [] then [Strip(rows[0].content)] + rest
      else rest
  }

  /** Whether a child becomes a paragraph once it is inside the story
      window. */
  predicate Kept(n: Node) {
    IsString(n) && !IsMarker(n, StartBody) && Strip(n.content) != []
  }

  /** The stripped kept children, in document order. */
  function Paragraphs(rows: seq<Node>): (r: seq<string>)
    ensures |r| <= |rows|
    decreases |rows|
  {
    if rows == [] then []
    else (if Kept(rows[0]) then [Strip(rows[0].content)] else []) + Paragraphs(rows[1..])
  }

  /** The position of the first "End Body" marker, or the end. */
  function EndIndex(rows: seq<Node>): (e: nat)
    ensures e <= |rows|
    ensures forall k :: 0 <= k < e ==> !IsMarker(rows[k], EndBody)
    ensures e < |rows| ==> IsMarker(rows[e], EndBody)
    decreases |rows|
  {
    if rows == [] || IsMarker(rows[0], EndBody) then 0 else 1 + EndIndex(rows[1..])
  }

  /** The position of the first "Start Body" marker, if any. */
  function StartIndex(rows: seq<Node>): (s: Option<nat>)
    ensures s.Some? ==> s.value < |rows| && IsMarker(rows[s.value], StartBody)
    ensures s.Some? ==> forall k :: 0 <= k < s.value ==> !IsMarker(rows[k], StartBody)
    ensures s.None? ==> forall k :: 0 <= k < |rows| ==> !IsMarker(rows[k], StartBody)
    decreases |rows|
  {
    if rows == [] then None
    else if IsMarker(rows[0], StartBody) then Some(0)
    else match StartIndex(rows[1..])
      case None => None
      case Some(k) => Some(k + 1)
  }

  /** The story as a window: the kept children strictly between the first
      "Start Body" and the first "End Body" marker; nothing when no
      "Start Body" precedes the first "End Body". */
  function StoryWindow(rows: seq<Node>): seq<string> {
    var e := EndIndex(rows);
    match StartIndex(rows[..e])
    case None => []
    case Some(s) => Paragraphs(rows[s + 1..e])
  }

  /** Once saving, the loop keeps the kept children up to the first
      "End Body". */
  lemma {:induction false} StoryRowsSaving(rows: seq<Node>)
    ensures StoryRows(rows, true) == Paragraphs(rows[..EndIndex(rows)])
    decreases |rows|
  {
    if rows != [] && !IsMarker(rows[0], EndBody) {
      StoryRowsSaving(rows[1..]);
      assert rows[..EndIndex(rows)] == [rows[0]] + rows[1..][..EndIndex(rows[1..])];
    }
  }

  /** The marker loop collects exactly the story window. */
  lemma {:induction false} StoryRowsWindow(rows: seq<Node>)
    ensures StoryRows(rows, false) == StoryWindow(rows)
    decreases |rows|
  {
    if rows == [] {
    } else if IsMarker(rows[0], StartBody) {
      StoryRowsSaving(rows[1..]);
      WindowAtStart(rows);
    } else if IsMarker(rows[0], EndBody) {
      assert rows[..0] == [];
    } else {
      StoryRowsWindow(rows[1..]);
      WindowSkipsFirst(rows);
    }
  }

  lemma {:induction false} WindowAtStart(rows: seq<Node>)
    requires rows != [] && IsMarker(rows[0], StartBody)
    ensures StoryWindow(rows) == Paragraphs(rows[1..][..EndIndex(rows[1..])])
  {
    assert !IsMarker(rows[0], EndBody);
    var e := EndIndex(rows);
    assert rows[..e][0] == rows[0];
    assert rows[1..e] == rows[1..][..EndIndex(rows[1..])];
  }

  lemma {:induction false} WindowSkipsFirst(rows: seq<Node>)
    requires rows != [] && !IsMarker(rows[0], StartBody) && !IsMarker(rows[0], EndBody)
    ensures StoryWindow(rows) == StoryWindow(rows[1..])
  {
    var e := EndIndex(rows);
    var tail := rows[1..];
    assert rows[..e] == [rows[0]] + tail[..e - 1];
    assert rows[..e][1..] == tail[..e - 1];
    match StartIndex(tail[..e - 1])
    case None =>
    case Some(s) =>
      assert rows[s + 1 + 1..e] == tail[s + 1..e - 1];
  }

  /** Every paragraph is non-empty and stripped. */
  lemma {:induction false} ParagraphsClean(rows: seq<Node>)
    ensures forall k :: 0 <= k < |Paragraphs(rows)| ==> Paragraphs(rows)[k] != [] && Trimmed(Paragraphs(rows)[k])
    decreases |rows|
  {
    if rows != [] {
      ParagraphsClean(rows[1..]);
    }
  }

  /** Without a "Start Body" before the first "End Body", the story is
      empty: the source only logs a warning, it does not fail. */
  lemma {:induction false} StoryWithoutStart(rows: seq<Node>)
    requires StartIndex(rows[..EndIndex(rows)]).None?
    ensures StoryRows(rows, false) == []
  {
    StoryRowsWindow(rows);
  }

  const StoryClass := "report-text-surround"

  /** `extract_experience_story`: the first story container's window, or
      MissingExperienceFromPage when the page has no container. */
  function ExtractStory(page: Node): (r: Result<seq<string>>)
    ensures r.Fail? <==> FindAll(page, ByClass(StoryClass)) == []
    ensures r.Fail? ==> r.error == MissingExperienceFromPage
    ensures r.Ok? ==> r.value == StoryWindow(Children(FindAll(page, ByClass(StoryClass))[0]))
  {
    var found := FindAll(page, ByClass(StoryClass));
    if found == [] then Fail(MissingExperienceFromPage)
    else
      StoryRowsWindow(Children(found[0]));
      Ok(StoryRows(Children(found[0]), false))
  }

  // ---------------------------------------------------------------- thesis story

  /** The thesis loop: the markers only toggle `save_row`, so an "End Body"
      pauses collection and a later "Start Body" resumes it. Only plain
      text children (exact type `NavigableString`, so never a comment) are
      kept; a child that is exactly one newline is skipped, any other has
      only its newlines stripped. */
  function ThesisStoryRows(rows: seq<Node>, saving: bool): (r: seq<string>)
    ensures |r| <= |rows|
    decreases |rows|
  {
    if rows == [] then []
    else
      var now := Toggle(rows[0], saving);
      ThesisOwn(rows[0], now) + ThesisStoryRows(rows[1..], now)
  }

  function Toggle(n: Node, saving: bool): bool {
    if n.Comment? && Strip(n.content) == StartBody then true
    else if n.Comment? && Strip(n.content) == EndBody then false
    else saving
  }

  predicate ThesisKept(n: Node, saving: bool) {
    saving && n.Text? && n.content != "\n"
  }

  /** `save_row` after a prefix of the children. */
  function SavingAfter(rows: seq<Node>, saving: bool): bool
    decreases |rows|
  {
    if rows == [] then saving else SavingAfter(rows[1..], Toggle(rows[0], saving))
  }

  lemma {:induction false} SavingAfterSnoc(rows: seq<Node>, n: Node, saving: bool)
    ensures SavingAfter(rows + [n], saving) == Toggle(n, SavingAfter(rows, saving))
    decreases |rows|
  {
    if rows == [] {
      assert [] + [n] == [n];
    } else {
      assert (rows + [n])[1..] == rows[1..] + [n];
      SavingAfterSnoc(rows[1..], n, Toggle(rows[0], saving));
    }
  }

  /** The paragraph, if any, that one child contributes in state `saving`. */
  function ThesisOwn(n: Node, saving: bool): seq<string> {
    if ThesisKept(n, saving) then [StripChars(n.content, {'\n'})] else []
  }

  /** Appending one child appends at most its own paragraph, decided by the
      state the markers before it (and itself) leave. */
  lemma {:induction false} ThesisStorySnoc(rows: seq<Node>, n: Node, saving: bool)
    ensures ThesisStoryRows(rows + [n], saving)
         == ThesisStoryRows(rows, saving) + ThesisOwn(n, SavingAfter(rows + [n], saving))
    decreases |rows|
  {
    if rows == [] {
      assert [] + [n] == [n];
    } else {
      var now := Toggle(rows[0], saving);
      ThesisStorySnoc(rows[1..], n, now);
      ThesisCons(rows[0], rows[1..] + [n], saving);
      ThesisCons(rows[0], rows[1..], saving);
      HeadTail(rows, n);
      Assoc(ThesisOwn(rows[0], now), ThesisStoryRows(rows[1..], now), ThesisOwn(n, SavingAfter(rows + [n], saving)));
    }
  }

  /** The loop over `[x] + rest`: `x`'s own paragraph, then the rest in the
      state `x` leaves. */
  lemma {:induction false} ThesisCons(x: Node, rest: seq<Node>, saving: bool)
    ensures ThesisStoryRows([x] + rest, saving)
         == ThesisOwn(x, Toggle(x, saving)) + ThesisStoryRows(rest, Toggle(x, saving))
    ensures SavingAfter([x] + rest, saving) == SavingAfter(rest, Toggle(x, saving))
  {
    assert ([x] + rest)[1..] == rest;
  }

  /** The two marker comments are recognised as such. */
  lemma MarkersAreMarkers(end: Node, start: Node)
    requires end == Comment(EndBody) && start == Comment(StartBody)
    ensures IsMarker(end, EndBody) && !IsMarker(end, StartBody)
    ensures IsMarker(start, StartBody) && !IsMarker(start, EndBody)
  {
    StripClean(StartBody, Whitespace);
    StripClean(EndBody, Whitespace);
  }

  /** After an "End Body", a second "Start Body" resumes the thesis loop,
      while the current loop has stopped for good. */
  lemma {:induction false} ThesisResumes(rows: seq<Node>)
    requires rows == [Comment(EndBody), Comment(StartBody), Text("c")]
    ensures ThesisStoryRows(rows, true) == ["c"]
    ensures StoryRows(rows, true) == []
  {
    MarkersAreMarkers(rows[0], rows[1]);
    var r2 := rows[1..];
    var r3 := r2[1..];
    assert r3 == [Text("c")] && r3[1..] == [];
    assert StripChars("c", {'\n'}) == "c";
    assert ThesisStoryRows(r3, true) == ["c"] + ThesisStoryRows([], true);
    assert ThesisStoryRows(r2, false) == [] + ThesisStoryRows(r3, true);
    assert ThesisStoryRows(rows, true) == [] + ThesisStoryRows(r2, false);
  }

  /** A text child of two newlines is not skipped: it gives an empty
      paragraph. */
  lemma {:induction false} ThesisBlankParagraph(rows: seq<Node>)
    requires rows == [Text("\n\n")]
    ensures ThesisStoryRows(rows, true) == [""]
  {
    assert StripChars("\n\n", {'\n'}) == "";
  }

  const ThesisMissing := "Missing Experience report for this ID"

  /** The story part of `get_experience`: the toggled loop over the first
      container, or a bare `Exception` carrying ThesisMissing. */
  function ThesisExtractStory(page: Node): (r: Result<seq<string>>)
    ensures r.Fail? <==> FindAll(page, ByClass(StoryClass)) == []
    ensures r.Fail? ==> r.error == GenericException(Some(ThesisMissing))
    ensures r.Ok? ==> |r.value| <= |Children(FindAll(page, ByClass(StoryClass))[0])|
  {
    var found := FindAll(page, ByClass(StoryClass));
    if found == [] then Fail(GenericException(Some(ThesisMissing)))
    else Ok(ThesisStoryRows(Children(found[0]), false))
  }
}

=== FILE: strings.dfy ===
/** The handful of Python `str` operations the scraper relies on, written
    out with Python's semantics: `strip`, `split` on one character,
    `replace(pat, "")`, `in`, and decimal rendering of integers.

    Whitespace is the set of characters for which `str.isspace` holds; the
    same set is what `str.strip()` removes and what `\s` matches in a
    Python regular expression on `str`. Digits are the ASCII digits. */
module Strings {

  /** `str.isspace`: the ASCII controls tab to carriage return and the
      separators 0x1C to 0x1F, space, and the Unicode line and space
      separators (no-break space, the ogham, en and em spaces, the line and
      paragraph separators, the narrow and ideographic spaces). */
  predicate IsSpace(c: char) {
    || '\t' <= c <= '\r' || '\U{1C}' <= c <= ' '
    || c == '\U{85}' || c == '\U{A0}' || c == '\U{1680}'
    || '\U{2000}' <= c <= '\U{200A}' || c == '\U{2028}' || c == '\U{2029}'
    || c == '\U{202F}' || c == '\U{205F}' || c == '\U{3000}'
  }

  const Whitespace: set<char> := set c: char | IsSpace(c)

  predicate IsDigit(c: char) {
    '0' <= c <= '9'
  }

  predicate AllDigits(s: string) {
    forall k :: 0 <= k < |s| ==> IsDigit(s[k])
  }

  /** Number of occurrences of `c` in `s`. */
  function Count(s: string, c: char): nat
    decreases |s|
  {
    if s == [] then 0 else (if s[0] == c then 1 else 0) + Count(s[1..], c)
  }

  lemma {:induction false} CountConcat(a: string, b: string, c: char)
    ensures Count(a + b, c) == Count(a, c) + Count(b, c)
    decreases |a|
  {
    if a == [] {
      assert a + b == b;
    } else {
      assert (a + b)[1..] == a[1..] + b;
      CountConcat(a[1..], b, c);
    }
  }

  lemma CountAbsent(s: string, c: char)
    requires c !in s
    ensures Count(s, c) == 0
    decreases |s|
  {
    if s != [] {
      assert c !in s[1..] by {
        forall k | 0 <= k < |s[1..]| ensures s[1..][k] != c {
          assert s[1..][k] == s[k + 1];
        }
      }
      CountAbsent(s[1..], c);
    }
  }

  lemma CountPresent(s: string, c: char)
    requires c in s
    ensures Count(s, c) > 0
    decreases |s|
  {
    if s[0] != c {
      var k :| 0 <= k < |s| && s[k] == c;
      assert s[1..][k - 1] == c;
      CountPresent(s[1..], c);
    }
  }

  lemma CountPositive(s: string, c: char)
    ensures Count(s, c) > 0 <==> c in s
  {
    if c in s { CountPresent(s, c); } else { CountAbsent(s, c); }
  }

  // ---------------------------------------------------------------- strip

  function TrimLeft(s: string, cs: set<char>): (r: string)
    ensures |r| <= |s|
    ensures r == [] || r[0] !in cs
    decreases |s|
  {
    if s != [] && s[0] in cs then TrimLeft(s[1..], cs) else s
  }

  function TrimRight(s: string, cs: set<char>): (r: string)
    ensures |r| <= |s|
    ensures r == [] || r[|r| - 1] !in cs
    decreases |s|
  {
    if s != [] && s[|s| - 1] in cs then TrimRight(s[..|s| - 1], cs) else s
  }

  lemma {:induction false} TrimLeftShape(s: string, cs: set<char>)
    ensures TrimLeft(s, cs) == s[|s| - |TrimLeft(s, cs)|..]
    ensures forall k :: 0 <= k < |s| - |TrimLeft(s, cs)| ==> s[k] in cs
    decreases |s|
  {
    if s != [] && s[0] in cs {
      TrimLeftShape(s[1..], cs);
    }
  }

  lemma {:induction false} TrimRightShape(s: string, cs: set<char>)
    ensures TrimRight(s, cs) == s[..|TrimRight(s, cs)|]
    ensures forall k :: |TrimRight(s, cs)| <= k < |s| ==> s[k] in cs
    decreases |s|
  {
    if s != [] && s[|s| - 1] in cs {
      TrimRightShape(s[..|s| - 1], cs);
    }
  }

  /** Number of leading characters of `s` that belong to `cs`. */
  function LeadLen(s: string, cs: set<char>): (n: nat)
    ensures n <= |s|
  {
    |s| - |TrimLeft(s, cs)|
  }

  /** Python's `s.strip(chars)`: drop every leading and trailing character
      that belongs to `cs`; the ends of the result are not in `cs`. Which
      infix of `s` it is, is stated by `StripInfix`. */
  function StripChars(s: string, cs: set<char>): (r: string)
    ensures |r| <= |s|
    ensures r == [] || (r[0] !in cs && r[|r| - 1] !in cs)
  {
    TrimRightShape(TrimLeft(s, cs), cs);
    TrimRight(TrimLeft(s, cs), cs)
  }

  /** The result of a strip is the infix of `s` that starts after the
      leading run of `cs` characters, and only characters of `cs` are
      dropped on either side. */
  lemma StripInfix(s: string, cs: set<char>)
    ensures LeadLen(s, cs) + |StripChars(s, cs)| <= |s|
    ensures StripChars(s, cs) == s[LeadLen(s, cs)..LeadLen(s, cs) + |StripChars(s, cs)|]
    ensures forall k :: 0 <= k < LeadLen(s, cs) ==> s[k] in cs
    ensures forall k :: LeadLen(s, cs) + |StripChars(s, cs)| <= k < |s| ==> s[k] in cs
  {
    var left := TrimLeft(s, cs);
    var r := TrimRight(left, cs);
    TrimLeftShape(s, cs);
    TrimRightShape(left, cs);
    assert r == s[|s| - |left|..|s| - |left| + |r|];
  }

  /** Neither end is whitespace: what `s.strip() == s` means. */
  predicate Trimmed(s: string) {
    s == [] || (!IsSpace(s[0]) && !IsSpace(s[|s| - 1]))
  }

  /** Python's `s.strip()`. */
  function Strip(s: string): (r: string)
    ensures Trimmed(r)
  {
    StripChars(s, Whitespace)
  }

  lemma TrimmedIsStripped(s: string)
    ensures Trimmed(s) <==> Strip(s) == s
  {
    if Trimmed(s) { StripClean(s, Whitespace); }
  }

  /** A string whose ends are not strippable is its own strip. */
  lemma StripClean(s: string, cs: set<char>)
    requires s == [] || (s[0] !in cs && s[|s| - 1] !in cs)
    ensures StripChars(s, cs) == s
  {
  }

  lemma StripIdempotent(s: string, cs: set<char>)
    ensures StripChars(StripChars(s, cs), cs) == StripChars(s, cs)
  {
    StripClean(StripChars(s, cs), cs);
  }

  /** Stripping only removes characters of `cs`, so any other character is
      counted as often before as after. */
  lemma StripKeepsCount(s: string, cs: set<char>, c: char)
    requires c !in cs
    ensures Count(StripChars(s, cs), c) == Count(s, c)
  {
    var r := StripChars(s, cs);
    var i := LeadLen(s, cs);
    StripInfix(s, cs);
    assert s == s[..i] + r + s[i + |r|..];
    assert c !in s[..i];
    assert c !in s[i + |r|..];
    CountConcat(s[..i] + r, s[i + |r|..], c);
    CountConcat(s[..i], r, c);
    CountAbsent(s[..i], c);
    CountAbsent(s[i + |r|..], c);
  }

  /** Every character of a stripped string occurs in the original. */
  lemma StripSubset(s: string, cs: set<char>)
    ensures forall k :: 0 <= k < |StripChars(s, cs)| ==> StripChars(s, cs)[k] in s
  {
    var r := StripChars(s, cs);
    var i := LeadLen(s, cs);
    StripInfix(s, cs);
    forall k | 0 <= k < |r| ensures r[k] in s {
      assert r[k] == s[i + k];
    }
  }

  /** Trailing strippable characters after a clean string disappear. */
  lemma StripTrailing(s: string, t: string, cs: set<char>)
    requires s != [] && s[0] !in cs && s[|s| - 1] !in cs
    requires forall k :: 0 <= k < |t| ==> t[k] in cs
    ensures StripChars(s + t, cs) == s
    decreases |t|
  {
    if t == [] {
      assert s + t == s;
    } else {
      var u := s + t;
      assert TrimLeft(u, cs) == u;
      assert u[|u| - 1] in cs;
      assert u[..|u| - 1] == s + t[..|t| - 1];
      StripTrailing(s, t[..|t| - 1], cs);
      assert TrimLeft(s + t[..|t| - 1], cs) == s + t[..|t| - 1];
    }
  }

  /** Leading strippable characters before a clean string disappear. */
  lemma StripLeading(t: string, s: string, cs: set<char>)
    requires s != [] && s[0] !in cs && s[|s| - 1] !in cs
    requires forall k :: 0 <= k < |t| ==> t[k] in cs
    ensures StripChars(t + s, cs) == s
    decreases |t|
  {
    if t == [] {
      assert t + s == s;
    } else {
      assert (t + s)[1..] == t[1..] + s;
      StripLeading(t[1..], s, cs);
      assert TrimLeft(t + s, cs) == TrimLeft(t[1..] + s, cs);
    }
  }

  // ---------------------------------------------------------------- split

  /** Python's `s.split(c)` for a one-character separator: always at least
      one piece, one more piece than separators, and no piece contains the
      separator. */
  function Split(s: string, c: char): (r: seq<string>)
    ensures |r| == Count(s, c) + 1
    ensures forall k :: 0 <= k < |r| ==> c !in r[k]
    decreases |s|
  {
    if s == [] then [[]]
    else
      var rest := Split(s[1..], c);
      if s[0] == c then [[]] + rest
      else
        assert c !in [s[0]] + rest[0];
        [[s[0]] + rest[0]] + rest[1..]
  }

  /** A character the text lacks is in none of its pieces. */
  lemma {:induction false} SplitAvoids(s: string, c: char, d: char)
    requires d !in s
    ensures forall k :: 0 <= k < |Split(s, c)| ==> d !in Split(s, c)[k]
    decreases |s|
  {
    if s != [] {
      assert forall x :: x in s[1..] ==> x in s;
      SplitAvoids(s[1..], c, d);
      var rest := Split(s[1..], c);
      if s[0] != c {
        assert d != s[0] && d !in rest[0];
        assert d !in [s[0]] + rest[0];
      }
    }
  }

  /** Python's `sep.join(pieces)`. */
  function Join(pieces: seq<string>, sep: string): string
    decreases |pieces|
  {
    if pieces == [] then []
    else if |pieces| == 1 then pieces[0]
    else pieces[0] + sep + Join(pieces[1..], sep)
  }

  /** `split` is undone by `join` with the same separator. */
  lemma {:induction false} JoinSplit(s: string, c: char)
    ensures Join(Split(s, c), [c]) == s
    decreases |s|
  {
    if s != [] {
      var rest := Split(s[1..], c);
      JoinSplit(s[1..], c);
      if s[0] == c {
        assert Split(s, c) == [[]] + rest;
        assert s == [c] + s[1..];
      } else {
        var r := Split(s, c);
        assert r == [[s[0]] + rest[0]] + rest[1..];
        if |rest| == 1 {
          assert s == [s[0]] + s[1..];
        } else {
          assert r[1..] == rest[1..];
          assert Join(rest, [c]) == rest[0] + [c] + Join(rest[1..], [c]);
          assert s == [s[0]] + s[1..];
        }
      }
    }
  }

  lemma SplitAbsent(s: string, c: char)
    requires c !in s
    ensures Split(s, c) == [s]
  {
    CountAbsent(s, c);
    JoinSplit(s, c);
  }

  /** Splitting at a separator splits the piece lists. */
  lemma {:induction false} SplitConcat(a: string, b: string, c: char)
    ensures Split(a + [c] + b, c) == Split(a, c) + Split(b, c)
    decreases |a|
  {
    if a == [] {
      assert a + [c] + b == [c] + b;
      assert ([c] + b)[1..] == b;
    } else {
      assert (a + [c] + b)[1..] == a[1..] + [c] + b;
      SplitConcat(a[1..], b, c);
    }
  }

  // ---------------------------------------------------------------- search

  /** Python's `pat in s`. */
  predicate Contains(s: string, pat: string)
    decreases |s|
  {
    pat <= s || (s != [] && Contains(s[1..], pat))
  }

  /** A pattern absent from a string stands at none of its positions. */
  lemma {:induction false} NotContainsAt(s: string, pat: string, i: nat)
    requires !Contains(s, pat) && i + |pat| <= |s|
    ensures s[i..i + |pat|] != pat
    decreases i
  {
    if i > 0 {
      NotContainsAt(s[1..], pat, i - 1);
      assert s[1..][i - 1..i - 1 + |pat|] == s[i..i + |pat|];
    }
  }

  /** A pattern absent from a string is absent from each of its prefixes. */
  lemma {:induction false} NotContainsPrefix(s: string, m: nat, pat: string)
    requires !Contains(s, pat) && m <= |s|
    ensures !Contains(s[..m], pat)
    decreases m
  {
    if |pat| <= m {
      assert s[..m][..|pat|] == s[..|pat|];
    }
    if m > 0 {
      NotContainsPrefix(s[1..], m - 1, pat);
      assert s[..m][1..] == s[1..][..m - 1];
    }
  }

  /** A pattern holding a character the string lacks does not occur in it. */
  lemma {:induction false} NotContainsMissing(s: string, pat: string, c: char)
    requires c in pat && c !in s
    ensures !Contains(s, pat)
    decreases |s|
  {
    if |pat| <= |s| {
      var i :| 0 <= i < |pat| && pat[i] == c;
      assert s[i] != pat[i];
    }
    if s != [] {
      NotContainsMissing(s[1..], pat, c);
    }
  }

  /** A pattern absent from the first `m` characters is absent from the
      whole string when its last character does not occur after them. */
  lemma {:induction false} NotContainsPastHead(s: string, m: nat, pat: string)
    requires pat != [] && m <= |s| && !Contains(s[..m], pat)
    requires forall k :: m <= k < |s| ==> s[k] != pat[|pat| - 1]
    ensures !Contains(s, pat)
    decreases |s|
  {
    if |pat| <= m {
      assert s[..m][..|pat|] == s[..|pat|];
    } else if |pat| <= |s| {
      assert s[|pat| - 1] != pat[|pat| - 1];
    }
    if s != [] {
      var m' := if m == 0 then 0 else m - 1;
      assert s[1..][..m'] == if m == 0 then [] else s[..m][1..];
      NotContainsPastHead(s[1..], m', pat);
    }
  }

  /** Python's `s.replace(pat, "")`: occurrences are removed left to right
      without overlapping. */
  function RemoveAll(s: string, pat: string): (r: string)
    ensures |r| <= |s|
    decreases |s|
  {
    if pat == [] || |s| < |pat| then s
    else if pat <= s then RemoveAll(s[|pat|..], pat)
    else [s[0]] + RemoveAll(s[1..], pat)
  }

  /** A leading occurrence of the pattern is removed. */
  lemma RemoveAllPrefix(pat: string, t: string)
    requires pat != []
    ensures RemoveAll(pat + t, pat) == RemoveAll(t, pat)
  {
    assert pat <= pat + t;
    assert (pat + t)[|pat|..] == t;
  }

  /** Text without the pattern is left unchanged. */
  lemma {:induction false} RemoveAllAbsent(s: string, pat: string)
    requires pat != [] && !Contains(s, pat)
    ensures RemoveAll(s, pat) == s
    decreases |s|
  {
    if |s| >= |pat| {
      RemoveAllAbsent(s[1..], pat);
      assert s == [s[0]] + s[1..];
    }
  }

  // ---------------------------------------------------------------- numbers

  function DigitChar(d: nat): (c: char)
    requires d < 10
    ensures IsDigit(c)
  {
    (48 + d) as char
  }

  function DigitValue(c: char): (d: nat)
    requires IsDigit(c)
    ensures d < 10
  {
    (c as int) - 48
  }

  /** Python's `str(n)` for a non-negative integer. */
  function NatToString(n: nat): (r: string)
    ensures r != [] && AllDigits(r)
    decreases n
  {
    if n < 10 then [DigitChar(n)]
    else NatToString(n / 10) + [DigitChar(n % 10)]
  }

  /** Python's `int(s)` on a string of digits. */
  function ParseNat(s: string): nat
    requires AllDigits(s)
    decreases |s|
  {
    if s == [] then 0 else ParseNat(s[..|s| - 1]) * 10 + DigitValue(s[|s| - 1])
  }

  /** Rendering a number and reading it back gives the number. */
  lemma {:induction false} ParseNatToString(n: nat)
    ensures ParseNat(NatToString(n)) == n
    decreases n
  {
    if n >= 10 {
      var s := NatToString(n);
      assert s[..|s| - 1] == NatToString(n / 10);
      ParseNatToString(n / 10);
    }
  }

  lemma NatToStringInjective(a: nat, b: nat)
    requires NatToString(a) == NatToString(b)
    ensures a == b
  {
    ParseNatToString(a);
    ParseNatToString(b);
  }

  /** The longest prefix of `s` made of digits (what a greedy `\d*` takes). */
  function DigitRun(s: string): (d: string)
    ensures d <= s && AllDigits(d)
    ensures |d| == |s| || !IsDigit(s[|d|])
    decreases |s|
  {
    if s != [] && IsDigit(s[0]) then [s[0]] + DigitRun(s[1..]) else []
  }

  /** A digit string followed by a non-digit is exactly the digit run. */
  lemma {:induction false} DigitRunOf(d: string, t: string)
    requires AllDigits(d)
    requires t == [] || !IsDigit(t[0])
    ensures DigitRun(d + t) == d
    decreases |d|
  {
    if d == [] {
      assert d + t == t;
    } else {
      assert (d + t)[1..] == d[1..] + t;
      DigitRunOf(d[1..], t);
    }
  }
}

=== FILE: tags.dfy ===
/** Parsing of the footer lists "Alcohol (24), Cannabis (8)" into
    name/id pairs, in the two ways the scraper has done it:

    - `split_tags` (src/experiences_scraper.py) runs the regular expression
      `(^|\,)\s*(.+?)\((\d+)\)` with `re.finditer` in MULTILINE mode. It is
      modelled here as the backtracking matcher Python's `re` runs: the
      alternation tries `^` before `,`, the greedy `\s*` gives characters
      back one at a time, the lazy `.+?` grows one character at a time and
      never crosses a newline, and the search resumes where the last match
      ended.
    - `_dict_from_str` (the older files) splits each comma fragment on `(`. */
module TagParse {
  import opened Wrappers
  import opened Strings

  /** One `{'name': ..., 'id': ...}` dict of a footer list. */
  datatype TagRef = TagRef(name: string, id: string)

  // ================================================================ split_tags

  /** One regular-expression match: the raw name group, the id group and
      the position just after the match in the searched text. */
  datatype Match = Match(name: string, id: string, end: nat)

  /** What every match satisfies within the text `s`: it ends on `)`
      inside `s`, and its id is a non-empty run of digits. */
  predicate Sound(m: Match, s: string) {
    1 <= m.end <= |s| && s[m.end - 1] == ')' && m.id != [] && AllDigits(m.id)
  }

  /** The end of the run of digits that starts at `i`. */
  function DigitEnd(s: string, i: nat): (e: nat)
    requires i <= |s|
    ensures i <= e <= |s|
    ensures forall k :: i <= k < e ==> IsDigit(s[k])
    ensures e == |s| || !IsDigit(s[e])
    decreases |s| - i
  {
    if i < |s| && IsDigit(s[i]) then DigitEnd(s, i + 1) else i
  }

  /** The end of the run of whitespace that starts at `i`. */
  function SpaceEnd(s: string, i: nat): (e: nat)
    requires i <= |s|
    ensures i <= e <= |s|
    ensures forall k :: i <= k < e ==> IsSpace(s[k])
    ensures e == |s| || !IsSpace(s[e])
    decreases |s| - i
  {
    if i < |s| && IsSpace(s[i]) then SpaceEnd(s, i + 1) else i
  }

  /** `\((\d+)\)` at position `i`: the digits and the position after the
      closing parenthesis. A shorter `\d+` is always followed by a digit,
      never by `)`, so backtracking into the greedy run cannot succeed and
      only the longest run is tried. */
  function IdGroupAt(s: string, i: nat): (r: Option<(string, nat)>)
    requires i <= |s|
    ensures r.Some? ==> && r.value.0 != [] && AllDigits(r.value.0)
                        && r.value.1 == i + |r.value.0| + 2 <= |s| && s[r.value.1 - 1] == ')'
  {
    if i == |s| || s[i] != '(' then None
    else
      var e := DigitEnd(s, i + 1);
      if e == i + 1 || e == |s| || s[e] != ')' then None
      else
        var d := s[i + 1..e];
        assert forall k :: 0 <= k < |d| ==> d[k] == s[i + 1 + k];
        Some((d, e + 1))
  }

  /** `(.+?)\((\d+)\)` with the lazy name currently `s[b..j]`: try the id
      group after it, else grow the name by one character, unless the name
      would have to swallow a newline. */
  function LazyNameAt(s: string, b: nat, j: nat): (r: Option<Match>)
    requires b < j <= |s|
    ensures r.Some? ==> Sound(r.value, s) && r.value.end > j
    decreases |s| - j
  {
    if s[j - 1] == '\n' then None
    else
      match IdGroupAt(s, j)
      case Some((d, e)) => Some(Match(s[b..j], d, e))
      case None => if j < |s| then LazyNameAt(s, b, j + 1) else None
  }

  /** `\s*` having taken the `w` characters after `b`, then the name and
      id; on failure the greedy `\s*` gives one character back. */
  function SpaceThenNameAt(s: string, b: nat, w: nat): (r: Option<Match>)
    requires b + w <= |s|
    ensures r.Some? ==> Sound(r.value, s) && r.value.end > b
    decreases w
  {
    var m := if b + w < |s| then LazyNameAt(s, b + w, b + w + 1) else None;
    if m.Some? then m
    else if w == 0 then None
    else SpaceThenNameAt(s, b, w - 1)
  }

  /** `\s*(.+?)\((\d+)\)` at position `i`. */
  function MatchRestAt(s: string, i: nat): (r: Option<Match>)
    requires i <= |s|
    ensures r.Some? ==> Sound(r.value, s) && r.value.end > i
  {
    SpaceThenNameAt(s, i, SpaceEnd(s, i) - i)
  }

  /** The whole pattern at position `i`: `^` (only at a line start) is
      tried before `,`. */
  function MatchAtPos(s: string, i: nat, lineStart: bool): (r: Option<Match>)
    requires i <= |s|
    ensures r.Some? ==> Sound(r.value, s) && r.value.end > i
  {
    var viaStart := if lineStart then MatchRestAt(s, i) else None;
    if viaStart.Some? then viaStart
    else if i < |s| && s[i] == ',' then MatchRestAt(s, i + 1)
    else None
  }

  /** What `split_tags` reports for every match: a stripped name and a
      non-empty all-digit id. */
  predicate ParsedTag(t: TagRef) {
    Trimmed(t.name) && t.id != [] && AllDigits(t.id)
  }

  /** `re.finditer` over `s` from position `i`; `lineStart` says whether
      `i` is the start of the text or follows a newline. Each match yields
      its name and id, both stripped. A match ends on `)`, so the search
      never resumes at a line start after one. At most one result per `)`. */
  function FindIterFrom(s: string, i: nat, lineStart: bool): (r: seq<TagRef>)
    requires i <= |s|
    ensures |r| <= Count(s[i..], ')')
    decreases |s| - i
  {
    match MatchAtPos(s, i, lineStart)
    case Some(m) =>
      MatchedPrefix(s, i, m.end);
      [TagRef(Strip(m.name), Strip(m.id))] + FindIterFrom(s, m.end, false)
    case None =>
      if i == |s| then []
      else
        SkippedChar(s, i);
        FindIterFrom(s, i + 1, s[i] == '\n')
  }

  /** The text from `i` holds at least one more `)` than the text from `e`. */
  lemma {:induction false} MatchedPrefix(s: string, i: nat, e: nat)
    requires i < e <= |s| && s[e - 1] == ')'
    ensures Count(s[i..], ')') >= 1 + Count(s[e..], ')')
  {
    assert s[i..] == s[i..e] + s[e..];
    CountConcat(s[i..e], s[e..], ')');
    assert s[i..e][e - 1 - i] == ')';
    CountPresent(s[i..e], ')');
  }

  lemma {:induction false} SkippedChar(s: string, i: nat)
    requires i < |s|
    ensures Count(s[i..], ')') >= Count(s[i + 1..], ')')
  {
    assert s[i..][1..] == s[i + 1..];
  }

  /** One step of `re.finditer`: a match at the current position is
      reported and the search resumes after it. */
  lemma {:induction false} FindIterStep(s: string, i: nat, lineStart: bool, m: Match)
    requires i <= |s| && MatchAtPos(s, i, lineStart) == Some(m)
    ensures i < m.end <= |s|
    ensures FindIterFrom(s, i, lineStart) == [TagRef(Strip(m.name), Strip(m.id))] + FindIterFrom(s, m.end, false)
  {
    assert Sound(m, s);
  }

  /** Every result of the search is a parsed tag. */
  lemma {:induction false} FindIterParsed(s: string, i: nat, lineStart: bool)
    requires i <= |s|
    ensures forall k :: 0 <= k < |FindIterFrom(s, i, lineStart)| ==> ParsedTag(FindIterFrom(s, i, lineStart)[k])
    decreases |s| - i
  {
    match MatchAtPos(s, i, lineStart)
    case Some(m) =>
      FindIterParsed(s, m.end, false);
      StripClean(m.id, Whitespace);
    case None =>
      if i < |s| {
        FindIterParsed(s, i + 1, s[i] == '\n');
      }
  }

  /** `split_tags(text)`: every result has a stripped name and a non-empty
      all-digit id, and there are at most as many results as `)` in the
      text. */
  function SplitTags(text: string): (r: seq<TagRef>)
    ensures forall k :: 0 <= k < |r| ==> ParsedTag(r[k])
    ensures |r| <= Count(text, ')')
  {
    var s := Strip(text);
    StripKeepsCount(text, Whitespace, ')');
    assert s[0..] == s;
    FindIterParsed(s, 0, true);
    FindIterFrom(s, 0, true)
  }

  // ---------------------------------------------------------------- rendering

  /** A tag as the footer prints it: a name without `(` or newline that
      neither starts nor ends with whitespace, and a decimal id. */
  predicate WellFormedTag(t: TagRef) {
    && t.name != [] && !IsSpace(t.name[0]) && !IsSpace(t.name[|t.name| - 1])
    && '(' !in t.name && '\n' !in t.name
    && t.id != [] && AllDigits(t.id)
  }

  function Entry(t: TagRef): string {
    t.name + " (" + t.id + ")"
  }

  /** ", name (id)" for every tag. */
  function RenderTail(ts: seq<TagRef>): string
    decreases |ts|
  {
    if ts == [] then [] else ", " + Entry(ts[0]) + RenderTail(ts[1..])
  }

  /** The footer list "name (id), name (id), ...". */
  function Render(ts: seq<TagRef>): string {
    if ts == [] then [] else Entry(ts[0]) + RenderTail(ts[1..])
  }

  /** `e` occurs in `s` at position `i`. */
  predicate OccursAt(s: string, i: nat, e: string) {
    i + |e| <= |s| && s[i..i + |e|] == e
  }

  lemma {:induction false} OccursChar(s: string, i: nat, e: string, k: nat)
    requires OccursAt(s, i, e) && k < |e|
    ensures s[i + k] == e[k]
  {
    assert s[i..i + |e|][k] == s[i + k];
  }

  lemma {:induction false} OccursSplit(s: string, i: nat, a: string, b: string)
    requires OccursAt(s, i, a + b)
    ensures OccursAt(s, i, a) && OccursAt(s, i + |a|, b)
  {
    assert s[i..i + |a|] == (a + b)[..|a|];
    assert s[i + |a|..i + |a| + |b|] == (a + b)[|a|..];
  }

  lemma {:induction false} DigitEndOf(s: string, i: nat, d: string)
    requires OccursAt(s, i, d) && AllDigits(d)
    requires i + |d| == |s| || !IsDigit(s[i + |d|])
    ensures DigitEnd(s, i) == i + |d|
    decreases |d|
  {
    if d != [] {
      OccursChar(s, i, d, 0);
      assert OccursAt(s, i + 1, d[1..]) by {
        assert d == [d[0]] + d[1..];
        OccursSplit(s, i, [d[0]], d[1..]);
      }
      DigitEndOf(s, i + 1, d[1..]);
    }
  }

  lemma {:induction false} IdGroupAtOf(s: string, i: nat, d: string)
    requires d != [] && AllDigits(d)
    requires OccursAt(s, i, "(" + d + ")")
    ensures IdGroupAt(s, i) == Some((d, i + |d| + 2))
  {
    OccursSplit(s, i, "(" + d, ")");
    OccursSplit(s, i, "(", d);
    OccursChar(s, i, "(", 0);
    OccursChar(s, i + |d| + 1, ")", 0);
    DigitEndOf(s, i + 1, d);
  }

  /** The lazy name grows over characters that are neither a newline nor
      the start of an id group. */
  lemma {:induction false} LazyNameSkip(s: string, b: nat, j: nat, k: nat)
    requires b < j <= k <= |s|
    requires forall i :: j - 1 <= i < k - 1 ==> s[i] != '\n'
    requires forall i :: j <= i < k ==> s[i] != '('
    ensures LazyNameAt(s, b, j) == LazyNameAt(s, b, k)
    decreases k - j
  {
    if j < k {
      assert IdGroupAt(s, j) == None;
      LazyNameSkip(s, b, j + 1, k);
    }
  }

  /** The lazy name stops as soon as an id group follows it. */
  lemma {:induction false} LazyNameFound(s: string, b: nat, j: nat, d: string, e: nat)
    requires b < j <= |s| && s[j - 1] != '\n'
    requires IdGroupAt(s, j) == Some((d, e))
    ensures LazyNameAt(s, b, j) == Some(Match(s[b..j], d, e))
  {
  }

  /** The name characters of a printed entry let the lazy name run on. */
  lemma {:induction false} NameRuns(s: string, i: nat, name: string)
    requires name != [] && '\n' !in name && '(' !in name
    requires OccursAt(s, i, name + " ")
    ensures forall k :: i <= k < i + |name| ==> s[k] != '\n'
    ensures forall k :: i + 1 <= k < i + |name| + 1 ==> s[k] != '('
  {
    forall k | i <= k < i + |name| + 1 ensures s[k] == (name + " ")[k - i] {
      OccursChar(s, i, name + " ", k - i);
    }
  }

  /** Where the name, its space and the id group of a printed entry sit. */
  lemma {:induction false} EntryParts(s: string, i: nat, t: TagRef)
    requires OccursAt(s, i, Entry(t))
    ensures OccursAt(s, i, t.name + " ")
    ensures OccursAt(s, i + |t.name| + 1, "(" + t.id + ")")
    ensures |Entry(t)| == |t.name| + |t.id| + 3
  {
    assert Entry(t) == (t.name + " ") + ("(" + t.id + ")");
    OccursSplit(s, i, t.name + " ", "(" + t.id + ")");
  }

  /** The lazy name runs over the whole name and its trailing space. */
  lemma {:induction false} EntryNameRuns(s: string, i: nat, t: TagRef)
    requires WellFormedTag(t) && OccursAt(s, i, t.name + " ")
    ensures LazyNameAt(s, i, i + 1) == LazyNameAt(s, i, i + |t.name| + 1)
  {
    NameRuns(s, i, t.name);
    LazyNameSkip(s, i, i + 1, i + |t.name| + 1);
  }

  /** After the name and its space, the id group closes the match. */
  lemma {:induction false} EntryIdCloses(s: string, i: nat, t: TagRef)
    requires WellFormedTag(t) && OccursAt(s, i, t.name + " ")
    requires OccursAt(s, i + |t.name| + 1, "(" + t.id + ")")
    ensures LazyNameAt(s, i, i + |t.name| + 1) == Some(Match(t.name + " ", t.id, i + |t.name| + |t.id| + 3))
  {
    var j := i + |t.name| + 1;
    IdGroupAtOf(s, j, t.id);
    OccursChar(s, i, t.name + " ", |t.name|);
    assert s[i..j] == t.name + " ";
    LazyNameFound(s, i, j, t.id, j + |t.id| + 2);
  }

  /** At a printed entry, the name-and-id part of the pattern matches the
      whole entry, with the separating space in the raw name. */
  lemma {:induction false} EntryAt(s: string, i: nat, t: TagRef)
    requires WellFormedTag(t) && OccursAt(s, i, Entry(t))
    ensures LazyNameAt(s, i, i + 1) == Some(Match(t.name + " ", t.id, i + |Entry(t)|))
  {
    EntryParts(s, i, t);
    EntryNameRuns(s, i, t);
    EntryIdCloses(s, i, t);
  }

  /** A printed entry at the start of the text matches via `^`. */
  lemma {:induction false} MatchFirst(s: string, t: TagRef)
    requires WellFormedTag(t) && OccursAt(s, 0, Entry(t))
    ensures MatchAtPos(s, 0, true) == Some(Match(t.name + " ", t.id, |Entry(t)|))
  {
    OccursChar(s, 0, Entry(t), 0);
    assert SpaceEnd(s, 0) == 0;
    EntryAt(s, 0, t);
  }

  /** A printed ", entry" matches via `,`, the space taken by `\s*`. */
  lemma {:induction false} MatchNext(s: string, i: nat, t: TagRef)
    requires WellFormedTag(t) && OccursAt(s, i, ", " + Entry(t))
    ensures MatchAtPos(s, i, false) == Some(Match(t.name + " ", t.id, i + 2 + |Entry(t)|))
  {
    OccursSplit(s, i, ", ", Entry(t));
    OccursChar(s, i, ", ", 0);
    OccursChar(s, i, ", ", 1);
    OccursChar(s, i + 2, Entry(t), 0);
    assert SpaceEnd(s, i + 2) == i + 2;
    assert SpaceEnd(s, i + 1) == i + 2;
    EntryAt(s, i + 2, t);
  }

  lemma {:induction false} StripEntryName(t: TagRef)
    requires WellFormedTag(t)
    ensures Strip(t.name + " ") == t.name && Strip(t.id) == t.id
  {
    StripTrailing(t.name, " ", Whitespace);
    StripClean(t.id, Whitespace);
  }

  lemma {:induction false} FindIterRenderTail(s: string, i: nat, ts: seq<TagRef>)
    requires forall k :: 0 <= k < |ts| ==> WellFormedTag(ts[k])
    requires i <= |s| && s[i..] == RenderTail(ts)
    ensures FindIterFrom(s, i, false) == ts
    decreases |ts|
  {
    if ts == [] {
      assert MatchAtPos(s, i, false) == None;
    } else {
      var t, rest := ts[0], ts[1..];
      var m := Match(t.name + " ", t.id, i + 2 + |Entry(t)|);
      TailParts(s, i, ts);
      MatchNext(s, i, t);
      FindIterStep(s, i, false, m);
      assert forall k :: 0 <= k < |rest| ==> rest[k] == ts[k + 1];
      FindIterRenderTail(s, m.end, rest);
      StripEntryName(t);
      assert TagRef(Strip(m.name), Strip(m.id)) == t;
      assert ts == [t] + rest;
    }
  }

  lemma {:induction false} TailParts(s: string, i: nat, ts: seq<TagRef>)
    requires ts != [] && i <= |s| && s[i..] == RenderTail(ts)
    ensures OccursAt(s, i, ", " + Entry(ts[0]))
    ensures s[i + 2 + |Entry(ts[0])|..] == RenderTail(ts[1..])
  {
    var e := ", " + Entry(ts[0]);
    assert s[i..] == e + RenderTail(ts[1..]);
    assert s[i..i + |e|] == s[i..][..|e|];
    assert s[i + |e|..] == s[i..][|e|..];
  }

  /** A printed non-empty list is already stripped. */
  lemma {:induction false} RenderTrimmed(ts: seq<TagRef>)
    requires ts != [] && WellFormedTag(ts[0])
    ensures Strip(Render(ts)) == Render(ts)
  {
    var s := Render(ts);
    assert s[0] == ts[0].name[0];
    if ts[1..] == [] {
      assert s == Entry(ts[0]);
    } else {
      RenderEndsInParen(ts[1..]);
    }
    StripClean(s, Whitespace);
  }

  /** Round trip: a footer list printed from well-formed tags is parsed back
      by `split_tags` into exactly those tags, in order. */
  lemma {:induction false} SplitTagsRender(ts: seq<TagRef>)
    requires forall k :: 0 <= k < |ts| ==> WellFormedTag(ts[k])
    ensures SplitTags(Render(ts)) == ts
  {
    if ts == [] {
      assert Strip([]) == [];
      assert MatchAtPos([], 0, true) == None;
    } else {
      var s := Render(ts);
      var m := Match(ts[0].name + " ", ts[0].id, |Entry(ts[0])|);
      RenderTrimmed(ts);
      assert OccursAt(s, 0, Entry(ts[0]));
      MatchFirst(s, ts[0]);
      FindIterStep(s, 0, true, m);
      assert s[m.end..] == RenderTail(ts[1..]);
      FindIterRenderTail(s, m.end, ts[1..]);
      StripEntryName(ts[0]);
    }
  }

  lemma {:induction false} RenderEndsInParen(ts: seq<TagRef>)
    requires ts != []
    ensures RenderTail(ts) != [] && RenderTail(ts)[|RenderTail(ts)| - 1] == ')'
    decreases |ts|
  {
    if ts[1..] != [] {
      RenderEndsInParen(ts[1..]);
    }
  }

  /** A fragment without an id is not skipped: it is absorbed, with the
      comma, into the name of the next tag. */
  lemma {:induction false} SplitTagsAbsorbs(fragment: string, t: TagRef)
    requires WellFormedTag(t)
    requires fragment != [] && !IsSpace(fragment[0]) && '(' !in fragment && '\n' !in fragment
    ensures SplitTags(fragment + ", " + Entry(t)) == [TagRef(fragment + ", " + t.name, t.id)]
  {
    var merged := TagRef(fragment + ", " + t.name, t.id);
    assert WellFormedTag(merged);
    assert Render([merged]) == fragment + ", " + Entry(t);
    SplitTagsRender([merged]);
  }

  lemma {:induction false} RenderPair(a: TagRef, c: TagRef)
    ensures Render([a, c]) == Entry(a) + ", " + Entry(c)
  {
    assert [a, c][1..] == [c];
    assert RenderTail([c]) == ", " + Entry(c) + RenderTail([]);
  }

  /** The two-entry example: "Alcohol (24), Cannabis (8)". */
  lemma {:induction false} SplitTagsExample(text: string)
    requires text == "Alcohol (24), Cannabis (8)"
    ensures SplitTags(text) == [TagRef("Alcohol", "24"), TagRef("Cannabis", "8")]
  {
    var a, c := TagRef("Alcohol", "24"), TagRef("Cannabis", "8");
    PairWellFormed(a, c);
    PairText(text, a, c);
    RenderPair(a, c);
    var ts := [a, c];
    SplitTagsRender(ts);
  }

  lemma PairWellFormed(a: TagRef, c: TagRef)
    requires a == TagRef("Alcohol", "24") && c == TagRef("Cannabis", "8")
    ensures WellFormedTag(a) && WellFormedTag(c)
  {
  }

  lemma PairText(text: string, a: TagRef, c: TagRef)
    requires text == "Alcohol (24), Cannabis (8)"
    requires a == TagRef("Alcohol", "24") && c == TagRef("Cannabis", "8")
    ensures Entry(a) + ", " + Entry(c) == text
  {
  }

  /** "General, Small Group (5)" is one tag named "General, Small Group". */
  lemma {:induction false} SplitTagsAbsorbExample(text: string)
    requires text == "General, Small Group (5)"
    ensures SplitTags(text) == [TagRef("General, Small Group", "5")]
  {
    var t := TagRef("Small Group", "5");
    SmallGroupWellFormed(t);
    AbsorbText(text, t);
    AbsorbName(t);
    SplitTagsAbsorbs("General", t);
  }

  lemma SmallGroupWellFormed(t: TagRef)
    requires t == TagRef("Small Group", "5")
    ensures WellFormedTag(t)
  {
  }

  lemma AbsorbText(text: string, t: TagRef)
    requires text == "General, Small Group (5)" && t == TagRef("Small Group", "5")
    ensures text == "General" + ", " + Entry(t)
  {
  }

  lemma AbsorbName(t: TagRef)
    requires t == TagRef("Small Group", "5")
    ensures "General" + ", " + t.name == "General, Small Group"
  {
  }

  // ================================================================ _dict_from_str

  /** `_dict_from_str(text)` of experiences_scraper.py and erowid_scraping.py:
      strip, split on `(`, name = stripped first piece, id = second piece
      stripped of whitespace and then of `)`. It raises IndexError exactly
      when the fragment has no `(`; the name never contains `(`. */
  function DictFromStr(text: string): (r: Result<TagRef>)
    ensures r.Ok? <==> '(' in text
    ensures r.Fail? ==> r.error == IndexError
    ensures r.Ok? ==> Trimmed(r.value.name) && '(' !in r.value.name
  {
    var parts := Split(Strip(text), '(');
    StripKeepsCount(text, Whitespace, '(');
    CountPositive(text, '(');
    if |parts| < 2 then Fail(IndexError)
    else
      StripSubset(parts[0], Whitespace);
      Ok(TagRef(Strip(parts[0]), StripChars(Strip(parts[1]), {')'})))
  }

  /** The nested helper of erowid_download_thesis.py: the same, except that
      the fragment is not stripped before it is split. */
  function ThesisDictFromStr(text: string): (r: Result<TagRef>)
    ensures r.Ok? <==> '(' in text
    ensures r.Fail? ==> r.error == IndexError
  {
    var parts := Split(text, '(');
    CountPositive(text, '(');
    if |parts| < 2 then Fail(IndexError)
    else Ok(TagRef(Strip(parts[0]), StripChars(Strip(parts[1]), {')'})))
  }

  lemma {:induction false} StripLeadEntry(lead: string, t: TagRef)
    requires WellFormedTag(t)
    requires forall k :: 0 <= k < |lead| ==> IsSpace(lead[k])
    ensures Strip(lead + Entry(t)) == Entry(t)
  {
    assert Entry(t)[0] == t.name[0];
    StripLeading(lead, Entry(t), Whitespace);
  }

  lemma {:induction false} SplitEntryParen(t: TagRef)
    requires WellFormedTag(t)
    ensures Split(Entry(t), '(') == [t.name + " ", t.id + ")"]
  {
    assert Entry(t) == (t.name + " ") + ['('] + (t.id + ")");
    SplitConcat(t.name + " ", t.id + ")", '(');
    assert '(' !in t.id + ")" by {
      forall k | 0 <= k < |t.id| ensures t.id[k] != '(' {
        assert IsDigit(t.id[k]);
      }
    }
    SplitAbsent(t.name + " ", '(');
    SplitAbsent(t.id + ")", '(');
  }

  lemma {:induction false} IdOfPiece(id: string)
    requires id != [] && AllDigits(id)
    ensures StripChars(Strip(id + ")"), {')'}) == id
  {
    StripClean(id + ")", Whitespace);
    StripTrailing(id, ")", {')'});
  }

  /** A fragment as the footer prints it, possibly after ", ", is parsed
      back into its tag. */
  lemma {:induction false} DictFromStrEntry(lead: string, t: TagRef)
    requires WellFormedTag(t)
    requires forall k :: 0 <= k < |lead| ==> IsSpace(lead[k])
    ensures DictFromStr(lead + Entry(t)) == Ok(t)
  {
    StripLeadEntry(lead, t);
    SplitEntryParen(t);
    StripEntryName(t);
    IdOfPiece(t.id);
  }

  // ---------------------------------------------------------------- comma lists

  /** `[_dict_from_str(f) for f in fragments]` as an appending loop: the
      dicts parsed before the first fragment without `(`, and that failure. */
  function DictsFrom(fragments: seq<string>): (r: Partial<TagRef>)
    ensures r.failure.Some? ==> r.failure.value == IndexError
  {
    Collect(DictFromStr, fragments)
  }

  /** The loop runs to the end exactly when every fragment has a `(`. */
  lemma {:induction false} DictsFromCompletes(fragments: seq<string>)
    ensures DictsFrom(fragments).failure.None? <==> forall k :: 0 <= k < |fragments| ==> '(' in fragments[k]
  {
    CollectCompletes(DictFromStr, fragments);
  }

  /** Every dict the loop appended is its own fragment's parse. */
  lemma {:induction false} DictsFromParses(fragments: seq<string>)
    ensures forall k :: 0 <= k < |DictsFrom(fragments).done| ==> DictFromStr(fragments[k]) == Ok(DictsFrom(fragments).done[k])
  {
    CollectEach(DictFromStr, fragments);
  }

  /** The comma list of the older footer parser: one entry per fragment. */
  function DictsFromList(segment: string): (r: Partial<TagRef>)
    ensures r.failure.None? ==> |r.done| == Count(segment, ',') + 1
  {
    DictsFrom(Split(segment, ','))
  }

  /** Names that the comma splitter cannot cut. */
  predicate CommaFreeTag(t: TagRef) {
    WellFormedTag(t) && ',' !in t.name
  }

  /** The comma fragments of a printed list after its first entry. */
  function Pieces(ts: seq<TagRef>): seq<string>
    decreases |ts|
  {
    if ts == [] then [] else [" " + Entry(ts[0])] + Pieces(ts[1..])
  }

  lemma {:induction false} EntryCommaFree(t: TagRef)
    requires CommaFreeTag(t)
    ensures ',' !in Entry(t) && ',' !in " " + Entry(t)
  {
    assert Entry(t) == t.name + " (" + t.id + ")";
    forall k | 0 <= k < |t.id| ensures t.id[k] != ',' {
      assert IsDigit(t.id[k]);
    }
  }

  /** Splitting on commas cuts a printed list exactly at its separators. */
  lemma {:induction false} SplitRenderTail(f: string, ts: seq<TagRef>)
    requires ',' !in f
    requires forall k :: 0 <= k < |ts| ==> CommaFreeTag(ts[k])
    ensures Split(f + RenderTail(ts), ',') == [f] + Pieces(ts)
    decreases |ts|
  {
    if ts == [] {
      assert f + RenderTail(ts) == f;
      SplitAbsent(f, ',');
    } else {
      var piece := " " + Entry(ts[0]);
      EntryCommaFree(ts[0]);
      assert f + RenderTail(ts) == f + [','] + (piece + RenderTail(ts[1..]));
      SplitConcat(f, piece + RenderTail(ts[1..]), ',');
      SplitAbsent(f, ',');
      SplitRenderTail(piece, ts[1..]);
    }
  }

  lemma {:induction false} DictsFromCons(f: string, fs: seq<string>, t: TagRef)
    requires DictFromStr(f) == Ok(t)
    ensures DictsFrom([f] + fs) == Partial([t] + DictsFrom(fs).done, DictsFrom(fs).failure)
  {
    CollectCons(DictFromStr, f, fs, t);
  }

  lemma {:induction false} DictsFromPieces(ts: seq<TagRef>)
    requires forall k :: 0 <= k < |ts| ==> CommaFreeTag(ts[k])
    ensures DictsFrom(Pieces(ts)) == Partial(ts, None)
    decreases |ts|
  {
    if ts != [] {
      DictFromStrEntry(" ", ts[0]);
      DictsFromPieces(ts[1..]);
      DictsFromCons(" " + Entry(ts[0]), Pieces(ts[1..]), ts[0]);
      assert ts == [ts[0]] + ts[1..];
    }
  }

  lemma {:induction false} SplitRender(ts: seq<TagRef>)
    requires ts != []
    requires forall k :: 0 <= k < |ts| ==> CommaFreeTag(ts[k])
    ensures Split(Render(ts), ',') == [Entry(ts[0])] + Pieces(ts[1..])
  {
    EntryCommaFree(ts[0]);
    SplitRenderTail(Entry(ts[0]), ts[1..]);
  }

  lemma {:induction false} DictFromStrOfEntry(t: TagRef)
    requires WellFormedTag(t)
    ensures DictFromStr(Entry(t)) == Ok(t)
  {
    DictFromStrEntry([], t);
    assert [] + Entry(t) == Entry(t);
  }

  /** Round trip for the older parser: a list printed from well-formed,
      comma-free tags is parsed back into the same tags. */
  lemma {:induction false} DictsFromListRender(ts: seq<TagRef>)
    requires ts != []
    requires forall k :: 0 <= k < |ts| ==> CommaFreeTag(ts[k])
    ensures DictsFromList(Render(ts)) == Partial(ts, None)
  {
    SplitRender(ts);
    DictFromStrOfEntry(ts[0]);
    DictsFromPieces(ts[1..]);
    DictsFromCons(Entry(ts[0]), Pieces(ts[1..]), ts[0]);
    assert ts == [ts[0]] + ts[1..];
  }
}

=== FILE: textfiles.dfy ===
/** The plain-text url lists the scrapers read and write: one url per
    line, blank lines ignored. */
module TextFiles {
  import opened Strings

  /** What a file opened in text mode reads as: Python's universal newlines
      turn "\r\n" and a lone "\r" into "\n", and leave everything else. */
  function Universal(text: string): (r: string)
    ensures '\r' !in r
    ensures |r| <= |text|
    decreases |text|
  {
    if text == [] then []
    else if text[0] != '\r' then [text[0]] + Universal(text[1..])
    else if |text| > 1 && text[1] == '\n' then "\n" + Universal(text[2..])
    else "\n" + Universal(text[1..])
  }

  /** A text without `\r` reads as itself. */
  lemma {:induction false} UniversalPlain(text: string)
    requires '\r' !in text
    ensures Universal(text) == text
    decreases |text|
  {
    if text != [] {
      UniversalPlain(text[1..]);
      assert text == [text[0]] + text[1..];
    }
  }

  /** How many characters the first step of `Universal` consumes. */
  function StepLen(t: string): (n: nat)
    requires t != []
    ensures 1 <= n <= |t|
  {
    if t[0] == '\r' && |t| > 1 && t[1] == '\n' then 2 else 1
  }

  /** What the first step of `Universal` writes. */
  function StepOut(c: char): string {
    if c == '\r' then "\n" else [c]
  }

  /** `Universal` one step at a time. */
  lemma UniversalStep(t: string)
    requires t != []
    ensures Universal(t) == StepOut(t[0]) + Universal(t[StepLen(t)..])
  {
  }

  /** The first step over `x + y` is the first step over `x`, unless it
      would join a final `\r` of `x` with a leading `\n` of `y`. */
  lemma StepLenConcat(x: string, y: string)
    requires x != [] && !(x[|x| - 1] == '\r' && y != [] && y[0] == '\n')
    ensures (x + y)[0] == x[0] && StepLen(x + y) == StepLen(x)
    ensures (x + y)[StepLen(x)..] == x[StepLen(x)..] + y
  {
    var xy := x + y;
    assert xy[0] == x[0];
    if |x| > 1 {
      assert xy[1] == x[1];
    }
  }

  /** Translation is local: two texts read as their translations one after
      the other, unless a `\r` ending the first and a `\n` starting the
      second make one line break together. */
  lemma {:induction false} UniversalConcat(x: string, y: string)
    requires !(x != [] && x[|x| - 1] == '\r' && y != [] && y[0] == '\n')
    ensures Universal(x + y) == Universal(x) + Universal(y)
    decreases |x|
  {
    var xy := x + y;
    if x == [] {
      assert xy == y;
    } else {
      var h, rest := StepOut(x[0]), x[StepLen(x)..];
      assert Universal(xy) == h + Universal(rest + y) by {
        StepLenConcat(x, y);
        UniversalStep(xy);
      }
      assert Universal(x) == h + Universal(rest) by {
        UniversalStep(x);
      }
      UniversalConcat(rest, y);
      assert h + (Universal(rest) + Universal(y)) == (h + Universal(rest)) + Universal(y);
    }
  }

  /** `from_txt_to_list`: every line stripped, empty ones dropped, in file
      order. A line of the file is a piece between newlines once line
      breaks are translated; its own trailing newline is whitespace and
      goes away with the strip. */
  function FromTxtToList(text: string): (r: seq<string>)
    ensures forall k :: 0 <= k < |r| ==> r[k] != [] && Trimmed(r[k]) && '\n' !in r[k] && '\r' !in r[k]
  {
    var text' := Universal(text);
    SplitAvoids(text', '\n', '\r');
    Kept(Split(text', '\n'))
  }

  /** The non-blank lines, stripped. */
  function Kept(lines: seq<string>): (r: seq<string>)
    requires forall k :: 0 <= k < |lines| ==> '\n' !in lines[k]
    ensures |r| <= |lines|
    ensures forall k :: 0 <= k < |r| ==> r[k] != [] && Trimmed(r[k]) && '\n' !in r[k]
    ensures (forall k :: 0 <= k < |lines| ==> '\r' !in lines[k]) ==> forall k :: 0 <= k < |r| ==> '\r' !in r[k]
    decreases |lines|
  {
    if lines == [] then []
    else
      var line := Strip(lines[0]);
      StripSubset(lines[0], Whitespace);
      (if line == [] then [] else [line]) + Kept(lines[1..])
  }

  /** A file written one entry per line, each followed by a newline (the
      `save` of the url-list scraper and the failure log of the scrapers). */
  function Lines(urls: seq<string>): (r: string)
    ensures Count(r, '\n') >= |urls|
    decreases |urls|
  {
    if urls == [] then []
    else
      CountConcat(urls[0] + "\n", Lines(urls[1..]), '\n');
      CountConcat(urls[0], "\n", '\n');
      urls[0] + "\n" + Lines(urls[1..])
  }

  /** A list whose entries hold no `\r` is written without one, and so
      reads as written. */
  lemma {:induction false} LinesPlain(urls: seq<string>)
    requires forall k :: 0 <= k < |urls| ==> '\r' !in urls[k]
    ensures '\r' !in Lines(urls) && Universal(Lines(urls)) == Lines(urls)
    decreases |urls|
  {
    if urls != [] {
      assert forall k :: 0 <= k < |urls[1..]| ==> urls[1..][k] == urls[k + 1];
      LinesPlain(urls[1..]);
    }
    UniversalPlain(Lines(urls));
  }

  /** A file written one entry per line with Windows line ends. */
  function CrlfLines(urls: seq<string>): string
    decreases |urls|
  {
    if urls == [] then [] else urls[0] + "\r\n" + CrlfLines(urls[1..])
  }

  /** Windows line ends read as newlines: a list written with "\r\n" reads
      as the same list written with "\n". */
  lemma {:induction false} UniversalCrlf(urls: seq<string>)
    requires forall k :: 0 <= k < |urls| ==> '\r' !in urls[k]
    ensures Universal(CrlfLines(urls)) == Lines(urls)
    decreases |urls|
  {
    if urls != [] {
      var u, rest := urls[0], urls[1..];
      assert forall k :: 0 <= k < |rest| ==> rest[k] == urls[k + 1];
      UniversalCrlf(rest);
      assert CrlfLines(urls) == u + "\r" + "\n" + CrlfLines(rest);
      UniversalCr(u, CrlfLines(rest));
      UniversalPlain(u);
    }
  }

  /** A list file with Windows line ends reads back as its entries. */
  lemma {:induction false} FromTxtToListCrlf(urls: seq<string>)
    requires forall k :: 0 <= k < |urls| ==> IsEntry(urls[k])
    ensures FromTxtToList(CrlfLines(urls)) == urls
  {
    UniversalCrlf(urls);
    LinesPlain(urls);
    FromTxtToListLines(urls);
  }

  /** What a list file may hold and read back unchanged. */
  predicate IsEntry(url: string) {
    url != [] && Trimmed(url) && '\n' !in url && '\r' !in url
  }

  /** Reading back a written list gives the same entries. */
  lemma {:induction false} FromTxtToListLines(urls: seq<string>)
    requires forall k :: 0 <= k < |urls| ==> IsEntry(urls[k])
    ensures FromTxtToList(Lines(urls)) == urls
    decreases |urls|
  {
    if urls == [] {
      assert Split([], '\n') == [[]];
    } else {
      var u, rest := urls[0], urls[1..];
      assert forall k :: 0 <= k < |rest| ==> rest[k] == urls[k + 1];
      FromTxtToListLines(rest);
      assert Lines(urls) == u + "\n" + Lines(rest);
      FromTxtToListConcat(u, Lines(rest));
      FromTxtToListEntry(u);
    }
  }

  /** A single entry reads back as itself. */
  lemma {:induction false} FromTxtToListEntry(u: string)
    requires IsEntry(u)
    ensures FromTxtToList(u) == [u]
  {
    UniversalPlain(u);
    SplitAbsent(u, '\n');
    TrimmedIsStripped(u);
    assert [u][1..] == [];
  }

  /** Reading a file that is the concatenation of two reads both parts
      (when the first ends in a newline). */
  lemma {:induction false} FromTxtToListConcat(a: string, b: string)
    ensures FromTxtToList(a + "\n" + b) == FromTxtToList(a) + FromTxtToList(b)
  {
    if a != [] && a[|a| - 1] == '\r' {
      // the `\r` ending `a` and the newline read as one line break; read
      // alone, `a` ends in an extra empty line, which is dropped
      var a' := a[..|a| - 1];
      assert a == a' + "\r";
      UniversalCr(a', b);
      KeptLines(Universal(a'), Universal(b));
      KeptLines(Universal(a'), []);
      assert Kept(Split([], '\n')) == [] by {
        assert Split([], '\n') == [[]];
      }
    } else {
      UniversalNewline(a, b);
      KeptLines(Universal(a), Universal(b));
    }
  }

  /** A newline after a text that does not end in `\r` is a line break of
      its own. */
  lemma {:induction false} UniversalNewline(a: string, b: string)
    requires a == [] || a[|a| - 1] != '\r'
    ensures Universal(a + "\n" + b) == Universal(a) + "\n" + Universal(b)
  {
    UniversalConcat(a, "\n" + b);
    assert ("\n" + b)[1..] == b;
    assert a + "\n" + b == a + ("\n" + b);
  }

  /** A `\r` followed by a newline is one line break, and a `\r` at the
      end of the text is one too. */
  lemma {:induction false} UniversalCr(a: string, b: string)
    ensures Universal(a + "\r" + "\n" + b) == Universal(a) + "\n" + Universal(b)
    ensures Universal(a + "\r") == Universal(a) + "\n" + []
  {
    assert a + "\r" + "\n" + b == a + ("\r\n" + b);
    UniversalConcat(a, "\r\n" + b);
    assert ("\r\n" + b)[2..] == b;
    UniversalConcat(a, "\r");
  }

  /** The kept lines of two translated texts joined by a newline are those
      of each. */
  lemma {:induction false} KeptLines(x: string, y: string)
    ensures Kept(Split(x + "\n" + y, '\n')) == Kept(Split(x, '\n')) + Kept(Split(y, '\n'))
  {
    SplitConcat(x, y, '\n');
    KeptConcat(Split(x, '\n'), Split(y, '\n'));
  }

  lemma {:induction false} KeptConcat(xs: seq<string>, ys: seq<string>)
    requires forall k :: 0 <= k < |xs| ==> '\n' !in xs[k]
    requires forall k :: 0 <= k < |ys| ==> '\n' !in ys[k]
    ensures Kept(xs + ys) == Kept(xs) + Kept(ys)
    decreases |xs|
  {
    if xs == [] {
      assert xs + ys == ys;
    } else {
      assert (xs + ys)[1..] == xs[1..] + ys;
      KeptConcat(xs[1..], ys);
    }
  }

  /** Writing two lists one after the other writes their concatenation. */
  lemma {:induction false} LinesConcat(a: seq<string>, b: seq<string>)
    ensures Lines(a + b) == Lines(a) + Lines(b)
    decreases |a|
  {
    if a == [] {
      assert a + b == b;
    } else {
      assert (a + b)[1..] == a[1..] + b;
      assert (a + b)[0] == a[0];
      LinesConcat(a[1..], b);
    }
  }
}

=== FILE: wrappers.dfy ===
/** Failure-carrying values shared by every component of the scraper model.

    Python signals failure by raising; the model returns a `Result` whose
    failure side names the exception class that the source would raise. */
module Wrappers {

  datatype Option<+T> = None | Some(value: T)

  /** The exception classes the scraper raises or lets through. */
  datatype Error =
    | IndexError          // a `[0]` / `[1]` on a list that is too short
    | KeyError            // a missing `attrs['href']`
    | AttributeError      // an attribute read on `None` or on a response without a socket
    | TypeError           // iterating `None`
    | AssertionError      // the `assert` of the proxy constructor
    | ZeroDivisionError
    | StatisticsError     // `statistics.mean` of an empty list
    | JSONDecodeError     // a persisted record that cannot be loaded
    | MissingExperienceFromPage
    | MissingExperience
    | ConnectionError
    | SOCKS5AuthError
    | HTTPError
    | ValueError          // `urlsplit`'s "Invalid IPv6 URL"
    /** A bare `Exception`, raised with one message or with none. */
    | GenericException(message: Option<string>)

  /** The class name, as `type(e).__name__` prints it. */
  function Name(e: Error): string {
    match e
    case IndexError => "IndexError"
    case KeyError => "KeyError"
    case AttributeError => "AttributeError"
    case TypeError => "TypeError"
    case AssertionError => "AssertionError"
    case ZeroDivisionError => "ZeroDivisionError"
    case StatisticsError => "StatisticsError"
    case JSONDecodeError => "JSONDecodeError"
    case MissingExperienceFromPage => "MissingExperienceFromPage"
    case MissingExperience => "MissingExperience"
    case ConnectionError => "ConnectionError"
    case SOCKS5AuthError => "SOCKS5AuthError"
    case HTTPError => "HTTPError"
    case ValueError => "ValueError"
    case GenericException(_) => "Exception"
  }

  /** `e.args[0]` when the exception carries arguments. Only the bare
      `Exception` has a modelled message; the built-in errors are known to
      carry one, and its text is represented by the class name. */
  function FirstArg(e: Error): Option<string> {
    match e
    case GenericException(m) => m
    case _ => Some(Name(e))
  }

  datatype Result<+T> = Ok(value: T) | Fail(error: Error) {
    predicate IsFailure() { Fail? }

    function PropagateFailure<U>(): Result<U>
      requires Fail?
    {
      Fail(error)
    }

    function Extract(): T
      requires Ok?
    {
      value
    }
  }

  /** The outcome of a loop that appends to a list and may raise part-way:
      what was appended before the failure, and the failure if any. */
  datatype Partial<+T> = Partial(done: seq<T>, failure: Option<Error>)

  /** `for x in xs: out.append(f(x))` where `f` may raise: what was
      appended before the first failure, and that failure. */
  function Collect<A, B>(f: A -> Result<B>, xs: seq<A>): (r: Partial<B>)
    ensures |r.done| <= |xs|
    ensures r.failure.None? ==> |r.done| == |xs|
    ensures r.failure.Some? ==> |r.done| < |xs| && f(xs[|r.done|]) == Fail(r.failure.value)
    decreases |xs|
  {
    if xs == [] then Partial([], None)
    else
      match f(xs[0])
      case Fail(e) => Partial([], Some(e))
      case Ok(y) =>
        var rest := Collect(f, xs[1..]);
        Partial([y] + rest.done, rest.failure)
  }

  /** Every appended value is its own element's result. */
  lemma {:induction false} CollectEach<A, B>(f: A -> Result<B>, xs: seq<A>)
    ensures forall k :: 0 <= k < |Collect(f, xs).done| ==> f(xs[k]) == Ok(Collect(f, xs).done[k])
    decreases |xs|
  {
    if xs != [] && f(xs[0]).Ok? {
      var tail := xs[1..];
      CollectEach(f, tail);
      var r, rt := Collect(f, xs), Collect(f, tail);
      assert r.done == [f(xs[0]).value] + rt.done;
      forall k | 1 <= k < |r.done| ensures f(xs[k]) == Ok(r.done[k]) {
        assert r.done[k] == rt.done[k - 1] && xs[k] == tail[k - 1];
      }
    }
  }

  /** The loop runs to the end exactly when no element fails. */
  lemma {:induction false} CollectCompletes<A, B>(f: A -> Result<B>, xs: seq<A>)
    ensures Collect(f, xs).failure.None? <==> forall k :: 0 <= k < |xs| ==> f(xs[k]).Ok?
    decreases |xs|
  {
    if xs != [] {
      var tail := xs[1..];
      CollectCompletes(f, tail);
      assert forall k :: 1 <= k < |xs| ==> xs[k] == tail[k - 1];
    }
  }

  lemma {:induction false} CollectCons<A, B>(f: A -> Result<B>, x: A, xs: seq<A>, y: B)
    requires f(x) == Ok(y)
    ensures Collect(f, [x] + xs) == Partial([y] + Collect(f, xs).done, Collect(f, xs).failure)
  {
    assert ([x] + xs)[1..] == xs;
  }
}
